=== FILE: README.md ===
# GoAPI job service, modelled in Dafny

GoAPI is an HTTP service that answers questions with retrieval-augmented generation (RAG) and
ingests documents into a vector database. A request to `/chat` passes through these stages:

- The middleware traces it and authenticates it. A rate limiter is defined but not wired in.
- The handler classifies it as a chat query or a document ingestion and queues a job.
- The handler answers `202 Accepted` with the job's status URL.
- A worker later runs the job and saves it as `COMPLETE`.
- `/status/{id}` reports the job.

A chat job runs these steps in order: embedding the question, the semantic cache, the Qdrant
vector search and the LLM. An ingest job runs these: extraction into pages, splitting pages into
overlapping chunks, batch embedding and upserting batches of 100 into Qdrant. The k6 script
`k6/script.js` is a load test that submits a chat and polls its status.

The project models that core, one Dafny module per source file or package:

- **Values:** `JobModel`, `Api`, `CommonModels` and `Config` hold the job record, the JSON
  contracts, documents and chunks, and the constants.
- **Adapter:** `Adapter` and `AdapterUtils` model `internal/adapter` (job to JSON conversion,
  list reversal).
- **Stores:**
  - `Stores` models the in-memory job and message stores as classes whose maps the methods
    update.
  - `RedisStore` and `RedisMessages` model the Redis list commands and the Redis message store
    over an explicit key-to-list map. Every network error is a parameter.
- **Ingestion and RAG:**
  - `IngestImpl` models the splitter, the document type, chunk preparation and batch ingestion.
  - `Ingest` models the document ingestion pipeline. `IngestSeam` connects `IngestImpl` to the
    Qdrant model.
  - `Qdrant` models the payload of a point, search hits and collection creation.
  - `GoogleEmbedding` models batch request shaping, retry and answer download.
  - `Rag` models the RAG service and its step helpers.
- **Jobs:** `JobService` models the job service. `Handlers` models job creation, status lookup
  and request classification. `Worker` models job execution.
- **HTTP and client:**
  - `Middleware` models tracing, bearer authentication, the per-IP limiter map and bad-request
    replies.
  - `K6Scenario` models one k6 iteration as a class whose loop is proved against a functional
    specification.
  - `EndToEnd` connects the worker's saved record to what the k6 client records.
- **Helpers:** `GoStrings` holds the parts of Go's `strings`, `path/filepath` and `strconv` that
  the core relies on.

External services and effects become parameters:

- The embedder, the LLM and the vector database are records of functions (`Deps`).
- The clock is a `Time` argument.
- UUIDs are a fresh-id argument or an `nat -> string` supply.
- Network and server errors are `Option` arguments.
- The token-bucket decision `Allow()` is a `bool` argument.
- The replies the k6 client receives are a submission reply and a function from the poll index
  to a reply.

Go strings are byte strings. Here a `string` holds one character per byte.

Where the code differs from its own comments and names, the model follows the code:

- The worker saves every job as `COMPLETE`, even one whose RAG run or ingestion failed. The
  failure survives only as the `error` field. A failed ingestion leaves no trace at all, because
  `ingestDocument` discards the ingestion's result.
- The in-memory message store keeps no message history (`GetMessageHistory` always returns an
  empty list). So a chat job run over the in-memory stores is answered with no history.
- The Redis message history is the whole list whenever the chat exists. `getCount` is `EXISTS`,
  which is never above 1, so the "last five" branch of `ListGet5PastMessage` is unreachable.
- `Search` reads `page_num`, `chunk_order` and `ingested_at` with `GetStringValue`. These three
  are stored as integers, so they come back empty in the metadata.
- Batch ingestion sends only the non-empty chunk texts to the embedder but upserts the whole
  batch. An empty page produces an empty chunk, so every document with an empty page fails with
  a chunk/vector count mismatch (`IngestSeam.EmptyPageFailsIngestion`).
- The k6 script sends `chat_id` but the server reads `chatID`. The value is empty either way,
  so every k6 submission starts a new chat.
- The k6 script decrements its budget after a `COMPLETE` reply as well. The loop still ends,
  because `jobCompleted` is set.
- In the middleware, `authenticate` writes a 401 reply itself and also marks the request bad,
  and `handleBadRequest` is then called twice, by `processRequest` and again by `Wrap`. A failed
  authentication therefore writes three replies. The rate limiter is defined but not in the chain.

## Model

| member | source | states |
|---|---|---|
| Adapter.ToInitJobResponse | internal/adapter/jobConverter.go:11-16 | the reply carries the job id, and its status URL is `status/` followed by exactly that id |
| Adapter.StatusURLRoundTrip | internal/server/server.go:35 | the `/status/{id}` route reads back exactly the id the status URL was built from |
| Adapter.ToRAGExternalStatus | internal/adapter/jobConverter.go:44-54 | no RAG response (nil) iff the answer is empty and there are no sources; otherwise question, answer and sources copied |
| Adapter.ToAPIResponse | internal/adapter/jobConverter.go:18-42 | error present iff the job's error is set, with code/message/retry copied; ids, times and status text copied; the RAG part is `ToRAGExternalStatus` of the payload |
| Adapter.BadRequest | internal/adapter/jobConverter.go:56-72 | a response with the given id, status "Error", no RAG part, zero times, and the given code and message, not retryable |
| Adapter.ErrorRoundTrip | internal/adapter/jobConverter.go:18-42 | a client rebuilds the job's error record exactly, except a record with zero code, empty message and retry set, whose retry flag is lost |
| Adapter.RAGRoundTrip | internal/adapter/jobConverter.go:44-54 | a present RAG response holds the payload's question, answer and sources unchanged |
| Adapter.BadRequestIsFailedZeroJob | internal/adapter/jobConverter.go:56-72 | a bad-request reply is what `ToAPIResponse` gives for the zero job marked as failed with that id and error |
| AdapterUtils.Reversed | internal/adapter/utils/utils.go:47-52 | same length, element k is element n-1-k of the input |
| AdapterUtils.ReversedTwice | internal/adapter/utils/utils.go:47-52 | reversing twice gives the list back |
| AdapterUtils.ReversedShort | internal/adapter/utils/utils.go:47-52 | lists of at most one element are their own reversal |
| AdapterUtils.ReversedAppend | internal/adapter/utils/utils.go:47-52 | the reversal of s + t is the reversal of t followed by that of s |
| AdapterUtils.ReverseStringArray | internal/adapter/utils/utils.go:47-52 | reverses the array in place, returning the same array, whose contents are the reversal of the old contents |
| Stores.JobLookup | internal/data/store/InMemoryJobStore.go:34-40 | found iff the id is stored; the stored job when found, the zero job otherwise |
| Stores.LookupAfterSave | internal/data/store/InMemoryJobStore.go:25-40 | a saved job is found under its id |
| Stores.SaveKeepsOthers | internal/data/store/InMemoryJobStore.go:25-40 | saving a job does not change the lookup of any other id |
| Stores.LookupAfterDelete | internal/data/store/InMemoryJobStore.go:34-46 | a deleted id is not found; other ids are unaffected |
| Stores.DeleteAbsent | internal/data/store/InMemoryJobStore.go:42-46 | deleting an absent id changes nothing |
| Stores.SaveIdempotent | internal/data/store/InMemoryJobStore.go:25-32 | saving the same job twice equals saving it once |
| Stores.InMemoryJobStore.constructor | internal/data/store/InMemoryJobStore.go:18-23 | the store starts empty |
| Stores.InMemoryJobStore.SaveJob | internal/data/store/InMemoryJobStore.go:25-32 | never fails; the map gains or replaces the job under its id, and the save is recorded in the store's history of writes |
| Stores.InMemoryJobStore.GetJob | internal/data/store/InMemoryJobStore.go:34-40 | the result is `JobLookup` of the store and the id |
| Stores.InMemoryJobStore.DeleteJob | internal/data/store/InMemoryJobStore.go:42-46 | the id is removed and nothing else changes |
| Stores.ChatSavedAppends | internal/data/store/InMemoryMessageStore.go:36-42 | saving to an existing chat appends the conversation; other chats are unchanged; saving to an unknown chat changes nothing |
| Stores.InitThenSaves | internal/data/store/InMemoryMessageStore.go:36-49 | after a new chat is initialised, successive saves leave exactly those conversations in order |
| Stores.SavedAllAppends | internal/data/store/InMemoryMessageStore.go:36-42 | saving conversations in turn to a known chat appends them, in order, to its history |
| Stores.SavedAll | internal/data/store/InMemoryMessageStore.go:36-42 | saving in turn keeps every existing chat present |
| Stores.InMemoryMessageStore.constructor | internal/data/store/InMemoryMessageStore.go:15-20 | the store starts with no chats |
| Stores.InMemoryMessageStore.ValidateChatId | internal/data/store/InMemoryMessageStore.go:22-27 | true iff the chat exists |
| Stores.InMemoryMessageStore.SaveChatId | internal/data/store/InMemoryMessageStore.go:29-34 | appends the conversation to the chat's list, creating the list when absent |
| Stores.InMemoryMessageStore.TrySaveChat | internal/data/store/InMemoryMessageStore.go:36-42 | never fails; appends only when the chat exists (`ChatSaved`) |
| Stores.InMemoryMessageStore.InitNewChat | internal/data/store/InMemoryMessageStore.go:44-49 | never fails; the chat is (re)set to an empty list |
| Stores.InMemoryMessageStore.GetMessageHistory | internal/data/store/InMemoryMessageStore.go:51-54 | no error and an empty history, whatever is stored |
| RedisStore.LRangeToEnd | internal/data/redisStore/methods.go:56-59 | LRANGE start..-1: a non-negative start drops that many elements; a negative one keeps that many from the end, clamped |
| RedisStore.LRangeWindows | internal/data/redisStore/methods.go:41-59 | from 0 gives the whole list; from -5 gives the last five, or the whole list when shorter |
| RedisStore.Store.constructor | internal/data/redisStore/redisStore.go:96-99 | a store over a key space that starts empty |
| RedisStore.Store.ListPush | internal/data/redisStore/methods.go:28-30 | RPUSH: on success the value is appended to the key's list (created when absent); on error nothing changes and the error is returned |
| RedisStore.Store.Del | internal/data/redisStore/methods.go:19-21 | on success the key is gone; on error nothing changes |
| RedisStore.Store.GetCount | internal/data/redisStore/methods.go:37-39 | EXISTS of one key: 1 if present, 0 if absent, 0 on error |
| RedisStore.Store.Exists | internal/data/redisStore/methods.go:32-35 | true iff no error and the key is present |
| RedisStore.Store.ListGetPreviousXMessages | internal/data/redisStore/methods.go:56-59 | on success `LRangeToEnd` of the key's list; empty on error |
| RedisStore.Store.ListGetAll | internal/data/redisStore/methods.go:52-54 | on success the whole list (empty when the key is absent); empty on error |
| RedisStore.Store.ListGet5PastMessage | internal/data/redisStore/methods.go:41-50 | a count error is returned with nothing; an absent key gives nothing and no error; a present key gives its whole list or the range error |
| RedisMessages.ErrOf | internal/data/store/RedisMessageStore.go:27-89 | an error is reported exactly when a Redis error occurred |
| RedisMessages.RedisMessageStore.constructor | internal/data/store/RedisMessageStore.go:20-25 | holds the given Redis store and payload encoder |
| RedisMessages.RedisMessageStore.ValidateChatId | internal/data/store/RedisMessageStore.go:27-38 | true iff EXISTS succeeds and the chat key is present |
| RedisMessages.RedisMessageStore.SaveChatId | internal/data/store/RedisMessageStore.go:50-58 | pushes the encoded conversation onto the chat's list; a push error leaves the lists unchanged and is reported |
| RedisMessages.RedisMessageStore.TrySaveChat | internal/data/store/RedisMessageStore.go:40-48 | an unknown chat or an EXISTS error gives "invalid chat id" and no change; otherwise the `SaveChatId` outcome |
| RedisMessages.RedisMessageStore.InitNewChat | internal/data/store/RedisMessageStore.go:60-68 | the chat key is deleted, then the encoded empty payload pushed; each Redis error case gives its exact resulting list and the push error is reported |
| RedisMessages.RedisMessageStore.GetMessageHistory | internal/data/store/RedisMessageStore.go:78-89 | a count error or range error is reported with no history; an absent chat gives none; otherwise the chat's whole list, newest first |
| JobService.Service.constructor | internal/job/jobService.go:23-31 | the service holds the given counter and stores, with empty job and dispatcher channels |
| IngestImpl.FirstSeparatorFrom | internal/rag/ingest/impl.go:28-38 | the first separator, in priority order, that occurs in the text; none only when no separator from that position occurs |
| IngestImpl.SplitTextIntoChunks | internal/rag/ingest/impl.go:19-77 | the loop computes exactly `SplitText`, the splitter's functional definition |
| IngestImpl.FlushCurrent | internal/rag/ingest/impl.go:50-64 | the flush emits the content when non-empty and keeps its last `overlap` characters, as `Flush` says |
| IngestImpl.ChunkParts | internal/rag/ingest/impl.go:45-76 | the parts loop computes exactly the fold `FeedAll` finished by `Finish` |
| IngestImpl.FeedLinked | internal/rag/ingest/impl.go:48-70 | one part keeps every emitted chunk's successor starting with the overlap tail of the chunk before it |
| IngestImpl.FlushLinked | internal/rag/ingest/impl.go:50-64 | a flush keeps the chunks non-empty and linked: the kept tail starts the next chunk |
| IngestImpl.AppendLinked | internal/rag/ingest/impl.go:66-69 | appending a part keeps the content linked to the last chunk |
| IngestImpl.FeedAllLinked | internal/rag/ingest/impl.go:48-70 | the whole parts loop keeps that overlap linkage |
| IngestImpl.SplitTextWellLinked | internal/rag/ingest/impl.go:19-77 | for a text longer than the limit, each chunk longer than the overlap is followed by a chunk that starts with its last `overlap` characters |
| IngestImpl.FinishLinked | internal/rag/ingest/impl.go:72-76 | flushing the last chunk keeps the linkage |
| IngestImpl.SplitTextSeparator | internal/rag/ingest/impl.go:28-45 | a long text is split on the first separator of the list that it contains |
| IngestImpl.FirstSeparatorSkips | internal/rag/ingest/impl.go:32-38 | separators absent from the text are skipped in order |
| IngestImpl.SplitTextBounded | internal/rag/ingest/impl.go:19-77 | when every part fits with the overlap and separator, no chunk exceeds the limit |
| IngestImpl.FeedAllBounded | internal/rag/ingest/impl.go:48-70 | the parts loop keeps every chunk within the limit under that condition |
| IngestImpl.FeedBounded | internal/rag/ingest/impl.go:50-69 | one part keeps every chunk within the limit under that condition |
| IngestImpl.GetDocType | internal/rag/ingest/impl.go:79-89 | the type of the path's lower-cased final extension: `.pdf` is PDF; `.docx`, `.txt` and `.rtf` are DOCX; anything else is ERR |
| IngestImpl.TypeOfExtension | internal/rag/ingest/impl.go:81-88 | `.pdf` is PDF; `.docx`, `.txt` and `.rtf` are DOCX; anything else is ERR; TXT is never produced |
| IngestImpl.GetDocTypeIgnoresCase | internal/rag/ingest/impl.go:79-89 | the document type does not depend on letter case |
| IngestImpl.GetDocTypeBySuffix | internal/rag/ingest/impl.go:79-89 | the type is decided by the lower-cased final extension alone |
| IngestImpl.GetDocTypeNoDot | internal/rag/ingest/impl.go:79-89 | a path without a dot is ERR |
| IngestImpl.PageTexts | internal/rag/ingest/impl.go:110-112 | one list of chunk texts per page |
| IngestImpl.PrepareChunks | internal/rag/ingest/impl.go:103-129 | the loop computes exactly `Prepared`, the chunks of all pages in page order |
| IngestImpl.AppendPageChunks | internal/rag/ingest/impl.go:115-125 | appends one chunk per text, numbered in page order, after the chunks so far |
| IngestImpl.ChunkedFields | internal/rag/ingest/impl.go:115-125 | every chunk carries the document, a fresh id by position, the model, and a page number taken from some page |
| IngestImpl.PreparedFields | internal/rag/ingest/impl.go:103-129 | the same for the prepared chunks of the whole document |
| IngestImpl.ChunkedWholePages | internal/rag/ingest/impl.go:110-126 | pages that split into themselves give one chunk each with order 0 |
| IngestImpl.PreparedShortPages | internal/rag/ingest/impl.go:103-129 | pages no longer than 1000 characters give exactly one whole-page chunk each, in page order |
| IngestImpl.ChunkedPrefix | internal/rag/ingest/impl.go:110-126 | the chunks of the first m pages are a prefix of the chunks of the first n pages |
| IngestImpl.EmptyPageGivesEmptyChunk | internal/rag/ingest/impl.go:103-129 | a page with no text yields a chunk with no text |
| IngestImpl.NonEmptyTexts | internal/rag/ingest/impl.go:155-160 | at most as many texts as chunks, none of them empty |
| IngestImpl.BatchAt | internal/rag/ingest/impl.go:143-149 | the batch starting at chunk i holds the next 100 chunks, or all that remain when fewer do, and at least one |
| IngestImpl.NextBatch | internal/rag/ingest/impl.go:143-149 | while chunks remain at i, the first batch is `chunks[i:end]` with end capped at the length, and the rest start at i + 100 |
| IngestImpl.BatchesCoverChunks | internal/rag/ingest/impl.go:143-149 | the batches laid end to end are exactly the chunks: none lost, repeated or reordered |
| IngestImpl.BatchesBounded | internal/rag/ingest/impl.go:135-149 | every batch holds between 1 and 100 chunks |
| IngestImpl.BatchIngest | internal/rag/ingest/impl.go:131-177 | the loop returns exactly the error of the functional trace `Ingested` |
| IngestImpl.CollectTexts | internal/rag/ingest/impl.go:155-160 | the loop collects exactly the batch's non-empty texts in order |
| IngestImpl.IngestStep | internal/rag/ingest/impl.go:143-174 | one batch: on success the trace continues with the next batch; on failure it stops with that batch's error |
| IngestImpl.IngestFirstError | internal/rag/ingest/impl.go:143-176 | no error iff every batch succeeds; otherwise the error is that of the first failing batch, after embedding exactly the batches up to it |
| IngestImpl.IngestEmbedded | internal/rag/ingest/impl.go:155-164 | the i-th embedding call receives exactly the non-empty texts of batch i |
| IngestImpl.IngestUpserted | internal/rag/ingest/impl.go:164-173 | the i-th upsert receives exactly batch i, and only after batch i was embedded |
| IngestImpl.IngestSucceededAll | internal/rag/ingest/impl.go:143-176 | a run without error embeds and upserts every batch |
| IngestImpl.IngestedCoversAll | internal/rag/ingest/impl.go:131-177 | on success every chunk is upserted exactly once, in order |
| IngestImpl.IngestOf150Chunks | internal/rag/ingest/impl.go:135-149 | 150 chunks go in two upserts, of 100 and 50 |
| IngestSeam.QdrantBacked | internal/rag/vectorDB/qdrantDB/qdrant.go:127-130 | the vector database whose upsert outcome is the Qdrant model's `UpsertError` |
| IngestSeam.NonEmptyTextsComplete | internal/rag/ingest/impl.go:155-160 | no text is dropped iff no chunk is empty |
| IngestSeam.BatchSucceedsIffNoEmpty | internal/rag/ingest/impl.go:155-172 | with an embedder that returns one vector per text, a batch succeeds iff none of its chunks is empty |
| IngestSeam.FlattenMember | internal/rag/ingest/impl.go:143-149 | a chunk is in the batches laid end to end iff it is in one of the batches |
| IngestSeam.NoEmptyChunkInBatches | internal/rag/ingest/impl.go:143-160 | no chunk is empty iff no batch holds an empty chunk |
| IngestSeam.IngestSucceedsIffNoEmptyChunk | internal/rag/ingest/impl.go:131-177 | batch ingestion succeeds iff no chunk is empty |
| IngestSeam.EmptyPageFailsIngestion | internal/rag/ingest/impl.go:103-177 | a document with an empty page always fails to ingest |
| Ingest.ProcessDocumentIngestion | internal/rag/ingest/ingest.go:23-81 | only step, status and error change; the status is Complete or Error; each failing stage (collection, unknown type, extraction, ingestion) gives Error with the error it sets |
| Qdrant.PayloadOf | internal/rag/vectorDB/qdrantDB/qdrant.go:143-151 | the payload has exactly the seven keys written |
| Qdrant.StringField | internal/rag/vectorDB/qdrantDB/qdrant.go:105-113 | a string value is read back; anything else reads as empty |
| Qdrant.IntField | internal/rag/vectorDB/qdrantDB/qdrant.go:143-151 | an integer value is read back; anything else reads as 0 |
| Qdrant.PointRoundTrip | internal/rag/vectorDB/qdrantDB/qdrant.go:136-152 | a point's id and vector are the chunk id and its vector, and its payload gives the chunk back |
| Qdrant.MakePoints | internal/rag/vectorDB/qdrantDB/qdrant.go:132-153 | one point per chunk, built from the chunk and the vector at the same index |
| Qdrant.UpsertedContents | internal/rag/vectorDB/qdrantDB/qdrant.go:155-160 | after an upsert each id holds its last point in the batch; ids not in the batch are unchanged |
| Qdrant.UpsertError | internal/rag/vectorDB/qdrantDB/qdrant.go:127-168 | no error iff the counts match and the server accepts; the mismatch and server-failure messages as written |
| Qdrant.MismatchAlwaysFails | internal/rag/vectorDB/qdrantDB/qdrant.go:128-130 | a chunk/vector count mismatch always fails, with the "mismatch: got" message |
| Qdrant.MetadataOf | internal/rag/vectorDB/qdrantDB/qdrant.go:109-115 | five metadata strings per hit |
| Qdrant.MetadataAll | internal/rag/vectorDB/qdrantDB/qdrant.go:103-117 | five metadata strings per hit |
| Qdrant.MetadataAllSlices | internal/rag/vectorDB/qdrantDB/qdrant.go:103-117 | hit i's five strings sit at positions 5i to 5i+4, in the order page, chunk order, chunk id, ingestion time, document id |
| Qdrant.Search | internal/rag/vectorDB/qdrantDB/qdrant.go:86-121 | a query error gives no matches and the error; otherwise the query's limit keeps the best `SearchLimit` (3) ranked points, giving one match and five metadata strings per point kept, in rank order; never more than 3 matches and 15 metadata strings |
| Qdrant.CollectHits | internal/rag/vectorDB/qdrantDB/qdrant.go:103-117 | the loop over the hits: one match and five metadata strings per hit, in hit order |
| Qdrant.SearchOfStoredChunk | internal/rag/vectorDB/qdrantDB/qdrant.go:103-117 | a stored chunk is found as its content and document name; its string ids come back, and its integer fields read as empty |
| Qdrant.ClientHolder.constructor | internal/rag/vectorDB/qdrantDB/qdrant.go:27-45 | the client holds the given collections |
| Qdrant.ClientHolder.CreateCollection | internal/rag/vectorDB/qdrantDB/qdrant.go:170-192 | an empty name fails; an existence error is returned; an existing collection is kept; otherwise it is created with dimension 1536, or the create error is returned |
| Qdrant.ClientHolder.UpsertBatch | internal/rag/vectorDB/qdrantDB/qdrant.go:127-168 | the error is `UpsertError`; on error nothing changes; on success the collection holds the points upserted |
| Rag.InternalError | internal/rag/helpers.go:28-32 | code 500, "Internal Server Error", with the given retry flag |
| Rag.ReturnOutput | internal/rag/helpers.go:13-17 | sets the answer and the step Complete, and nothing else |
| Rag.LogOutput | internal/rag/helpers.go:19-23 | sets the step, and nothing else |
| Rag.FailedJob | internal/rag/helpers.go:25-35 | sets status Error and the internal error, and nothing else |
| Rag.ExecuteEmbeddingStep | internal/rag/helpers.go:36-43 | step EmbeddingAPICall; the embedding of the question |
| Rag.ExecuteCacheCheckStep | internal/rag/helpers.go:45-53 | step CacheCall; the cached answer and whether it was found |
| Rag.ExecuteVectorSearchStep | internal/rag/helpers.go:55-64 | step VectorDBCall; the sources become the search metadata; the matches and error are returned |
| Rag.ExecuteLLMStep | internal/rag/helpers.go:66-73 | step LLMCall; the generated answer for question, matches and history |
| Rag.Answered | internal/rag/ragService.go:70-111 | the request (id, chat, question, ingest fields) is kept; the status is unchanged or Error with a retryable 500; a failed run never ends at step Complete |
| Rag.ProcessRequest | internal/rag/ragService.go:70-111 | the step-by-step run computes exactly `Answered` |
| Rag.IngestDocument | internal/rag/ragService.go:113-121 | step IngestProcessing; Complete with the job's error when ingestion succeeds, Error with a retryable 500 otherwise |
| Rag.FailedJobKeepsStep | internal/rag/helpers.go:25-35 | a failure keeps the step it happened at and the payload |
| Rag.FailedJobIdempotent | internal/rag/helpers.go:25-35 | failing twice equals failing once |
| Rag.EmbeddingFailureStops | internal/rag/ragService.go:76-82 | an embedding failure ends the run with a retryable 500 at step EmbeddingAPICall, payload untouched |
| Rag.CacheHitAnswers | internal/rag/ragService.go:84-88 | a cache hit answers with the cached text at step Complete, without search or generation |
| Rag.SearchThenGenerate | internal/rag/ragService.go:90-110 | after a miss the sources are the search metadata; a search error fails at VectorDBCall, an LLM error at LLMCall, otherwise the answer is the generated text |
| Rag.ReturnOutputLastWins | internal/rag/helpers.go:13-17 | the last answer written wins |
| Handlers.JobHandler.constructor | internal/handlers/jobHandler.go:27-36 | the handler holds the given service |
| Handlers.ChatRequestsSignalEveryTenth | internal/handlers/jobHandler.go:105-110 | k chat requests from a zero counter send k/10 dispatcher signals |
| Handlers.SignalBounds | internal/handlers/jobHandler.go:105-110 | at most one signal per request, and exactly one per ingest request |
| Handlers.QueuedJob | internal/handlers/jobHandler.go:73-90 | a Queued job with the id, trace and creation time; ingest jobs get IngestInit and the document fields and no chat; chat jobs get UserQueryInit, the chat id and the question |
| Handlers.PushToJobChannel | internal/handlers/jobHandler.go:71-111 | exactly `QueuedJob` is appended to the channel, the counter goes up by one, and a signal is sent iff the new count is a multiple of 10 or the job is an ingestion |
| Handlers.CreateNewJob | internal/handlers/jobHandler.go:38-46 | exactly `QueuedJob` is queued, the counter and dispatcher signal as in `PushToJobChannel`; a new chat is initialised empty, otherwise the chats are unchanged |
| Handlers.GetJobStatus | internal/handlers/jobHandler.go:48-54 | without a handler: not found and the zero job; otherwise the job store's lookup |
| Handlers.ValidateChatRequest | internal/handlers/jobHandler.go:56-68 | no handler or an empty message fails; no chat id passes; otherwise valid iff the chat exists |
| Handlers.ValidateId | internal/handlers/utils.go:27-33 | an empty id is not found without a lookup; otherwise found exactly when the id is in the job map, with the stored job when found and the zero job when not |
| Handlers.Classified | internal/handlers/utils.go:70-96 | a chat iff no document name and path: it keeps its chat id, or takes a fresh one and is a new chat; otherwise an ingest with no chat and no message |
| Handlers.ClassifyRequest | internal/handlers/utils.go:70-96 | the step-by-step assignments of the local variables give exactly `Classified` |
| Handlers.ProcessNewJobData | internal/handlers/utils.go:69-101 | replies 202 with the status URL of the fresh job; queues exactly `QueuedJob` of the classified request, counting it and signalling as in `PushToJobChannel`; initialises a fresh chat only for a chat without a chat id |
| Handlers.QueuedRequestJob | internal/handlers/utils.go:69-101 | the queued job of a chat asks the message under the request's chat id, or the fresh one when it has none; an ingest carries the document name and path and no chat; both are Queued under the fresh id and trace |
| Worker.QueryOutcome | internal/worker/workerMethods.go:61-68 | the request is kept, and the status is unchanged or Error |
| Worker.FinalRecord | internal/worker/workerMethods.go:14-44 | always Complete with the end time; an ingest job changes only step, end time and status |
| Worker.SaveJobState | internal/worker/workerMethods.go:70-75 | the job with the given status is saved once, under its id |
| Worker.IngestDocument | internal/worker/workerMethods.go:55-59 | the ingestion runs and the job is returned as given |
| Worker.ProcessQuery | internal/worker/workerMethods.go:61-68 | with the in-memory store's empty history, the RAG outcome `Answered` |
| Worker.ExecuteJob | internal/worker/workerMethods.go:14-44 | exactly two saves: the job as received marked RUNNING, then `FinalRecord`; the store ends with `FinalRecord` under the job's id; an ingest job leaves the chats alone; a query job's payload is appended to its chat unless the query failed |
| Worker.FailedQuerySavedComplete | internal/worker/workerMethods.go:32-43 | a failed query is saved as Complete with the retryable 500 |
| Worker.IngestFailureInvisible | internal/worker/workerMethods.go:55-59 | a failed ingestion is saved as Complete with the job's own error, like a successful one |
| Middleware.ResponseWriter.WriteErrorResponse | internal/handlers/utils.go:52-54 | appends one reply with the code and `BadRequest(id, error, code)` |
| Middleware.InjectTrace | internal/middleware/implementation.go:16-37 | a nil request is marked bad with 400 "request is empty"; otherwise the trace is the header's or a fresh one, written to the header and the context, and other headers are unchanged |
| Middleware.TraceIsKept | internal/middleware/implementation.go:16-37 | a request with a trace header keeps it, and tracing twice changes nothing more |
| Middleware.IsValidBearerToken | internal/middleware/implementation.go:53-72 | valid iff the bypass is set or the header is exactly "Bearer " followed by the token |
| Middleware.Authenticate | internal/middleware/implementation.go:39-51 | a valid token changes nothing; an invalid one writes a 401 "Unauthorized" reply and marks the request bad with 401 and its message |
| Middleware.SplitHostPort | internal/middleware/implementation.go:76 | success only for an address with a colon, and the port has none; an address without a colon is the missing-port error |
| Middleware.PlainAddressKeysOnHost | internal/middleware/implementation.go:76-79 | "host:port" with a plain host splits into host and port, and the limiter is keyed by the host |
| Middleware.NoPortKeysOnAddress | internal/middleware/implementation.go:76-79 | an address without a port is used whole as the key |
| Middleware.Limiter.constructor | internal/middleware/rateLimiter.go:28 | a limiter with the given rate and burst |
| Middleware.IPRateLimiter.constructor | internal/middleware/rateLimiter.go:19-21 | no limiters, with the given rate and burst |
| Middleware.IPRateLimiter.GetLimiter | internal/middleware/rateLimiter.go:23-32 | the existing limiter of the ip, or a fresh one with the configured rate and burst stored under it; other ips unchanged |
| Middleware.NewLimiterInstance | internal/middleware/rateLimiter.go:10 | an empty limiter map with 2 requests per second and burst 5 |
| Middleware.RateLimiter | internal/middleware/implementation.go:74-92 | the key keeps its limiter, or gets a fresh one with the configured rate and burst, and no other address's limiter changes; an allowed request passes unchanged; otherwise it is marked bad with 429 and its message |
| Middleware.HandleBadRequest | internal/middleware/implementation.go:94-101 | passes iff not marked bad; a bad request gets one reply with its code and message and the id "Your IP: " + address |
| GoogleEmbedding.GetContent | internal/rag/embedding/googleEmbedding/batchProcessing.go:14-23 | one single-part content per chunk, in order |
| GoogleEmbedding.ContentTextsRoundTrip | internal/rag/embedding/googleEmbedding/batchProcessing.go:14-23 | reading the contents' texts back gives the chunks |
| GoogleEmbedding.GetInlinedBatchRequests | internal/rag/embedding/googleEmbedding/batchProcessing.go:35-42 | output dimension 1536, and one content per chunk carrying its text |
| GoogleEmbedding.StatusCode | internal/rag/embedding/googleEmbedding/batchProcessing.go:26-27 | a plain error has no gRPC status; a status error has its own code |
| GoogleEmbedding.DoRetry | internal/rag/embedding/googleEmbedding/batchProcessing.go:25-33 | a plain error is not retried; a status error is retried iff its code is ResourceExhausted |
| GoogleEmbedding.RetryThroughWrapping | internal/rag/embedding/googleEmbedding/batchProcessing.go:25-33 | wrapping an error any number of times does not change the retry decision |
| GoogleEmbedding.ValuesOf | internal/rag/embedding/googleEmbedding/batchProcessing.go:86-94 | a vector iff the response is present, has no error and has an embedding |
| GoogleEmbedding.DownloadAnswerFromClient | internal/rag/embedding/googleEmbedding/batchProcessing.go:78-98 | never an error; no responses give nothing; otherwise one entry per response, each `ValuesOf` it |
| GoogleEmbedding.DownloadedVectorPresent | internal/rag/embedding/googleEmbedding/batchProcessing.go:86-94 | a successful response yields its vector; an errored one yields none |
| K6Scenario.PollOnce | k6/script.js:40-89 | a poll requests the URL and records "status - rate limit" first; going on spends one retry; stopping leaves the budget |
| K6Scenario.Iteration.constructor | k6/script.js:10 | an iteration starts with nothing recorded |
| K6Scenario.Iteration.Poll | k6/script.js:40-88 | one pass of the polling loop ends in the state `PollOnce` specifies and goes on exactly when `PollOnce` does |
| K6Scenario.Iteration.Run | k6/script.js:10-92 | the imperative iteration ends in exactly the state `Scenario` specifies |
| K6Scenario.LoopBounds | k6/script.js:38-89 | the loop polls at most its budget, only the status URL, and only appends checks |
| K6Scenario.AtMostTenPolls | k6/script.js:38-40 | an iteration polls at most ten times, always the job's status URL |
| K6Scenario.RateLimitedSubmission | k6/script.js:19-25 | a 429 submission records only "rate limit hit" as passed and polls nothing |
| K6Scenario.PollsIffAccepted | k6/script.js:21-32 | polling happens iff the submission is not 429 and is accepted with id and status URL; the four submission checks come first |
| K6Scenario.RateLimitedPollStops | k6/script.js:50-56 | a 429 poll records the rate-limit check and ends the iteration |
| K6Scenario.ErrorBodyBreaks | k6/script.js:84-87 | a non-COMPLETE body with an error breaks the loop with the budget unspent |
| K6Scenario.CompleteEndsPolling | k6/script.js:66-81 | a COMPLETE body ends polling and records "has error" or "has answer text" from the body |
| K6Scenario.CompleteWithoutAnswerFaults | k6/script.js:72-76 | a COMPLETE body with no error and no RAG response fails "has answer text" and then throws at line 76 |
| K6Scenario.MissingResultFaults | k6/script.js:62-63 | a body without a result throws at line 63 after the two status checks |
| EndToEnd.Encode | internal/api/apiContracts.go:11-35 | chat_id, result and status are always present; error and rag_response are present iff set |
| EndToEnd.PollURLHitsStatusRoute | k6/script.js:43 | the client polls BASE_URL/status/{id}, and the route reads back that id |
| EndToEnd.FailedChatReportedAsCompleteWithError | internal/worker/workerMethods.go:32-43 | a failed chat is seen by the client as COMPLETE with an error: polling ends and "has error" passes |
| EndToEnd.AnsweredChatReportedWithAnswer | internal/worker/workerMethods.go:32-43 | an answered chat is seen as COMPLETE and "has answer text" passes |
| EndToEnd.FailedIngestLooksComplete | internal/worker/workerMethods.go:28-43 | a failed ingestion is seen as COMPLETE with no error and no answer, failing "has answer text" and throwing at line 76 |

## Left out

- Concurrency is not modelled. That covers the mutexes, `sync.Once`, the atomic counter and
  channels as blocking queues (the job and dispatcher channels are sequences that only grow). It
  also covers the worker pool, the dispatcher and idle-worker removal (`internal/worker/worker.go`
  is not part of this model).
- Logging, metrics, tracing contexts and sleeps have no observable effect on the modelled state
  and are left out.
- HTTP routing, JSON decoding of requests, `requestHandler.go` and the `processRequest` chain
  that strings the middleware together are left out. Only the stages themselves are modelled.
  `processRequest` would call `authenticate` on a nil request and panic. `Middleware.Authenticate`,
  `Middleware.RateLimiter` and `Middleware.HandleBadRequest` (for a request marked bad) therefore
  require a request.
- The Gemini and Google client calls, `pollForAnswer` and its sleeps are external calls. The
  embedder, LLM and cache are function parameters.
- PDF/DOCX extraction (`extractText`, `pageExtraction.go`) and `os.Remove` of the uploaded file
  are left out. Extraction is a function parameter.
- The Redis job store (JSON encoding of jobs), Redis `Set`/`Get`/`IsNil` and the connection
  set-up are left out. The production wiring of the handler and worker to Redis is left out too:
  they are modelled over the in-memory stores, which stand in for Redis. `cmd/api/main.go:74`
  falls back to the in-memory stores only when a store is nil. The Redis constructors always
  return non-nil stores, so that fallback cannot trigger.
- A dependency's reply depends only on the call's arguments. A service that answers the same
  request differently on two calls (a batch that fails once and then succeeds) is not captured.
- Qdrant.Search: the server's ranking of points by similarity to the query vector is taken
  as given, as the query's successful value. The model applies the query's limit of 3 to it.
- The semantic-cache internals, cosine similarity and all floating point are left out. Vectors
  are opaque values.
- UTF-8 decoding and HTTP header canonicalisation are left out. Strings hold one character per
  byte, and header keys are compared as written.
- Middleware.RateLimiter: the token-bucket timing of `rate.Limiter.Allow` is left out. Its
  decision is a parameter.
- `config.NoAuthBypass` and `config.AuthToken` are not part of this model. They are parameters
  of `Middleware.IsValidBearerToken`.
- k6 response bodies are always JSON objects. A response that is not JSON, on which `r.json()`
  throws (`k6/script.js` lines 28-29, 33-34 and 62), is not represented.
- The k6 `options` (20 virtual users for 5 seconds), `console.log` and the final `sleep(1)` are
  left out.
- The background save of an answer to the semantic cache is left out.
- Time stamps are integers. `time.Now()` is a parameter.

=== FILE: adapter.dfy ===
/**
 * The job-to-response conversions of internal/adapter/jobConverter.go: what a client sees
 * of a job record, of its answer and of a rejected request.
 */
module Adapter {
  import opened Wrappers
  import opened GoStrings
  import opened JobModel
  import opened Api

  const StatusRoutePrefix: string := "status/"

  /** ToInitJobResponse: the new job's id and the relative URL to poll it at. */
  function ToInitJobResponse(id: string): (r: InitJobResponse)
    ensures r.id == id
    ensures HasPrefix(r.statusURL, StatusRoutePrefix) && |r.statusURL| == |StatusRoutePrefix| + |id|
  {
    InitJobResponse(id, StatusRoutePrefix + id)
  }

  /** The job id in a status URL, as the /status/{id} route reads it back. */
  function StatusRouteId(statusURL: string): string
  {
    TrimPrefix(statusURL, StatusRoutePrefix)
  }

  /** Polling the URL handed out for a job asks about that job. */
  lemma StatusURLRoundTrip(id: string)
    ensures StatusRouteId(ToInitJobResponse(id).statusURL) == id
  {
    var url := ToInitJobResponse(id).statusURL;
    assert url[..|StatusRoutePrefix|] == StatusRoutePrefix;
    assert url[|StatusRoutePrefix|..] == id;
  }

  /** ToRAGExternalStatus: no RAG response when there is neither an answer nor a source, else the payload's question, answer and sources. */
  function ToRAGExternalStatus(ragData: JobPayload): (r: Option<RAGResponse>)
    ensures r.None? <==> ragData.answer == "" && |ragData.sources| == 0
    ensures r.Some? ==>
      r.value.question == ragData.question && r.value.answer == ragData.answer && r.value.sources == ragData.sources
  {
    if ragData.answer == "" && |ragData.sources| == 0 then None
    else Some(RAGResponse(ragData.question, ragData.answer, ragData.sources))
  }

  /** Whether a job's error record is reported: only a non-zero code or a non-empty message counts. */
  predicate HasError(e: JobError)
  {
    e.message != "" || e.code != 0
  }

  /** ToAPIResponse: the job's id, chat, times and status, its RAG response, and its error when it has one. */
  function ToAPIResponse(job: Job): (r: JobResponse)
    ensures r.error.Some? <==> HasError(job.error)
    ensures r.error.Some? ==> r.error.value == JobOutgoingError(job.error.code, job.error.message, job.error.retry)
    ensures r.id == job.id && r.chatId == job.chatId && r.startTime == job.createdTime && r.endTime == job.endTime
    ensures r.result.status == StatusText(job.status)
    ensures r.result.ragResponse == ToRAGExternalStatus(job.payload)
  {
    var errorPtr := if HasError(job.error) then Some(JobOutgoingError(job.error.code, job.error.message, job.error.retry))
                    else None;
    var result := JobResult(StatusText(job.status), ToRAGExternalStatus(job.payload));
    JobResponse(job.id, job.chatId, result, errorPtr, job.createdTime, job.endTime)
  }

  /** BadRequest: a response with status "Error", no RAG response, no chat, zero times and a non-retryable error. */
  function BadRequest(id: string, error: string, code: int): (r: JobResponse)
    ensures r.id == id && r.chatId == "" && r.startTime == 0 && r.endTime == 0
    ensures r.result == JobResult(JobStatusErrorText, None)
    ensures r.error == Some(JobOutgoingError(code, error, false))
  {
    JobResponse(id, "", JobResult(JobStatusErrorText, ToRAGExternalStatus(EmptyPayload)), Some(JobOutgoingError(code, error, false)),
                0, 0)
  }

  // ---------------------------------------------------------------------------
  // Properties

  /** The error record a client can rebuild from a response. */
  function ErrorOfResponse(r: JobResponse): JobError
  {
    match r.error
    case None => NoError
    case Some(e) => JobError(e.code, e.message, e.retry)
  }

  /**
   * A client recovers the job's error record exactly, except for a record with zero code,
   * empty message and retry set, whose retry flag is lost.
   */
  lemma ErrorRoundTrip(job: Job)
    ensures ErrorOfResponse(ToAPIResponse(job)) == job.error <==>
      !(job.error.code == 0 && job.error.message == "" && job.error.retry)
  {
  }

  /** A client recovers the job's question, answer and sources whenever it gets a RAG response at all. */
  lemma RAGRoundTrip(job: Job)
    requires ToAPIResponse(job).result.ragResponse.Some?
    ensures var rag := ToAPIResponse(job).result.ragResponse.value;
      job.payload.(question := rag.question, answer := rag.answer, sources := rag.sources) == job.payload
  {
  }

  /** BadRequest is the response of a fresh job record that failed with that error. */
  lemma BadRequestIsFailedZeroJob(id: string, error: string, code: int)
    requires error != "" || code != 0
    ensures BadRequest(id, error, code) ==
      ToAPIResponse(ZeroJob.(id := id, status := StatusError, error := JobError(code, error, false)))
  {
  }
}

=== FILE: adapter_utils.dfy ===
/** ReverseStringArray of internal/adapter/utils/utils.go: in-place reversal of a slice. */
module AdapterUtils {

  /** s in reverse order. */
  function Reversed(s: seq<string>): (r: seq<string>)
    ensures |r| == |s|
    ensures forall k :: 0 <= k < |s| ==> r[k] == s[|s| - 1 - k]
    decreases |s|
  {
    if s == [] then [] else Reversed(s[1..]) + [s[0]]
  }

  /** Reversing twice gives back the original. */
  lemma ReversedTwice(s: seq<string>)
    ensures Reversed(Reversed(s)) == s
  {
    var r := Reversed(Reversed(s));
    assert forall k :: 0 <= k < |s| ==> r[k] == s[k];
  }

  /** Empty and one-element sequences are their own reversal. */
  lemma ReversedShort(s: seq<string>)
    requires |s| <= 1
    ensures Reversed(s) == s
  {
  }

  /** Reversal distributes over concatenation, swapping the parts. */
  lemma {:induction false} ReversedAppend(s: seq<string>, t: seq<string>)
    ensures Reversed(s + t) == Reversed(t) + Reversed(s)
  {
    var r := Reversed(s + t);
    var q := Reversed(t) + Reversed(s);
    assert |r| == |q|;
    forall k | 0 <= k < |r|
      ensures r[k] == q[k]
    {
      if k < |t| {
        assert r[k] == (s + t)[|s| + |t| - 1 - k];
      } else {
        assert r[k] == (s + t)[|s| + |t| - 1 - k];
      }
    }
  }

  /**
   * ReverseStringArray: swaps from both ends towards the middle, in place, and returns
   * the same array.
   */
  method ReverseStringArray(arr: array<string>) returns (r: array<string>)
    modifies arr
    ensures r == arr
    ensures arr[..] == Reversed(old(arr[..]))
  {
    ghost var original := arr[..];
    var i, j := 0, arr.Length - 1;
    while i < j
      invariant 0 <= i <= j + 1 <= arr.Length && i + j == arr.Length - 1
      invariant forall k :: 0 <= k < i ==> arr[k] == original[arr.Length - 1 - k]
      invariant forall k :: j < k < arr.Length ==> arr[k] == original[arr.Length - 1 - k]
      invariant forall k :: i <= k <= j ==> arr[k] == original[k]
    {
      arr[i], arr[j] := arr[j], arr[i];
      i, j := i + 1, j - 1;
    }
    return arr;
  }
}

=== FILE: api_contracts.dfy ===
/** The wire records of internal/api/apiContracts.go. */
module Api {
  import opened Wrappers

  /** api.JobStatusError. */
  const JobStatusErrorText: string := "Error"

  datatype JobOutgoingError = JobOutgoingError(code: int, message: string, retry: bool)

  datatype RAGResponse = RAGResponse(question: string, answer: string, sources: seq<string>)

  /** api.Result; a nil *RAGResponse is None. */
  datatype JobResult = JobResult(status: string, ragResponse: Option<RAGResponse>)

  /** api.JobResponse; a nil *JobOutgoingError is None. */
  datatype JobResponse = JobResponse(
    id: string,
    chatId: string,
    result: JobResult,
    error: Option<JobOutgoingError>,
    startTime: int,
    endTime: int)

  datatype InitJobResponse = InitJobResponse(id: string, statusURL: string)

  datatype ChatRequest = ChatRequest(message: string, chatID: string)
}

=== FILE: common_models.dfy ===
/** Documents and chunks of internal/domain/commonModels/models.go. */
module CommonModels {

  datatype DocType = PDF | DOCX | TXT | ERR

  datatype Document = Document(id: string, name: string, lastIngestTimestamp: int, contentType: DocType)

  datatype DocChunk = DocChunk(
    doc: Document,
    chunkId: string,
    chunk: string,
    pageNum: int,
    chunkPageOrder: int,
    embeddingDimension: string)
}

=== FILE: config.dfy ===
/** The constants of internal/config/environmentVariables.go that the modelled code reads. */
module Config {

  /** A new worker is signalled every this many pushed requests. */
  const RequestsPerNewWorkerCount: int := 10

  /** Name of the Qdrant collection that holds document chunks. */
  const EmbeddingDBName: string := "my-quadDB"

  /** Per-IP token-bucket rate and burst. */
  const RateLimitPerSecond: real := 2.0
  const BurstRateLimitPerSecond: int := 5

  const EmbeddingOutputDimensionality: int := 1536
}

=== FILE: deps.dfy ===
/**
 * The dependency interfaces of internal/rag/vectorDB/vector.go,
 * internal/rag/embedding/embeddingManager.go and internal/rag/llm/provider.go.
 * Each interface becomes a record of functions: a dependency's reply is a function
 * of the call's arguments.
 */
module Deps {
  import opened Wrappers
  import opened CommonModels

  /** An embedding; its float32 values are carried, never inspected. */
  type Vector = seq<real>

  /** Search's three results (matches, metadata, error). */
  datatype SearchReply = SearchReply(matches: seq<string>, metadata: seq<string>, err: Option<string>)

  /** GetCachedAnswer's three results (answer, found, error). */
  datatype CacheReply = CacheReply(answer: string, found: bool, err: Option<string>)

  /** vectorDB.DataProcessor. */
  datatype DataProcessor = DataProcessor(
    search: Vector -> SearchReply,
    getCachedAnswer: Vector -> CacheReply,
    createCollection: string -> Option<string>,
    upsertBatch: (string, seq<DocChunk>, seq<Vector>) -> Option<string>)

  /** embedding.Embedder. */
  datatype Embedder = Embedder(
    getEmbedding: string -> Result<Vector>,
    batchEmbedding: (seq<string>, bool) -> Result<seq<Vector>>)

  /** llm.Provider: Generate(question, matches, history). */
  datatype Provider = Provider(generate: (string, seq<string>, seq<string>) -> Result<string>)
}

=== FILE: end_to_end.dfy ===
/**
 * How a job the worker saved reaches the k6 client: the status route answers 200 with
 * ToAPIResponse of the stored job, encoded as JSON (chat_id, result and result.status always
 * present; rag_response and error omitted when nil), and the client's polling pass reads it.
 */
module EndToEnd {
  import opened Wrappers
  import opened JobModel
  import opened Api
  import opened IngestImpl
  import opened CommonModels
  import Adapter
  import Rag
  import Worker
  import K6Scenario

  const StatusOK: int := 200

  /** The JSON a JobResponse encodes to, as the client sees its fields. */
  function Encode(r: JobResponse): (b: K6Scenario.PollBody)
    ensures b.chatId == Some(r.chatId) && b.result.Some? && b.result.value.status == Some(r.result.status)
    ensures b.error.Some? <==> r.error.Some?
    ensures b.result.value.ragResponse.Some? <==> r.result.ragResponse.Some?
  {
    var rag := if r.result.ragResponse.Some? then Some(K6Scenario.RagBody(Some(r.result.ragResponse.value.answer))) else None;
    var err := if r.error.Some? then Some(K6Scenario.ErrorBody(Some(r.error.value.code))) else None;
    K6Scenario.PollBody(Some(r.chatId), Some(K6Scenario.ResultBody(Some(r.result.status), rag)), err)
  }

  /** The status route's reply for a stored job. */
  function StatusReply(job: Job): K6Scenario.PollReply
  {
    K6Scenario.PollReply(StatusOK, Encode(Adapter.ToAPIResponse(job)))
  }

  /** The URL the client polls for a job is BASE_URL + "/status/" + id, and the route reads back that id. */
  lemma PollURLHitsStatusRoute(id: string)
    ensures K6Scenario.PollURL(Adapter.ToInitJobResponse(id).statusURL) == K6Scenario.BaseURL + "/status/" + id
    ensures Adapter.StatusRouteId(Adapter.ToInitJobResponse(id).statusURL) == id
  {
    Adapter.StatusURLRoundTrip(id);
  }

  /**
   * A chat job whose RAG run fails is saved as COMPLETE with a 500 error, so the client's
   * COMPLETE branch meets an error: polling ends and "has error" passes.
   */
  lemma FailedChatReportedAsCompleteWithError(rag: Rag.Service, job: Job, now: Time, st: K6Scenario.State, url: string)
    requires job.jobType != Ingest && job.status != StatusError
    requires Worker.QueryOutcome(rag, job, []).status == StatusError
    ensures var (next, go) := K6Scenario.PollOnce(st, StatusReply(Worker.FinalRecord(rag, job, now)), url);
      next.jobCompleted && go && next.ending == st.ending &&
      next.checks[|next.checks| - 1] == (K6Scenario.HasError, true)
  {
    Worker.FailedQuerySavedComplete(rag, job, now);
  }

  /** A chat job answered with a non-empty text, and no error, passes "has answer text". */
  lemma AnsweredChatReportedWithAnswer(rag: Rag.Service, job: Job, now: Time, st: K6Scenario.State, url: string)
    requires job.jobType != Ingest && job.status != StatusError && job.error == NoError
    requires Worker.QueryOutcome(rag, job, []).status != StatusError
    requires Worker.QueryOutcome(rag, job, []).payload.answer != ""
    ensures var (next, go) := K6Scenario.PollOnce(st, StatusReply(Worker.FinalRecord(rag, job, now)), url);
      next.jobCompleted && go && next.checks[|next.checks| - 1] == (K6Scenario.HasAnswerText, true)
  {
    var q := Worker.QueryOutcome(rag, job, []);
    assert q.error == job.error;
  }

  /**
   * A fresh ingest job whose ingestion fails looks to a client like a COMPLETE job with no
   * error and no answer: "has answer text" fails, and the script then faults at line 76.
   */
  lemma FailedIngestLooksComplete(rag: Rag.Service, job: Job, now: Time, extractText: (string, DocType) -> Result<seq<RawPage>>,
                                  newId: nat -> string, st: K6Scenario.State, url: string)
    requires job.jobType == Ingest && job.error == NoError && job.payload.answer == "" && job.payload.sources == []
    requires !Rag.IngestSucceeds(rag, job, now, extractText, newId)
    ensures var (next, go) := K6Scenario.PollOnce(st, StatusReply(Worker.FinalRecord(rag, job, now)), url);
      !go && next.jobCompleted && next.ending == K6Scenario.Faulted(76) &&
      next.checks[|next.checks| - 1] == (K6Scenario.HasAnswerText, false)
  {
    Worker.IngestFailureInvisible(rag, job, now, extractText, newId);
  }
}

=== FILE: go_strings.dfy ===
/**
 * The few functions of Go's strings and path/filepath packages that the modelled code calls.
 * A Go string is a sequence of bytes; here each byte is one char.
 */
module GoStrings {

  /** strings.HasPrefix. */
  predicate HasPrefix(s: string, prefix: string)
  {
    |prefix| <= |s| && s[..|prefix|] == prefix
  }

  /** strings.TrimPrefix: s without a leading prefix, or s unchanged. */
  function TrimPrefix(s: string, prefix: string): (r: string)
    ensures HasPrefix(s, prefix) ==> prefix + r == s
    ensures !HasPrefix(s, prefix) ==> r == s
  {
    if HasPrefix(s, prefix) then s[|prefix|..] else s
  }

  /** sub occurs in s starting at position j. */
  predicate OccursAt(s: string, sub: string, j: int)
  {
    0 <= j && j + |sub| <= |s| && s[j..j + |sub|] == sub
  }

  lemma OccursShift(s: string, sub: string)
    requires s != []
    ensures forall j :: 1 <= j ==> (OccursAt(s, sub, j) <==> OccursAt(s[1..], sub, j - 1))
  {
    forall j | 1 <= j
      ensures OccursAt(s, sub, j) <==> OccursAt(s[1..], sub, j - 1)
    {
      if j + |sub| <= |s| {
        assert s[1..][j - 1..j - 1 + |sub|] == s[j..j + |sub|];
      }
    }
  }

  /** strings.Index: where sub first occurs in s, or -1 (see IndexIsFirst). */
  function Index(s: string, sub: string): (i: int)
    ensures i == -1 || OccursAt(s, sub, i)
    decreases |s|
  {
    if |sub| > |s| then -1
    else if s[..|sub|] == sub then 0
    else
      var k := Index(s[1..], sub);
      OccursShift(s, sub);
      if k < 0 then -1 else k + 1
  }

  /** No occurrence of sub lies before the one Index reports, and -1 means there is none. */
  lemma {:induction false} IndexIsFirst(s: string, sub: string)
    ensures forall j :: 0 <= j && (Index(s, sub) == -1 || j < Index(s, sub)) ==> !OccursAt(s, sub, j)
    decreases |s|
  {
    if |sub| <= |s| && s[..|sub|] != sub {
      IndexIsFirst(s[1..], sub);
      OccursShift(s, sub);
    }
  }

  /** strings.Contains. */
  predicate Contains(s: string, sub: string)
  {
    Index(s, sub) >= 0
  }

  lemma EmptyOccursEverywhere(s: string)
    ensures Contains(s, "")
  {
  }

  /** strings.Split with a non-empty separator. */
  function SplitOn(s: string, sep: string): (parts: seq<string>)
    requires sep != ""
    ensures |parts| >= 1
    decreases |s|
  {
    var m := Index(s, sep);
    if m < 0 then [s] else [s[..m]] + SplitOn(s[m + |sep|..], sep)
  }

  /** strings.Split(s, ""): one part per byte. */
  function Explode(s: string): (parts: seq<string>)
    ensures |parts| == |s|
  {
    seq(|s|, i requires 0 <= i < |s| => [s[i]])
  }

  /** strings.Split. */
  function Split(s: string, sep: string): seq<string>
  {
    if sep == "" then Explode(s) else SplitOn(s, sep)
  }

  /** strings.Join. */
  function Join(parts: seq<string>, sep: string): string
    decreases |parts|
  {
    if parts == [] then ""
    else if |parts| == 1 then parts[0]
    else parts[0] + sep + Join(parts[1..], sep)
  }

  /** Joining the parts of a split with the same separator gives back the text. */
  lemma {:induction false} JoinSplit(s: string, sep: string)
    ensures Join(Split(s, sep), sep) == s
  {
    if sep == "" {
      JoinExplode(s);
    } else {
      JoinSplitOn(s, sep);
    }
  }

  lemma {:induction false} JoinSplitOn(s: string, sep: string)
    requires sep != ""
    ensures Join(SplitOn(s, sep), sep) == s
    decreases |s|
  {
    var m := Index(s, sep);
    if m >= 0 {
      var rest := s[m + |sep|..];
      JoinSplitOn(rest, sep);
      SplitOnFound(s, sep);
      JoinCons(s[..m], SplitOn(rest, sep), sep);
    } else {
      assert SplitOn(s, sep) == [s];
    }
  }

  lemma SplitOnFound(s: string, sep: string)
    requires sep != "" && Index(s, sep) >= 0
    ensures var m := Index(s, sep);
      SplitOn(s, sep) == [s[..m]] + SplitOn(s[m + |sep|..], sep) &&
      s == s[..m] + sep + s[m + |sep|..]
  {
    var m := Index(s, sep);
    assert OccursAt(s, sep, m);
    assert s == s[..m] + s[m..m + |sep|] + s[m + |sep|..];
  }

  lemma JoinCons(a: string, tail: seq<string>, sep: string)
    requires tail != []
    ensures Join([a] + tail, sep) == a + sep + Join(tail, sep)
  {
    assert ([a] + tail)[1..] == tail;
  }

  lemma {:induction false} JoinExplode(s: string)
    ensures Join(Explode(s), "") == s
    decreases |s|
  {
    if |s| > 1 {
      JoinExplode(s[1..]);
      assert Explode(s)[1..] == Explode(s[1..]);
      assert s == [s[0]] + s[1..];
    } else if |s| == 1 {
      assert Explode(s)[0] == [s[0]] == s;
    }
  }

  /** The byte c with ASCII upper case mapped to lower case. */
  function LowerChar(c: char): char
  {
    if 'A' <= c <= 'Z' then (c as int + 32) as char else c
  }

  /** strings.ToLower on ASCII text. */
  function ToLower(s: string): (r: string)
    ensures |r| == |s|
    ensures forall i :: 0 <= i < |s| ==> r[i] == LowerChar(s[i])
  {
    seq(|s|, i requires 0 <= i < |s| => LowerChar(s[i]))
  }

  /**
   * filepath.Ext with '/' as the separator: the suffix of path that begins at the
   * last '.' of its last element, or "" when that element has no '.'.
   */
  function Ext(path: string): (e: string)
    ensures e != "" ==> e[0] == '.' && |e| <= |path| && path[|path| - |e|..] == e
    ensures forall i :: 0 <= i < |e| ==> e[i] != '/'
    ensures forall i :: 1 <= i < |e| ==> e[i] != '.'
    decreases |path|
  {
    if path == [] then ""
    else
      var c := path[|path| - 1];
      if c == '/' then ""
      else if c == '.' then "."
      else
        var e := Ext(path[..|path| - 1]);
        if e == "" then "" else e + [c]
  }

  /** A name ending in an extension e (one leading '.', no other '.' or '/') has extension e. */
  lemma {:induction false} ExtOfSuffix(stem: string, e: string)
    requires |e| >= 1 && e[0] == '.'
    requires forall i :: 1 <= i < |e| ==> e[i] != '.' && e[i] != '/'
    ensures Ext(stem + e) == e
    decreases |e|
  {
    var c := e[|e| - 1];
    if |e| == 1 {
      ExtSnoc(stem, c);
      assert stem + e == stem + [c];
    } else {
      var e' := e[..|e| - 1];
      InitSnocLast(e);
      ExtOfSuffix(stem, e');
      ExtOfSuffixStep(stem, e', c);
    }
  }

  lemma InitSnocLast(s: string)
    requires s != ""
    ensures s[..|s| - 1] + [s[|s| - 1]] == s
  {
  }

  lemma ExtOfSuffixStep(stem: string, e': string, c: char)
    requires e' != "" && c != '.' && c != '/'
    requires Ext(stem + e') == e'
    ensures Ext(stem + (e' + [c])) == e' + [c]
  {
    ExtSnoc(stem + e', c);
    SnocAssoc(stem, e', c);
  }

  lemma SnocAssoc(s: string, t: string, c: char)
    ensures (s + t) + [c] == s + (t + [c])
  {
  }

  /** Ext of a path one character longer. */
  lemma ExtSnoc(init: string, c: char)
    ensures c == '/' ==> Ext(init + [c]) == ""
    ensures c == '.' ==> Ext(init + [c]) == "."
    ensures c != '/' && c != '.' ==> Ext(init + [c]) == (if Ext(init) == "" then "" else Ext(init) + [c])
  {
    assert (init + [c])[..|init|] == init;
  }

  /** Lower-casing commutes with taking the extension. */
  lemma {:induction false} ExtToLower(path: string)
    ensures Ext(ToLower(path)) == ToLower(Ext(path))
    decreases |path|
  {
    if path != [] {
      var c := path[|path| - 1];
      var init := path[..|path| - 1];
      ToLowerSnoc(init, c);
      assert path == init + [c];
      ExtToLower(init);
      var e := Ext(init);
      if c != '/' && c != '.' && e != "" {
        ToLowerSnoc(e, c);
      }
    }
  }

  /** A path without any '.' has no extension. */
  lemma {:induction false} NoDotNoExt(path: string)
    requires forall i :: 0 <= i < |path| ==> path[i] != '.'
    ensures Ext(path) == ""
    decreases |path|
  {
    if path != [] {
      NoDotNoExt(path[..|path| - 1]);
    }
  }

  lemma ToLowerSnoc(s: string, c: char)
    ensures ToLower(s + [c]) == ToLower(s) + [LowerChar(c)]
  {
  }

  lemma ToLowerIdempotent(s: string)
    ensures ToLower(ToLower(s)) == ToLower(s)
  {
  }
  /** The decimal digit for d. */
  function Digit(d: nat): (c: char)
    requires d < 10
    ensures '0' <= c <= '9' && c as int - '0' as int == d
  {
    ('0' as int + d) as char
  }

  /** fmt's %d of a non-negative integer: its decimal digits, most significant first. */
  function Decimal(n: nat): (s: string)
    ensures |s| >= 1
    ensures forall i :: 0 <= i < |s| ==> '0' <= s[i] <= '9'
    decreases n
  {
    if n < 10 then [Digit(n)] else Decimal(n / 10) + [Digit(n % 10)]
  }

  /** The number a string of decimal digits spells. */
  function DigitsValue(s: string): int
    decreases |s|
  {
    if s == [] then 0 else DigitsValue(s[..|s| - 1]) * 10 + (s[|s| - 1] as int - '0' as int)
  }

  /** Reading back the digits Decimal writes gives the number. */
  lemma {:induction false} DecimalRoundTrip(n: nat)
    ensures DigitsValue(Decimal(n)) == n
    decreases n
  {
    if n >= 10 {
      DecimalRoundTrip(n / 10);
      var s := Decimal(n);
      assert s[..|s| - 1] == Decimal(n / 10);
    }
  }

  /** strings.IndexByte: the first position of c in s, or -1. */
  function IndexByte(s: string, c: char): (i: int)
    ensures -1 <= i < |s|
    ensures i >= 0 ==> s[i] == c && c !in s[..i]
    ensures i < 0 <==> c !in s
    decreases |s|
  {
    if s == [] then -1
    else if s[0] == c then 0
    else
      var j := IndexByte(s[1..], c);
      assert s == [s[0]] + s[1..];
      if j < 0 then -1
      else
        assert s[..j + 1] == [s[0]] + s[1..][..j];
        j + 1
  }

  /** strings.LastIndexByte: the last position of c in s, or -1. */
  function LastIndexByte(s: string, c: char): (i: int)
    ensures -1 <= i < |s|
    ensures i >= 0 ==> s[i] == c && c !in s[i + 1..]
    ensures i < 0 <==> c !in s
    decreases |s|
  {
    if s == [] then -1
    else if s[|s| - 1] == c then |s| - 1
    else
      var j := LastIndexByte(s[..|s| - 1], c);
      assert s == s[..|s| - 1] + [s[|s| - 1]];
      if j < 0 then -1
      else
        assert s[j + 1..] == s[..|s| - 1][j + 1..] + [s[|s| - 1]];
        j
  }
}

=== FILE: google_embedding.dfy ===
/**
 * The request and response shaping of
 * internal/rag/embedding/googleEmbedding/batchProcessing.go: chunk texts become one-part
 * contents, a batch request carries them with the configured output dimension, a failed call
 * is retried only when rate-limited, and a finished batch job's inlined responses become one
 * (possibly missing) vector per response. The genai and gRPC types are reduced to the fields
 * this code reads.
 */
module GoogleEmbedding {
  import opened Wrappers
  import opened Deps
  import Config

  /** genai.Part holding text. */
  datatype Part = Part(text: string)

  /** genai.Content. */
  datatype Content = Content(parts: seq<Part>)

  /** genai.EmbedContentConfig: only the output dimension is set here. */
  datatype EmbedContentConfig = EmbedContentConfig(outputDimensionality: int)

  /** genai.EmbedContentBatch. */
  datatype EmbedContentBatch = EmbedContentBatch(config: EmbedContentConfig, contents: seq<Content>)

  /** The text of a content made of one part. */
  function TextOf(c: Content): string
  {
    if |c.parts| == 1 then c.parts[0].text else ""
  }

  /** getContent: one single-part content per chunk, in order. */
  method GetContent(chunks: seq<string>) returns (contentsToSend: seq<Content>)
    ensures |contentsToSend| == |chunks|
    ensures forall i :: 0 <= i < |chunks| ==> contentsToSend[i] == Content([Part(chunks[i])])
  {
    contentsToSend := [];
    for k := 0 to |chunks|
      invariant |contentsToSend| == k
      invariant forall i :: 0 <= i < k ==> contentsToSend[i] == Content([Part(chunks[i])])
    {
      contentsToSend := contentsToSend + [Content([Part(chunks[k])])];
    }
  }

  /** The texts of single-part contents read back in order give the chunks again. */
  lemma ContentTextsRoundTrip(chunks: seq<string>, contents: seq<Content>)
    requires |contents| == |chunks|
    requires forall i :: 0 <= i < |chunks| ==> contents[i] == Content([Part(chunks[i])])
    ensures seq(|contents|, i requires 0 <= i < |contents| => TextOf(contents[i])) == chunks
  {
  }

  /** getInlinedBatchRequests: the chunks' contents, with the configured output dimension. */
  method GetInlinedBatchRequests(chunks: seq<string>) returns (batch: EmbedContentBatch)
    ensures batch.config.outputDimensionality == Config.EmbeddingOutputDimensionality
    ensures |batch.contents| == |chunks|
    ensures forall i :: 0 <= i < |chunks| ==> TextOf(batch.contents[i]) == chunks[i]
  {
    var contents := GetContent(chunks);
    batch := EmbedContentBatch(EmbedContentConfig(Config.EmbeddingOutputDimensionality), contents);
  }

  // ---------------------------------------------------------------------------
  // Retry

  /** codes.ResourceExhausted. */
  const ResourceExhausted: nat := 8

  /** An error from a call: a gRPC status, an error wrapping another, or a plain error. */
  datatype CallError =
    | GrpcStatus(code: nat, message: string)
    | Wrapped(context: string, inner: CallError)
    | Plain(message: string)

  /** status.FromError: the gRPC code the error is or wraps, or None when it carries no status. */
  function StatusCode(err: CallError): (c: Option<nat>)
    ensures err.Plain? ==> c.None?
    ensures err.GrpcStatus? ==> c == Some(err.code)
  {
    match err
    case GrpcStatus(code, _) => Some(code)
    case Wrapped(_, inner) => StatusCode(inner)
    case Plain(_) => None
  }

  /** The error wrapped n more times. */
  function WrapN(err: CallError, n: nat, context: string): CallError
  {
    if n == 0 then err else Wrapped(context, WrapN(err, n - 1, context))
  }

  /** doRetry: retry exactly when the error carries the gRPC code ResourceExhausted. */
  predicate DoRetry(err: CallError): (retry: bool)
    ensures err.Plain? ==> !retry
    ensures err.GrpcStatus? ==> (retry <==> err.code == ResourceExhausted)
  {
    StatusCode(err) == Some(ResourceExhausted)
  }

  /** Wrapping does not change whether a call is retried, and a plain error never is. */
  lemma {:induction false} RetryThroughWrapping(err: CallError, n: nat, context: string)
    ensures DoRetry(WrapN(err, n, context)) <==> DoRetry(err)
    ensures DoRetry(WrapN(GrpcStatus(ResourceExhausted, ""), n, context))
    ensures !DoRetry(WrapN(Plain(context), n, context))
    decreases n
  {
    if n > 0 {
      RetryThroughWrapping(err, n - 1, context);
      RetryThroughWrapping(GrpcStatus(ResourceExhausted, ""), n - 1, context);
      RetryThroughWrapping(Plain(context), n - 1, context);
    }
  }

  // ---------------------------------------------------------------------------
  // Downloading a batch job's answer

  /** genai.EmbedContentResponse: its embedding, which may be nil. */
  datatype EmbedContentResponse = EmbedContentResponse(embedding: Option<Vector>)

  /** genai.InlinedEmbedContentResponse: an error or a response, either of which may be nil. */
  datatype InlinedResponse = InlinedResponse(error: Option<string>, response: Option<EmbedContentResponse>)

  /** The vector one inlined response yields: nil for a nil, errored or embedding-less response. */
  function ValuesOf(r: Option<InlinedResponse>): (v: Option<Vector>)
    ensures v.Some? <==> r.Some? && r.value.error.None? && r.value.response.Some? && r.value.response.value.embedding.Some?
  {
    if r.None? || r.value.error.Some? || r.value.response.None? || r.value.response.value.embedding.None? then None
    else r.value.response.value.embedding
  }

  /**
   * downloadAnswerFromClient: one entry per inlined response, in order, each the response's
   * values or nil; never an error. A nil or empty response list gives no entries.
   */
  method DownloadAnswerFromClient(res: Option<seq<Option<InlinedResponse>>>)
    returns (results: seq<Option<Vector>>, err: Option<string>)
    ensures err.None?
    ensures res.None? ==> results == []
    ensures res.Some? ==>
      |results| == |res.value| &&
      forall i :: 0 <= i < |results| ==> results[i] == ValuesOf(res.value[i])
  {
    if res.None? || |res.value| == 0 {
      return [], None;
    }
    var responses := res.value;
    results := [];
    for k := 0 to |responses|
      invariant |results| == k
      invariant forall i :: 0 <= i < k ==> results[i] == ValuesOf(responses[i])
    {
      var val: Option<Vector>;
      var r := responses[k];
      if r.None? || r.value.error.Some? || r.value.response.None? || r.value.response.value.embedding.None? {
        val := None;
      } else {
        val := r.value.response.value.embedding;
      }
      results := results + [val];
    }
    return results, None;
  }

  /** A response carries a vector back exactly when it is a successful one with an embedding. */
  lemma DownloadedVectorPresent(embedding: Vector, err: string)
    ensures ValuesOf(Some(InlinedResponse(None, Some(EmbedContentResponse(Some(embedding)))))) == Some(embedding)
    ensures ValuesOf(Some(InlinedResponse(Some(err), Some(EmbedContentResponse(Some(embedding)))))) == None
  {
  }
}

=== FILE: handlers.dfy ===
/**
 * Job creation and lookup of internal/handlers/jobHandler.go and internal/handlers/utils.go:
 * classifying a request as chat or ingest, building the queued job, counting requests and
 * signalling the dispatcher, and the guards in front of the stores. The handler singleton
 * may be unset (null). The clock and the UUID source are parameters.
 */
module Handlers {
  import opened Wrappers
  import opened JobModel
  import opened Api
  import Adapter
  import Config
  import JobService

  /** The data of a new job (newJobData). */
  datatype NewJobData = NewJobData(
    id: string,
    chatId: string,
    message: string,
    isNewChat: bool,
    traceId: string,
    isDocumentIngest: bool,
    documentName: string,
    documentSource: string)

  /** http.StatusAccepted. */
  const StatusAccepted: int := 202

  /** JobHandler: the handler singleton and its service. */
  class JobHandler {
    const service: JobService.Service

    constructor (service: JobService.Service)
      ensures this.service == service
    {
      this.service := service;
    }
  }

  // ---------------------------------------------------------------------------
  // The dispatch rule

  /** Whether the push that brings the counter to count signals the dispatcher. */
  predicate Signals(count: int, isIngest: bool)
  {
    count % Config.RequestsPerNewWorkerCount == 0 || isIngest
  }

  /** The number of signals sent by pushes of jobs whose kinds are ingests, the counter starting at start. */
  function SignalCount(start: int, ingests: seq<bool>): nat
    decreases |ingests|
  {
    if ingests == [] then 0
    else
      var n := |ingests|;
      SignalCount(start, ingests[..n - 1]) + (if Signals(start + n, ingests[n - 1]) then 1 else 0)
  }

  /** From a zero counter, k chat requests signal the dispatcher k / 10 times: once per tenth request. */
  lemma {:induction false} ChatRequestsSignalEveryTenth(k: nat)
    ensures SignalCount(0, seq(k, i => false)) == k / Config.RequestsPerNewWorkerCount
  {
    if k > 0 {
      ChatRequestsSignalEveryTenth(k - 1);
      assert seq(k, i => false)[..k - 1] == seq(k - 1, i => false);
      assert (k % 10 == 0 ==> k / 10 == (k - 1) / 10 + 1) && (k % 10 != 0 ==> k / 10 == (k - 1) / 10);
    }
  }

  /** Every ingest request signals the dispatcher, and n requests send at most n signals. */
  lemma {:induction false} SignalBounds(start: int, ingests: seq<bool>)
    ensures SignalCount(start, ingests) <= |ingests|
    ensures (forall i :: 0 <= i < |ingests| ==> ingests[i]) ==> SignalCount(start, ingests) == |ingests|
    decreases |ingests|
  {
    if ingests != [] {
      SignalBounds(start, ingests[..|ingests| - 1]);
    }
  }

  // ---------------------------------------------------------------------------
  // jobHandler.go

  /** The job pushToJobChannel builds, field by field from the zero job. */
  function QueuedJob(newJob: NewJobData, now: Time): (job: Job)
    ensures job.id == newJob.id && job.traceId == newJob.traceId && job.createdTime == now
    ensures job.status == Queued && job.error == NoError && job.endTime == 0
    ensures newJob.isDocumentIngest ==>
      job.jobType == Ingest && job.currentStep == IngestInit && job.chatId == "" &&
      job.payload == EmptyPayload.(ingestFileName := newJob.documentName, ingestURL := newJob.documentSource)
    ensures !newJob.isDocumentIngest ==>
      job.jobType == Query && job.currentStep == UserQueryInit && job.chatId == newJob.chatId &&
      job.payload == EmptyPayload.(question := newJob.message)
  {
    var common := ZeroJob.(id := newJob.id, createdTime := now, traceId := newJob.traceId, status := Queued);
    if newJob.isDocumentIngest then
      common.(currentStep := IngestInit, jobType := Ingest,
              payload := common.payload.(ingestFileName := newJob.documentName, ingestURL := newJob.documentSource))
    else
      common.(jobType := Query, chatId := newJob.chatId, payload := common.payload.(question := newJob.message),
              currentStep := UserQueryInit)
  }

  /**
   * pushToJobChannel: QueuedJob is sent on the job channel, the counter goes up by one, and the
   * dispatcher is signalled when the new count is a multiple of RequestsPerNewWorkerCount or
   * the job is an ingest.
   */
  method PushToJobChannel(h: JobHandler, newJob: NewJobData, now: Time)
    modifies h.service
    ensures h.service.jobChannel == old(h.service.jobChannel) + [QueuedJob(newJob, now)]
    ensures h.service.requestCount == old(h.service.requestCount) + 1
    ensures h.service.dispatcherChannel ==
      old(h.service.dispatcherChannel) + (if Signals(h.service.requestCount, newJob.isDocumentIngest) then [true] else [])
  {
    var job := QueuedJob(newJob, now);
    h.service.jobChannel := h.service.jobChannel + [job];
    h.service.requestCount := h.service.requestCount + 1;
    var accurateCount := h.service.requestCount;
    if accurateCount % Config.RequestsPerNewWorkerCount == 0 || job.jobType == Ingest {
      h.service.dispatcherChannel := h.service.dispatcherChannel + [true];
    }
  }

  /** CreateNewJob: the job is pushed, and a new chat gets an empty history. */
  method CreateNewJob(h: JobHandler, newJob: NewJobData, now: Time)
    modifies h.service, h.service.messageStore
    ensures h.service.jobChannel == old(h.service.jobChannel) + [QueuedJob(newJob, now)]
    ensures h.service.requestCount == old(h.service.requestCount) + 1
    ensures h.service.dispatcherChannel ==
      old(h.service.dispatcherChannel) + (if Signals(h.service.requestCount, newJob.isDocumentIngest) then [true] else [])
    ensures newJob.isNewChat ==> h.service.messageStore.chatMap == old(h.service.messageStore.chatMap)[newJob.chatId := []]
    ensures !newJob.isNewChat ==> h.service.messageStore.chatMap == old(h.service.messageStore.chatMap)
  {
    PushToJobChannel(h, newJob, now);
    if newJob.isNewChat {
      var err := h.service.messageStore.InitNewChat(newJob.chatId);
    }
  }

  /** GetJobStatus: not found when the handler is unset, else the job store's lookup. */
  method GetJobStatus(handlerInstance: JobHandler?, id: string) returns (result: Job, isFound: bool)
    ensures handlerInstance == null ==> result == ZeroJob && !isFound
    ensures handlerInstance != null ==>
      (isFound <==> id in handlerInstance.service.jobStore.jobMap) &&
      (isFound ==> result == handlerInstance.service.jobStore.jobMap[id]) &&
      (!isFound ==> result == ZeroJob)
  {
    if handlerInstance != null {
      result, isFound := handlerInstance.service.jobStore.GetJob(id);
      return;
    }
    return ZeroJob, false;
  }

  /** ValidateChatRequest: unset handler or empty message fail; no chat id passes; else the chat must exist. */
  method ValidateChatRequest(handlerInstance: JobHandler?, chatReq: ChatRequest) returns (ok: bool)
    ensures handlerInstance == null || chatReq.message == "" ==> !ok
    ensures handlerInstance != null && chatReq.message != "" && chatReq.chatID == "" ==> ok
    ensures handlerInstance != null && chatReq.message != "" && chatReq.chatID != "" ==>
      (ok <==> chatReq.chatID in handlerInstance.service.messageStore.chatMap)
  {
    if handlerInstance == null {
      return false;
    }
    if chatReq.message == "" {
      return false;
    }
    if chatReq.chatID == "" {
      return true;
    }
    ok := handlerInstance.service.messageStore.ValidateChatId(chatReq.chatID);
  }

  // ---------------------------------------------------------------------------
  // utils.go

  /** validateId: an empty id is not found without asking the store; otherwise GetJobStatus. */
  method ValidateId(handlerInstance: JobHandler?, id: string) returns (result: Job, isFound: bool)
    ensures id == "" ==> result == ZeroJob && !isFound
    ensures id != "" && handlerInstance == null ==> result == ZeroJob && !isFound
    ensures id != "" && handlerInstance != null ==>
      (isFound <==> id in handlerInstance.service.jobStore.jobMap) &&
      (isFound ==> result == handlerInstance.service.jobStore.jobMap[id]) &&
      (!isFound ==> result == ZeroJob)
  {
    if id == "" {
      return ZeroJob, false;
    }
    result, isFound := GetJobStatus(handlerInstance, id);
  }

  /**
   * The classification in processNewJobData: a request without document name and path is a
   * chat, keeping its chat id or taking a fresh one (then it is a new chat); anything else is
   * an ingest of that document, with no chat and no message.
   */
  function Classified(requestData: ChatRequest, docName: string, docPath: string, traceId: string,
                      freshChatId: string, freshJobId: string): (newJob: NewJobData)
    ensures newJob.id == freshJobId && newJob.traceId == traceId
    ensures newJob.documentName == docName && newJob.documentSource == docPath
    ensures newJob.isDocumentIngest <==> !(docName == "" && docPath == "")
    ensures !newJob.isDocumentIngest ==>
      newJob.message == requestData.message &&
      (newJob.isNewChat <==> requestData.chatID == "") &&
      newJob.chatId == (if requestData.chatID == "" then freshChatId else requestData.chatID)
    ensures newJob.isDocumentIngest ==> newJob.chatId == "" && newJob.message == "" && !newJob.isNewChat
  {
    var isChatRequest := docName == "" && docPath == "";
    var chatID := if !isChatRequest then "" else if requestData.chatID == "" then freshChatId else requestData.chatID;
    var isNewChat := isChatRequest && requestData.chatID == "";
    var message := if isChatRequest then requestData.message else "";
    NewJobData(freshJobId, chatID, message, isNewChat, traceId, !isChatRequest, docName, docPath)
  }

  /** The local variables of processNewJobData, set step by step, give Classified. */
  method ClassifyRequest(requestData: ChatRequest, docName: string, docPath: string, traceId: string,
                         freshChatId: string, freshJobId: string)
    returns (newJob: NewJobData)
    ensures newJob == Classified(requestData, docName, docPath, traceId, freshChatId, freshJobId)
  {
    var chatID := "";
    var message := "";
    var isNewChat := false;
    var isChatRequest := docName == "" && docPath == "";
    if isChatRequest {
      chatID := requestData.chatID;
      if chatID == "" {
        chatID := freshChatId;
        isNewChat := true;
      }
      message := requestData.message;
    }
    newJob := NewJobData(freshJobId, chatID, message, isNewChat, traceId, !isChatRequest, docName, docPath);
  }

  /**
   * processNewJobData: the classified job is created and the reply is 202 with where to poll
   * it; a chat without an id starts a new, empty history under the fresh chat id.
   */
  method ProcessNewJobData(h: JobHandler, requestData: ChatRequest, docName: string, docPath: string, traceId: string,
                           now: Time, freshChatId: string, freshJobId: string)
    returns (statusCode: int, res: InitJobResponse)
    modifies h.service, h.service.messageStore
    ensures statusCode == StatusAccepted && res == Adapter.ToInitJobResponse(freshJobId)
    ensures h.service.jobChannel ==
      old(h.service.jobChannel) + [QueuedJob(Classified(requestData, docName, docPath, traceId, freshChatId, freshJobId), now)]
    ensures h.service.requestCount == old(h.service.requestCount) + 1
    ensures h.service.dispatcherChannel ==
      old(h.service.dispatcherChannel) + (if Signals(h.service.requestCount, !(docName == "" && docPath == "")) then [true] else [])
    ensures docName == "" && docPath == "" && requestData.chatID == "" ==>
      h.service.messageStore.chatMap == old(h.service.messageStore.chatMap)[freshChatId := []]
    ensures !(docName == "" && docPath == "" && requestData.chatID == "") ==>
      h.service.messageStore.chatMap == old(h.service.messageStore.chatMap)
  {
    var newJob := ClassifyRequest(requestData, docName, docPath, traceId, freshChatId, freshJobId);
    CreateNewJob(h, newJob, now);
    res := Adapter.ToInitJobResponse(newJob.id);
    statusCode := StatusAccepted;
  }

  /**
   * The job a request queues: a chat asks the message as its question, under the request's
   * chat id or, when it has none, the fresh one; an ingest carries the document's name and
   * path and no chat. Either way it is QUEUED under the fresh job id with the trace id.
   */
  lemma QueuedRequestJob(requestData: ChatRequest, docName: string, docPath: string, traceId: string,
                         now: Time, freshChatId: string, freshJobId: string)
    ensures var job := QueuedJob(Classified(requestData, docName, docPath, traceId, freshChatId, freshJobId), now);
      job.id == freshJobId && job.traceId == traceId && job.status == Queued && job.createdTime == now &&
      (docName == "" && docPath == "" ==>
        job.jobType == Query && job.currentStep == UserQueryInit &&
        job.chatId == (if requestData.chatID == "" then freshChatId else requestData.chatID) &&
        job.payload == EmptyPayload.(question := requestData.message)) &&
      (!(docName == "" && docPath == "") ==>
        job.jobType == Ingest && job.currentStep == IngestInit && job.chatId == "" &&
        job.payload == EmptyPayload.(ingestFileName := docName, ingestURL := docPath))
  {
  }
}

=== FILE: ingest.dfy ===
/**
 * ProcessDocumentIngestion of internal/rag/ingest/ingest.go: the step sequence that takes
 * an ingest job through collection creation, document typing, text extraction, chunking
 * and batch ingestion, setting the job's status at the first step that fails.
 * The clock, the extractor and the UUID source are parameters.
 */
module Ingest {
  import opened Wrappers
  import opened CommonModels
  import opened Deps
  import opened JobModel
  import opened IngestImpl
  import Config

  const ExtractionErrorMessage: string := "Error extracting document content"

  /** The embedding model name the chunks are labelled with. */
  const ChunkModelName: string := "temp model"

  /** The document record of an ingest job, stamped with the time now. */
  function DocumentOf(job: Job, now: Time): Document
  {
    Document(job.id, job.payload.ingestFileName, now, GetDocType(job.payload.ingestURL))
  }

  /**
   * ProcessDocumentIngestion. The step is set to IngestProcessing first; then the first
   * failing step decides: collection creation, an unknown document type, extraction
   * (which also sets the error message) or batch ingestion make the status Error;
   * otherwise the status is COMPLETE. No other field of the job changes.
   */
  method ProcessDocumentIngestion(job: Job, e: Embedder, vectorDatabase: DataProcessor, now: Time,
                                  extractText: (string, DocType) -> Result<seq<RawPage>>, newId: nat -> string)
    returns (out: Job)
    ensures out == job.(currentStep := IngestProcessing, status := out.status, error := out.error)
    ensures out.status == Complete || out.status == StatusError
    ensures out.error == job.error || out.error == job.error.(message := ExtractionErrorMessage)
    ensures vectorDatabase.createCollection(Config.EmbeddingDBName).Some? ==>
      out.status == StatusError && out.error == job.error
    ensures vectorDatabase.createCollection(Config.EmbeddingDBName).None? && GetDocType(job.payload.ingestURL) == ERR ==>
      out.status == StatusError && out.error == job.error
    ensures vectorDatabase.createCollection(Config.EmbeddingDBName).None? && GetDocType(job.payload.ingestURL) != ERR ==>
      var doc := DocumentOf(job, now);
      var extracted := extractText(job.payload.ingestURL, doc.contentType);
      (extracted.Failure? ==> out.status == StatusError && out.error == job.error.(message := ExtractionErrorMessage)) &&
      (extracted.Success? ==>
         out.error == job.error &&
         (out.status == Complete <==>
            Ingested(Prepared(extracted.value, doc, ChunkModelName, newId), vectorDatabase, e).err.None?))
  {
    var docName := job.payload.ingestFileName;
    var docPath := job.payload.ingestURL;
    out := job.(currentStep := IngestProcessing);
    var err := vectorDatabase.createCollection(Config.EmbeddingDBName);
    if err.Some? {
      out := out.(status := StatusError);
      return;
    }
    var docType := GetDocType(docPath);
    if docType == ERR {
      out := out.(status := StatusError);
      return;
    }
    var doc := Document(out.id, docName, now, docType);
    var rawPages := extractText(out.payload.ingestURL, doc.contentType);
    if rawPages.Failure? {
      out := out.(status := StatusError, error := out.error.(message := ExtractionErrorMessage));
      return;
    }
    var chunks := PrepareChunks(rawPages.value, doc, ChunkModelName, newId);
    var ingestErr := BatchIngest(chunks, vectorDatabase, e);
    if ingestErr.Some? {
      out := out.(status := StatusError);
      return;
    }
    out := out.(status := Complete);
  }
}

=== FILE: ingest_impl.dfy ===
/**
 * The ingestion helpers of internal/rag/ingest/impl.go: the text splitter, the
 * document-type check, the page-to-chunk mapping and the batched embed-and-upsert loop.
 */
module IngestImpl {
  import opened Wrappers
  import opened GoStrings
  import opened CommonModels
  import opened Deps
  import Config

  // ---------------------------------------------------------------------------
  // splitTextIntoChunks

  /** The separators tried in order, from the most to the least meaningful. */
  const Separators: seq<string> := ["\n\n", "\n", ". ", " ", ""]

  /** The first of Separators[k..] that occurs in text, if any. */
  function FirstSeparatorFrom(text: string, k: nat): (r: Option<string>)
    requires k <= |Separators|
    ensures r.Some? ==> r.value in Separators[k..] && Contains(text, r.value)
    ensures r.None? <==> forall i :: k <= i < |Separators| ==> !Contains(text, Separators[i])
    decreases |Separators| - k
  {
    if k == |Separators| then None
    else if Contains(text, Separators[k]) then Some(Separators[k])
    else FirstSeparatorFrom(text, k + 1)
  }

  /** The state of the chunking loop: the chunks emitted so far and the builder's content. */
  datatype Builder = Builder(chunks: seq<string>, current: string)

  /** A full builder emits its content (when non-empty) and keeps only its last overlap bytes. */
  function Flush(b: Builder, overlap: nat): Builder
  {
    Builder(if |b.current| > 0 then b.chunks + [b.current] else b.chunks,
            if |b.current| > overlap then b.current[|b.current| - overlap..] else "")
  }

  /** part appended to the builder's content, after the separator when the content is non-empty. */
  function Append(b: Builder, part: string, sep: string): Builder
  {
    var glue := if |b.current| > 0 && sep != "" then sep else "";
    Builder(b.chunks, b.current + glue + part)
  }

  /** One turn of the chunking loop over part. */
  function Feed(b: Builder, part: string, sep: string, limit: int, overlap: nat): Builder
  {
    Append(if |b.current| + |part| + |sep| > limit then Flush(b, overlap) else b, part, sep)
  }

  /** The chunking loop over the first n of parts, from an empty builder. */
  function FeedAll(parts: seq<string>, n: nat, sep: string, limit: int, overlap: nat): Builder
    requires n <= |parts|
  {
    if n == 0 then Builder([], "")
    else Feed(FeedAll(parts, n - 1, sep, limit, overlap), parts[n - 1], sep, limit, overlap)
  }

  /** The separator splitTextIntoChunks cuts text at. */
  function ChosenSeparator(text: string): string
  {
    EmptyOccursEverywhere(text);
    FirstSeparatorFrom(text, 0).value
  }

  /** The chunks splitTextIntoChunks returns for text. */
  function SplitText(text: string, limit: int, overlap: nat): seq<string>
  {
    if |text| <= limit then [text]
    else
      var sep := ChosenSeparator(text);
      var parts := Split(text, sep);
      Finish(FeedAll(parts, |parts|, sep, limit, overlap))
  }

  /** The chunks after the loop: the builder's content, when non-empty, is the last one. */
  function Finish(b: Builder): seq<string>
  {
    if |b.current| > 0 then b.chunks + [b.current] else b.chunks
  }

  /**
   * splitTextIntoChunks. The hard cut taken when no separator occurs is dead code:
   * the last separator, "", occurs in every text.
   */
  method SplitTextIntoChunks(text: string, limit: int, overlap: nat) returns (chunks: seq<string>)
    ensures chunks == SplitText(text, limit, overlap)
  {
    if |text| <= limit {
      return [text];
    }
    EmptyOccursEverywhere(text);
    var splitChar := "";
    var found := false;
    var k := 0;
    while k < |Separators|
      invariant 0 <= k <= |Separators|
      invariant FirstSeparatorFrom(text, k) == FirstSeparatorFrom(text, 0)
    {
      if Contains(text, Separators[k]) {
        splitChar := Separators[k];
        found := true;
        break;
      }
      k := k + 1;
    }
    if !found {
      assert false;
    }
    chunks := ChunkParts(Split(text, splitChar), splitChar, limit, overlap);
  }

  /** The accumulation loop of splitTextIntoChunks over the parts of the text. */
  method ChunkParts(parts: seq<string>, splitChar: string, limit: int, overlap: nat) returns (chunks: seq<string>)
    ensures chunks == Finish(FeedAll(parts, |parts|, splitChar, limit, overlap))
  {
    chunks := [];
    var current := "";
    var i := 0;
    while i < |parts|
      invariant 0 <= i <= |parts|
      invariant Builder(chunks, current) == FeedAll(parts, i, splitChar, limit, overlap)
    {
      var part := parts[i];
      if |current| + |part| + |splitChar| > limit {
        chunks, current := FlushCurrent(chunks, current, overlap);
      }
      ghost var flushed := Builder(chunks, current);
      if |current| > 0 && splitChar != "" {
        current := current + splitChar;
      }
      current := current + part;
      FeedAllNext(parts, i, splitChar, limit, overlap, flushed, current);
      i := i + 1;
    }
    if |current| > 0 {
      chunks := chunks + [current];
    }
  }

  /** The flush in ChunkParts's loop: emit the content when non-empty and keep its last overlap bytes. */
  method FlushCurrent(chunks: seq<string>, current: string, overlap: nat) returns (chunks': seq<string>, current': string)
    ensures Builder(chunks', current') == Flush(Builder(chunks, current), overlap)
  {
    chunks' := chunks;
    if |current| > 0 {
      chunks' := chunks + [current];
    }
    var overlapContent := "";
    if |current| > overlap {
      overlapContent := current[|current| - overlap..];
    }
    current' := overlapContent;
  }

  /** One turn of ChunkParts's loop, as the flush it may do and the append it always does, is one more Feed. */
  lemma FeedAllNext(parts: seq<string>, i: nat, sep: string, limit: int, overlap: nat, flushed: Builder, current: string)
    requires i < |parts|
    requires var b := FeedAll(parts, i, sep, limit, overlap);
      flushed == if |b.current| + |parts[i]| + |sep| > limit then Flush(b, overlap) else b
    requires current == (if |flushed.current| > 0 && sep != "" then flushed.current + sep else flushed.current) + parts[i]
    ensures FeedAll(parts, i + 1, sep, limit, overlap) == Builder(flushed.chunks, current)
  {
  }

  /** next begins with the last overlap bytes of prev (when prev is longer than that). */
  predicate Linked(prev: string, next: string, overlap: nat)
  {
    |prev| > overlap ==> HasPrefix(next, prev[|prev| - overlap..])
  }

  /** No chunk is empty and each chunk carries the tail of the one before it. */
  ghost predicate WellLinked(cs: seq<string>, overlap: nat)
  {
    (forall i :: 0 <= i < |cs| ==> cs[i] != "") &&
    (forall i :: 0 < i < |cs| ==> Linked(cs[i - 1], cs[i], overlap))
  }

  /** The loop state is well linked, counting the builder's content as a last chunk. */
  ghost predicate BuilderLinked(b: Builder, overlap: nat)
  {
    WellLinked(b.chunks, overlap) &&
    (|b.chunks| > 0 ==> Linked(b.chunks[|b.chunks| - 1], b.current, overlap))
  }

  lemma PrefixExtends(s: string, t: string, p: string)
    requires HasPrefix(s, p)
    ensures HasPrefix(s + t, p)
  {
    assert (s + t)[..|p|] == s[..|p|];
  }

  /** Flushing emits the content as a chunk that the kept tail links to. */
  lemma FlushLinked(b: Builder, overlap: nat)
    requires BuilderLinked(b, overlap)
    ensures BuilderLinked(Flush(b, overlap), overlap)
  {
    var cur := b.current;
    var f := Flush(b, overlap);
    if |cur| > overlap {
      assert HasPrefix(f.current, cur[|cur| - overlap..]);
    }
    if |cur| > 0 {
      assert f.chunks[|f.chunks| - 1] == cur;
      assert forall i :: 0 <= i < |b.chunks| ==> f.chunks[i] == b.chunks[i];
    }
  }

  /** Appending to the content keeps it linked to the last chunk. */
  lemma AppendLinked(b: Builder, part: string, sep: string, overlap: nat)
    requires BuilderLinked(b, overlap)
    ensures BuilderLinked(Append(b, part, sep), overlap)
  {
    var glue := if |b.current| > 0 && sep != "" then sep else "";
    if |b.chunks| > 0 {
      var last := b.chunks[|b.chunks| - 1];
      if |last| > overlap {
        PrefixExtends(b.current, glue + part, last[|last| - overlap..]);
        assert b.current + glue + part == b.current + (glue + part);
      }
    }
  }

  lemma FeedLinked(b: Builder, part: string, sep: string, limit: int, overlap: nat)
    requires BuilderLinked(b, overlap)
    ensures BuilderLinked(Feed(b, part, sep, limit, overlap), overlap)
  {
    if |b.current| + |part| + |sep| > limit {
      FlushLinked(b, overlap);
      AppendLinked(Flush(b, overlap), part, sep, overlap);
    } else {
      AppendLinked(b, part, sep, overlap);
    }
  }

  lemma {:induction false} FeedAllLinked(parts: seq<string>, n: nat, sep: string, limit: int, overlap: nat)
    requires n <= |parts|
    ensures BuilderLinked(FeedAll(parts, n, sep, limit, overlap), overlap)
  {
    if n > 0 {
      FeedAllLinked(parts, n - 1, sep, limit, overlap);
      FeedLinked(FeedAll(parts, n - 1, sep, limit, overlap), parts[n - 1], sep, limit, overlap);
    }
  }

  /**
   * A text longer than the limit is cut into non-empty chunks, each of which starts
   * with the last overlap bytes of the chunk before it.
   */
  lemma SplitTextWellLinked(text: string, limit: int, overlap: nat)
    requires |text| > limit
    ensures WellLinked(SplitText(text, limit, overlap), overlap)
  {
    var sep := ChosenSeparator(text);
    var parts := Split(text, sep);
    FeedAllLinked(parts, |parts|, sep, limit, overlap);
    FinishLinked(FeedAll(parts, |parts|, sep, limit, overlap), overlap);
  }

  lemma FinishLinked(b: Builder, overlap: nat)
    requires BuilderLinked(b, overlap)
    ensures WellLinked(Finish(b), overlap)
  {
  }

  /** The separator the splitter cuts at is the first of Separators that occurs in the text. */
  lemma SplitTextSeparator(text: string, limit: int, overlap: nat, k: nat)
    requires |text| > limit && k < |Separators| && Contains(text, Separators[k])
    requires forall i :: 0 <= i < k ==> !Contains(text, Separators[i])
    ensures var parts := Split(text, Separators[k]);
      SplitText(text, limit, overlap) == Finish(FeedAll(parts, |parts|, Separators[k], limit, overlap))
  {
    FirstSeparatorSkips(text, 0, k);
  }

  lemma {:induction false} FirstSeparatorSkips(text: string, from: nat, k: nat)
    requires from <= k < |Separators| && Contains(text, Separators[k])
    requires forall i :: from <= i < k ==> !Contains(text, Separators[i])
    ensures FirstSeparatorFrom(text, from) == Some(Separators[k])
    decreases k - from
  {
    if from < k {
      FirstSeparatorSkips(text, from + 1, k);
    }
  }

  /** Every chunk fits the limit when the overlap, the separator and each part do together. */
  lemma SplitTextBounded(text: string, limit: int, overlap: nat)
    requires |text| > limit >= 0
    requires forall p :: p in Split(text, ChosenSeparator(text)) ==>
      overlap + |ChosenSeparator(text)| + |p| <= limit
    ensures forall c :: c in SplitText(text, limit, overlap) ==> |c| <= limit
  {
    var sep := ChosenSeparator(text);
    var parts := Split(text, sep);
    FeedAllBounded(parts, |parts|, sep, limit, overlap);
    var b := FeedAll(parts, |parts|, sep, limit, overlap);
    assert forall c :: c in Finish(b) ==> c in b.chunks || c == b.current;
  }

  lemma {:induction false} FeedAllBounded(parts: seq<string>, n: nat, sep: string, limit: int, overlap: nat)
    requires n <= |parts| && 0 <= limit
    requires forall p :: p in parts ==> overlap + |sep| + |p| <= limit
    ensures Bounded(FeedAll(parts, n, sep, limit, overlap), limit)
  {
    if n > 0 {
      FeedAllBounded(parts, n - 1, sep, limit, overlap);
      assert parts[n - 1] in parts;
      FeedBounded(FeedAll(parts, n - 1, sep, limit, overlap), parts[n - 1], sep, limit, overlap);
    }
  }

  ghost predicate Bounded(b: Builder, limit: int)
  {
    |b.current| <= limit && forall c :: c in b.chunks ==> |c| <= limit
  }

  lemma FeedBounded(b: Builder, part: string, sep: string, limit: int, overlap: nat)
    requires Bounded(b, limit) && overlap + |sep| + |part| <= limit
    ensures Bounded(Feed(b, part, sep, limit, overlap), limit)
  {
    if |b.current| + |part| + |sep| > limit {
      var ov := if |b.current| > overlap then b.current[|b.current| - overlap..] else "";
      assert |ov| <= overlap;
    }
  }

  // ---------------------------------------------------------------------------
  // getDocType

  /** The document type of a lower-case extension. */
  function TypeOfExtension(ext: string): (t: DocType)
    ensures t != TXT
  {
    if ext == ".pdf" then PDF
    else if ext == ".docx" || ext == ".txt" || ext == ".rtf" then DOCX
    else ERR
  }

  /** The document type of a path, judged by its extension whatever its case. */
  function GetDocType(docPath: string): (t: DocType)
    ensures t == PDF <==> ToLower(Ext(docPath)) == ".pdf"
    ensures t == DOCX <==> ToLower(Ext(docPath)) in [".docx", ".txt", ".rtf"]
    ensures t == ERR <==> ToLower(Ext(docPath)) !in [".pdf", ".docx", ".txt", ".rtf"]
  {
    TypeOfExtension(ToLower(Ext(docPath)))
  }

  /** The type does not depend on the case of the path. */
  lemma GetDocTypeIgnoresCase(docPath: string)
    ensures GetDocType(ToLower(docPath)) == GetDocType(docPath)
  {
    ExtToLower(docPath);
    ToLowerIdempotent(Ext(docPath));
  }

  /** Only the extension of the name matters: the stem before it does not. */
  lemma GetDocTypeBySuffix(stem: string, e: string)
    requires |e| >= 1 && e[0] == '.'
    requires forall i :: 1 <= i < |e| ==> e[i] != '.' && e[i] != '/'
    ensures GetDocType(stem + e) == TypeOfExtension(ToLower(e))
  {
    ExtOfSuffix(stem, e);
  }

  /** A name without a '.' is rejected. */
  lemma GetDocTypeNoDot(name: string)
    requires forall i :: 0 <= i < |name| ==> name[i] != '.'
    ensures GetDocType(name) == ERR
  {
    NoDotNoExt(name);
  }

  // ---------------------------------------------------------------------------
  // PrepareChunks

  /** A page of extracted text (rawPage of ingest.go). */
  datatype RawPage = RawPage(number: int, content: string)

  const MaxChunkSize: int := 1000
  const ChunkOverlap: nat := 150

  /**
   * The chunks made from the split texts of one page, their ids drawn from newId starting
   * at base (newId(n) is the n-th fresh UUID drawn during the call).
   */
  function PageChunks(texts: seq<string>, page: RawPage, doc: Document, model: string, newId: nat -> string, base: nat)
    : seq<DocChunk>
  {
    seq(|texts|, i requires 0 <= i < |texts| => DocChunk(doc, newId(base + i), texts[i], page.number, i, model))
  }

  /** The chunks of the first n pages, page p having been split into texts[p]. */
  function Chunked(pages: seq<RawPage>, texts: seq<seq<string>>, n: nat, doc: Document, model: string, newId: nat -> string)
    : seq<DocChunk>
    requires n <= |pages| == |texts|
  {
    if n == 0 then []
    else
      var before := Chunked(pages, texts, n - 1, doc, model, newId);
      before + PageChunks(texts[n - 1], pages[n - 1], doc, model, newId, |before|)
  }

  /** What the splitter makes of each page. */
  function PageTexts(pages: seq<RawPage>): (texts: seq<seq<string>>)
    ensures |texts| == |pages|
  {
    seq(|pages|, p requires 0 <= p < |pages| => SplitText(pages[p].content, MaxChunkSize, ChunkOverlap))
  }

  /** The chunks PrepareChunks returns. */
  function Prepared(pages: seq<RawPage>, doc: Document, model: string, newId: nat -> string): seq<DocChunk>
  {
    Chunked(pages, PageTexts(pages), |pages|, doc, model, newId)
  }

  /** PrepareChunks: every page split into chunks, in page order. */
  method PrepareChunks(pages: seq<RawPage>, doc: Document, model: string, newId: nat -> string)
    returns (allChunks: seq<DocChunk>)
    ensures allChunks == Prepared(pages, doc, model, newId)
  {
    ghost var texts := PageTexts(pages);
    allChunks := [];
    var p := 0;
    while p < |pages|
      invariant 0 <= p <= |pages|
      invariant allChunks == Chunked(pages, texts, p, doc, model, newId)
    {
      var page := pages[p];
      var stringChunks := SplitTextIntoChunks(page.content, MaxChunkSize, ChunkOverlap);
      ChunkedNextPage(pages, p, doc, model, newId);
      allChunks := AppendPageChunks(allChunks, stringChunks, page, doc, model, newId);
      p := p + 1;
    }
  }

  /** The chunks of the first p + 1 pages: those of the first p, then page p's. */
  lemma ChunkedNextPage(pages: seq<RawPage>, p: nat, doc: Document, model: string, newId: nat -> string)
    requires p < |pages|
    ensures var texts := PageTexts(pages);
      var before := Chunked(pages, texts, p, doc, model, newId);
      Chunked(pages, texts, p + 1, doc, model, newId) ==
        before + PageChunks(SplitText(pages[p].content, MaxChunkSize, ChunkOverlap), pages[p], doc, model, newId, |before|)
  {
  }

  /** The inner loop of PrepareChunks: one chunk per split text of the page, appended in order. */
  method AppendPageChunks(before: seq<DocChunk>, stringChunks: seq<string>, page: RawPage, doc: Document, model: string,
                          newId: nat -> string)
    returns (allChunks: seq<DocChunk>)
    ensures allChunks == before + PageChunks(stringChunks, page, doc, model, newId, |before|)
  {
    allChunks := before;
    ghost var made := PageChunks(stringChunks, page, doc, model, newId, |before|);
    var i := 0;
    while i < |stringChunks|
      invariant 0 <= i <= |stringChunks|
      invariant allChunks == before + made[..i]
    {
      assert made[..i + 1] == made[..i] + [made[i]];
      allChunks := allChunks + [DocChunk(doc, newId(|allChunks|), stringChunks[i], page.number, i, model)];
      i := i + 1;
    }
    assert made[..i] == made;
  }

  /** Chunk g carries the document, the model name, the id drawn at g and the number of one of pages[..n]. */
  ghost predicate FieldsKept(cs: seq<DocChunk>, pages: seq<RawPage>, n: nat, doc: Document, model: string, newId: nat -> string)
    requires n <= |pages|
  {
    forall g :: 0 <= g < |cs| ==>
      cs[g].doc == doc && cs[g].chunkId == newId(g) && cs[g].embeddingDimension == model &&
      exists p :: 0 <= p < n && pages[p].number == cs[g].pageNum
  }

  lemma {:induction false} ChunkedFields(pages: seq<RawPage>, texts: seq<seq<string>>, n: nat, doc: Document, model: string, newId: nat -> string)
    requires n <= |pages| == |texts|
    ensures FieldsKept(Chunked(pages, texts, n, doc, model, newId), pages, n, doc, model, newId)
  {
    if n > 0 {
      ChunkedFields(pages, texts, n - 1, doc, model, newId);
      var before := Chunked(pages, texts, n - 1, doc, model, newId);
      var made := PageChunks(texts[n - 1], pages[n - 1], doc, model, newId, |before|);
      var cs := Chunked(pages, texts, n, doc, model, newId);
      assert cs == before + made;
      forall g | 0 <= g < |cs|
        ensures cs[g].doc == doc && cs[g].chunkId == newId(g) && cs[g].embeddingDimension == model
        ensures exists p :: 0 <= p < n && pages[p].number == cs[g].pageNum
      {
        if g < |before| {
          assert cs[g] == before[g];
          var p :| 0 <= p < n - 1 && pages[p].number == before[g].pageNum;
        } else {
          assert cs[g] == made[g - |before|];
          assert pages[n - 1].number == cs[g].pageNum;
        }
      }
    }
  }

  /** Every chunk carries the document, the model name, the id drawn at its position and a page's number. */
  lemma PreparedFields(pages: seq<RawPage>, doc: Document, model: string, newId: nat -> string)
    ensures FieldsKept(Prepared(pages, doc, model, newId), pages, |pages|, doc, model, newId)
  {
    ChunkedFields(pages, PageTexts(pages), |pages|, doc, model, newId);
  }

  lemma {:induction false} ChunkedWholePages(pages: seq<RawPage>, texts: seq<seq<string>>, n: nat, doc: Document, model: string, newId: nat -> string)
    requires n <= |pages| == |texts|
    requires forall p :: 0 <= p < n ==> texts[p] == [pages[p].content]
    ensures var cs := Chunked(pages, texts, n, doc, model, newId);
      |cs| == n &&
      forall p :: 0 <= p < n ==> cs[p] == DocChunk(doc, newId(p), pages[p].content, pages[p].number, 0, model)
  {
    if n > 0 {
      ChunkedWholePages(pages, texts, n - 1, doc, model, newId);
      WholePageStep(pages, texts, n, Chunked(pages, texts, n - 1, doc, model, newId), doc, model, newId);
    }
  }

  lemma WholePageStep(pages: seq<RawPage>, texts: seq<seq<string>>, n: nat, before: seq<DocChunk>, doc: Document, model: string,
                      newId: nat -> string)
    requires 0 < n <= |pages| == |texts| && texts[n - 1] == [pages[n - 1].content]
    requires |before| == n - 1
    requires forall p :: 0 <= p < n - 1 ==> before[p] == DocChunk(doc, newId(p), pages[p].content, pages[p].number, 0, model)
    ensures var cs := before + PageChunks(texts[n - 1], pages[n - 1], doc, model, newId, |before|);
      |cs| == n &&
      forall p :: 0 <= p < n ==> cs[p] == DocChunk(doc, newId(p), pages[p].content, pages[p].number, 0, model)
  {
    var last := PageChunks(texts[n - 1], pages[n - 1], doc, model, newId, |before|);
    assert last == [DocChunk(doc, newId(n - 1), pages[n - 1].content, pages[n - 1].number, 0, model)];
  }

  /** Pages no longer than the chunk size give one chunk each, holding the whole page. */
  lemma PreparedShortPages(pages: seq<RawPage>, doc: Document, model: string, newId: nat -> string)
    requires forall p :: 0 <= p < |pages| ==> |pages[p].content| <= MaxChunkSize
    ensures var cs := Prepared(pages, doc, model, newId);
      |cs| == |pages| &&
      forall p :: 0 <= p < |pages| ==> cs[p] == DocChunk(doc, newId(p), pages[p].content, pages[p].number, 0, model)
  {
    ChunkedWholePages(pages, PageTexts(pages), |pages|, doc, model, newId);
  }

  /** The chunks of fewer pages are a prefix of the chunks of more pages. */
  lemma {:induction false} ChunkedPrefix(pages: seq<RawPage>, texts: seq<seq<string>>, m: nat, n: nat, doc: Document, model: string, newId: nat -> string)
    requires m <= n <= |pages| == |texts|
    ensures var small := Chunked(pages, texts, m, doc, model, newId);
      var big := Chunked(pages, texts, n, doc, model, newId);
      |small| <= |big| && big[..|small|] == small
    decreases n - m
  {
    if m < n {
      ChunkedPrefix(pages, texts, m, n - 1, doc, model, newId);
      var mid := Chunked(pages, texts, n - 1, doc, model, newId);
      var big := Chunked(pages, texts, n, doc, model, newId);
      assert big[..|mid|] == mid;
    }
  }

  /** A page with no text yields a chunk with no text. */
  lemma EmptyPageGivesEmptyChunk(pages: seq<RawPage>, p: nat, doc: Document, model: string, newId: nat -> string)
    requires p < |pages| && pages[p].content == ""
    ensures var cs := Prepared(pages, doc, model, newId);
      exists g :: 0 <= g < |cs| && cs[g].chunk == ""
  {
    var texts := PageTexts(pages);
    assert texts[p] == [""];
    ChunkedPrefix(pages, texts, p + 1, |pages|, doc, model, newId);
    var before := Chunked(pages, texts, p, doc, model, newId);
    var cs := Prepared(pages, doc, model, newId);
    assert Chunked(pages, texts, p + 1, doc, model, newId)[|before|].chunk == "";
    assert cs[|before|].chunk == "";
  }

  // ---------------------------------------------------------------------------
  // BatchIngest

  const BatchSize: nat := 100

  /** Above this many chunks the embedder is told the data set is huge. */
  const HugeDataSetThreshold: int := 1000000

  const EmbedFailurePrefix: string := "embedding batch failed: "
  const UpsertFailurePrefix: string := "upserting to qdrant failed: "

  /** The texts of the first n chunks of batch, empty ones dropped. */
  function NonEmptyTexts(batch: seq<DocChunk>, n: nat): (texts: seq<string>)
    requires n <= |batch|
    ensures |texts| <= n
    ensures forall t :: t in texts ==> t != ""
  {
    if n == 0 then []
    else
      var before := NonEmptyTexts(batch, n - 1);
      if batch[n - 1].chunk != "" then before + [batch[n - 1].chunk] else before
  }

  /** The texts sent to the embedder for a batch. */
  function BatchTexts(batch: seq<DocChunk>): seq<string>
  {
    NonEmptyTexts(batch, |batch|)
  }

  /** The batch starting at chunk i: the next BatchSize chunks, or all that remain when fewer do. */
  function BatchAt(chunks: seq<DocChunk>, i: nat): (batch: seq<DocChunk>)
    requires i < |chunks|
    ensures 0 < |batch| <= BatchSize
    ensures i + |batch| <= |chunks| && (|batch| == BatchSize || i + |batch| == |chunks|)
    ensures forall t :: 0 <= t < |batch| ==> batch[t] == chunks[i + t]
  {
    chunks[i..if i + BatchSize > |chunks| then |chunks| else i + BatchSize]
  }

  /** The batches the loop cuts chunks into, from chunk i on, in order. */
  function Batches(chunks: seq<DocChunk>, i: nat): seq<seq<DocChunk>>
    decreases |chunks| - i
  {
    if i >= |chunks| then [] else [BatchAt(chunks, i)] + Batches(chunks, i + BatchSize)
  }

  /** The chunks from chunk i on. */
  function ChunksFrom(chunks: seq<DocChunk>, i: nat): seq<DocChunk>
  {
    if i < |chunks| then chunks[i..] else []
  }

  /** What a run of the batch loop did: its error, the texts embedded and the batches upserted. */
  datatype IngestTrace = IngestTrace(err: Option<string>, embedded: seq<seq<string>>, upserted: seq<seq<DocChunk>>)

  /** The batch loop over batches, in order. */
  function IngestBatches(batches: seq<seq<DocChunk>>, huge: bool, vectorDB: DataProcessor, embedder: Embedder): IngestTrace
    decreases |batches|
  {
    if batches == [] then IngestTrace(None, [], [])
    else
      var batch := batches[0];
      var texts := BatchTexts(batch);
      match embedder.batchEmbedding(texts, huge)
      case Failure(e) => IngestTrace(Some(EmbedFailurePrefix + e), [texts], [])
      case Success(vectors) =>
        match vectorDB.upsertBatch(Config.EmbeddingDBName, batch, vectors)
        case Some(e) => IngestTrace(Some(UpsertFailurePrefix + e), [texts], [batch])
        case None =>
          var rest := IngestBatches(batches[1..], huge, vectorDB, embedder);
          IngestTrace(rest.err, [texts] + rest.embedded, [batch] + rest.upserted)
  }

  /** What BatchIngest does with chunks. */
  function Ingested(chunks: seq<DocChunk>, vectorDB: DataProcessor, embedder: Embedder): IngestTrace
  {
    IngestBatches(Batches(chunks, 0), |chunks| > HugeDataSetThreshold, vectorDB, embedder)
  }

  /** BatchIngest: embed and upsert the chunks batch by batch, stopping at the first failure. */
  method BatchIngest(chunks: seq<DocChunk>, vectorDB: DataProcessor, embedder: Embedder) returns (err: Option<string>)
    ensures err == Ingested(chunks, vectorDB, embedder).err
  {
    var isHugeDataSet := false;
    if |chunks| > HugeDataSetThreshold {
      isHugeDataSet := true;
    }
    var i := 0;
    while i < |chunks|
      invariant IngestBatches(Batches(chunks, i), isHugeDataSet, vectorDB, embedder).err == Ingested(chunks, vectorDB, embedder).err
      decreases |chunks| - i
    {
      var end := i + BatchSize;
      if end > |chunks| {
        end := |chunks|;
      }
      var currentBatch := chunks[i..end];
      NextBatch(chunks, i);
      IngestStep(Batches(chunks, i), isHugeDataSet, vectorDB, embedder);
      var texts := CollectTexts(currentBatch);
      var embedded := embedder.batchEmbedding(texts, isHugeDataSet);
      if embedded.Failure? {
        return Some(EmbedFailurePrefix + embedded.error);
      }
      var upsertErr := vectorDB.upsertBatch(Config.EmbeddingDBName, currentBatch, embedded.value);
      if upsertErr.Some? {
        return Some(UpsertFailurePrefix + upsertErr.value);
      }
      i := i + BatchSize;
    }
    return None;
  }

  /** The text-gathering loop of BatchIngest. */
  method CollectTexts(currentBatch: seq<DocChunk>) returns (texts: seq<string>)
    ensures texts == BatchTexts(currentBatch)
  {
    texts := [];
    var j := 0;
    while j < |currentBatch|
      invariant 0 <= j <= |currentBatch|
      invariant texts == NonEmptyTexts(currentBatch, j)
    {
      if currentBatch[j].chunk != "" {
        texts := texts + [currentBatch[j].chunk];
      }
      j := j + 1;
    }
  }

  /** While chunks remain at i, the next batch is the chunks from i to the batch end, then the batches after it. */
  lemma NextBatch(chunks: seq<DocChunk>, i: nat)
    requires i < |chunks|
    ensures var bs := Batches(chunks, i);
      |bs| > 0 && bs[0] == chunks[i..if i + BatchSize > |chunks| then |chunks| else i + BatchSize] &&
      bs[1..] == Batches(chunks, i + BatchSize)
  {
    var bs := Batches(chunks, i);
    assert bs == [BatchAt(chunks, i)] + Batches(chunks, i + BatchSize);
    assert bs[1..] == Batches(chunks, i + BatchSize);
  }

  /** The error a batch ends with on its own, or None when its embedding and upsert both succeed. */
  function BatchError(batch: seq<DocChunk>, huge: bool, vectorDB: DataProcessor, embedder: Embedder): Option<string>
  {
    var reply := embedder.batchEmbedding(BatchTexts(batch), huge);
    if reply.Failure? then Some(EmbedFailurePrefix + reply.error)
    else
      var upsertErr := vectorDB.upsertBatch(Config.EmbeddingDBName, batch, reply.value);
      if upsertErr.Some? then Some(UpsertFailurePrefix + upsertErr.value) else None
  }

  /** One turn of the batch loop, told in terms of BatchError. */
  lemma IngestStep(batches: seq<seq<DocChunk>>, huge: bool, vectorDB: DataProcessor, embedder: Embedder)
    requires batches != []
    ensures var t := IngestBatches(batches, huge, vectorDB, embedder);
      var rest := IngestBatches(batches[1..], huge, vectorDB, embedder);
      if BatchError(batches[0], huge, vectorDB, embedder).None? then
        t == IngestTrace(rest.err, [BatchTexts(batches[0])] + rest.embedded, [batches[0]] + rest.upserted)
      else
        t.err == BatchError(batches[0], huge, vectorDB, embedder) &&
        t.embedded == [BatchTexts(batches[0])] && (t.upserted == [] || t.upserted == [batches[0]])
  {
  }

  /** Every batch embeds and upserts without error. */
  ghost predicate AllBatchesOk(batches: seq<seq<DocChunk>>, huge: bool, vectorDB: DataProcessor, embedder: Embedder)
  {
    forall j :: 0 <= j < |batches| ==> BatchError(batches[j], huge, vectorDB, embedder).None?
  }

  /**
   * Batch m is the first to fail, t reports its error, and the embedder was called once for
   * each batch up to and including m.
   */
  ghost predicate FirstFailure(batches: seq<seq<DocChunk>>, m: nat, t: IngestTrace, huge: bool, vectorDB: DataProcessor, embedder: Embedder)
  {
    m < |batches| &&
    t.err == BatchError(batches[m], huge, vectorDB, embedder) &&
    |t.embedded| == m + 1 &&
    (forall j :: 0 <= j < m ==> BatchError(batches[j], huge, vectorDB, embedder).None?)
  }

  /** One step of IngestFirstError, for the trace t of batches and the trace rest of the batches after the first. */
  lemma FirstErrorStep(batches: seq<seq<DocChunk>>, huge: bool, vectorDB: DataProcessor, embedder: Embedder, t: IngestTrace, rest: IngestTrace)
    requires batches != []
    requires rest.err.None? <==> AllBatchesOk(batches[1..], huge, vectorDB, embedder)
    requires rest.err.Some? ==> exists m: nat :: FirstFailure(batches[1..], m, rest, huge, vectorDB, embedder)
    requires BatchError(batches[0], huge, vectorDB, embedder).None? ==>
      t.err == rest.err && |t.embedded| == |rest.embedded| + 1
    requires BatchError(batches[0], huge, vectorDB, embedder).Some? ==>
      t.err == BatchError(batches[0], huge, vectorDB, embedder) && |t.embedded| == 1
    ensures t.err.None? <==> AllBatchesOk(batches, huge, vectorDB, embedder)
    ensures t.err.Some? ==> exists m: nat :: FirstFailure(batches, m, t, huge, vectorDB, embedder)
  {
    if BatchError(batches[0], huge, vectorDB, embedder).Some? {
      assert FirstFailure(batches, 0, t, huge, vectorDB, embedder);
    } else {
      forall j | 1 <= j < |batches|
        ensures batches[j] == batches[1..][j - 1]
      {
      }
      if t.err.Some? {
        var m: nat :| FirstFailure(batches[1..], m, rest, huge, vectorDB, embedder);
        assert batches[m + 1] == batches[1..][m];
        assert FirstFailure(batches, m + 1, t, huge, vectorDB, embedder);
      }
    }
  }

  /** The loop reports the error of the first failing batch, and none when every batch succeeds. */
  lemma {:induction false} IngestFirstError(batches: seq<seq<DocChunk>>, huge: bool, vectorDB: DataProcessor, embedder: Embedder)
    ensures var t := IngestBatches(batches, huge, vectorDB, embedder);
      (t.err.None? <==> AllBatchesOk(batches, huge, vectorDB, embedder)) &&
      (t.err.Some? ==> exists m: nat :: FirstFailure(batches, m, t, huge, vectorDB, embedder))
    decreases |batches|
  {
    if batches != [] {
      IngestFirstError(batches[1..], huge, vectorDB, embedder);
      IngestStep(batches, huge, vectorDB, embedder);
      FirstErrorStep(batches, huge, vectorDB, embedder,
                     IngestBatches(batches, huge, vectorDB, embedder), IngestBatches(batches[1..], huge, vectorDB, embedder));
    }
  }

  /** The embedding calls: the i-th receives exactly the non-empty texts of batch i. */
  ghost predicate EmbeddedInOrder(batches: seq<seq<DocChunk>>, embedded: seq<seq<string>>)
  {
    |embedded| <= |batches| &&
    forall i :: 0 <= i < |embedded| ==> embedded[i] == BatchTexts(batches[i])
  }

  /** Embedding the first batch, then the calls for the batches after it, keeps the calls in order. */
  lemma EmbeddedStep(batches: seq<seq<DocChunk>>, embedded: seq<seq<string>>, rest: seq<seq<string>>)
    requires batches != []
    requires embedded == [BatchTexts(batches[0])] + rest
    requires EmbeddedInOrder(batches[1..], rest)
    ensures EmbeddedInOrder(batches, embedded)
  {
    forall i | 1 <= i < |embedded|
      ensures embedded[i] == BatchTexts(batches[i])
    {
      assert embedded[i] == rest[i - 1];
      assert batches[i] == batches[1..][i - 1];
    }
  }

  /** Batch i goes to the embedder as the non-empty texts of its chunks, in order, and nothing past the last batch. */
  lemma {:induction false} IngestEmbedded(batches: seq<seq<DocChunk>>, huge: bool, vectorDB: DataProcessor, embedder: Embedder)
    ensures EmbeddedInOrder(batches, IngestBatches(batches, huge, vectorDB, embedder).embedded)
    decreases |batches|
  {
    if batches != [] {
      IngestEmbedded(batches[1..], huge, vectorDB, embedder);
      IngestStep(batches, huge, vectorDB, embedder);
      var t := IngestBatches(batches, huge, vectorDB, embedder);
      if BatchError(batches[0], huge, vectorDB, embedder).None? {
        EmbeddedStep(batches, t.embedded, IngestBatches(batches[1..], huge, vectorDB, embedder).embedded);
      } else {
        EmbeddedStep(batches, t.embedded, []);
      }
    }
  }

  /** The upserts: the i-th receives exactly batch i. */
  ghost predicate UpsertedInOrder(batches: seq<seq<DocChunk>>, upserted: seq<seq<DocChunk>>)
  {
    |upserted| <= |batches| &&
    forall i :: 0 <= i < |upserted| ==> upserted[i] == batches[i]
  }

  /** Upserting the first batch, then the upserts of the batches after it, keeps the upserts in order. */
  lemma UpsertedStep(batches: seq<seq<DocChunk>>, upserted: seq<seq<DocChunk>>, rest: seq<seq<DocChunk>>)
    requires batches != []
    requires upserted == [batches[0]] + rest
    requires UpsertedInOrder(batches[1..], rest)
    ensures UpsertedInOrder(batches, upserted)
  {
    forall i | 1 <= i < |upserted|
      ensures upserted[i] == batches[i]
    {
      assert upserted[i] == rest[i - 1];
      assert batches[i] == batches[1..][i - 1];
    }
  }

  /** Batch i goes to the upsert whole, in order, and only after it was embedded. */
  lemma {:induction false} IngestUpserted(batches: seq<seq<DocChunk>>, huge: bool, vectorDB: DataProcessor, embedder: Embedder)
    ensures var t := IngestBatches(batches, huge, vectorDB, embedder);
      |t.upserted| <= |t.embedded| && UpsertedInOrder(batches, t.upserted)
    decreases |batches|
  {
    if batches != [] {
      IngestUpserted(batches[1..], huge, vectorDB, embedder);
      IngestStep(batches, huge, vectorDB, embedder);
      var t := IngestBatches(batches, huge, vectorDB, embedder);
      if BatchError(batches[0], huge, vectorDB, embedder).None? {
        UpsertedStep(batches, t.upserted, IngestBatches(batches[1..], huge, vectorDB, embedder).upserted);
      } else if t.upserted != [] {
        UpsertedStep(batches, t.upserted, []);
      }
    }
  }

  /** A run without error embeds and upserts every batch. */
  lemma {:induction false} IngestSucceededAll(batches: seq<seq<DocChunk>>, huge: bool, vectorDB: DataProcessor, embedder: Embedder)
    requires IngestBatches(batches, huge, vectorDB, embedder).err.None?
    ensures var t := IngestBatches(batches, huge, vectorDB, embedder);
      t.upserted == batches && |t.embedded| == |batches|
    decreases |batches|
  {
    if batches != [] {
      IngestStep(batches, huge, vectorDB, embedder);
      IngestSucceededAll(batches[1..], huge, vectorDB, embedder);
      assert [batches[0]] + batches[1..] == batches;
    }
  }

  /** The batches laid end to end. */
  function Flatten(batches: seq<seq<DocChunk>>): seq<DocChunk>
  {
    if batches == [] then [] else batches[0] + Flatten(batches[1..])
  }

  /** Laying out a batch followed by others puts that batch first. */
  lemma FlattenCons(batch: seq<DocChunk>, rest: seq<seq<DocChunk>>)
    ensures Flatten([batch] + rest) == batch + Flatten(rest)
  {
    assert ([batch] + rest)[1..] == rest;
  }

  /** The chunks from chunk i on are the batch at i followed by the chunks after that batch. */
  lemma BatchThenRest(chunks: seq<DocChunk>, i: nat)
    requires i < |chunks|
    ensures ChunksFrom(chunks, i) == BatchAt(chunks, i) + ChunksFrom(chunks, i + BatchSize)
  {
    if i + BatchSize < |chunks| {
      assert chunks[i..] == chunks[i..i + BatchSize] + chunks[i + BatchSize..];
    }
  }

  /** One step of BatchesCoverChunks: the batch at i put before the batches that cover the rest. */
  lemma BatchesCoverStep(chunks: seq<DocChunk>, i: nat)
    requires i < |chunks|
    requires Flatten(Batches(chunks, i + BatchSize)) == ChunksFrom(chunks, i + BatchSize)
    ensures Flatten(Batches(chunks, i)) == ChunksFrom(chunks, i)
  {
    FlattenCons(BatchAt(chunks, i), Batches(chunks, i + BatchSize));
    BatchThenRest(chunks, i);
  }

  /** The batches from chunk i on, laid end to end, are the chunks from i on: none lost, repeated or reordered. */
  lemma {:induction false} BatchesCoverChunks(chunks: seq<DocChunk>, i: nat)
    ensures Flatten(Batches(chunks, i)) == ChunksFrom(chunks, i)
    decreases |chunks| - i
  {
    if i < |chunks| {
      BatchesCoverChunks(chunks, i + BatchSize);
      BatchesCoverStep(chunks, i);
    }
  }

  /** Every batch holds between one and BatchSize chunks. */
  lemma {:induction false} BatchesBounded(chunks: seq<DocChunk>, i: nat)
    ensures forall j :: 0 <= j < |Batches(chunks, i)| ==> 0 < |Batches(chunks, i)[j]| <= BatchSize
    decreases |chunks| - i
  {
    if i < |chunks| {
      BatchesBounded(chunks, i + BatchSize);
      var bs := Batches(chunks, i);
      forall j | 1 <= j < |bs|
        ensures bs[j] == Batches(chunks, i + BatchSize)[j - 1]
      {
      }
    }
  }

  /** When BatchIngest succeeds, every chunk was upserted exactly once, in order. */
  lemma IngestedCoversAll(chunks: seq<DocChunk>, vectorDB: DataProcessor, embedder: Embedder)
    requires Ingested(chunks, vectorDB, embedder).err.None?
    ensures Flatten(Ingested(chunks, vectorDB, embedder).upserted) == chunks
  {
    IngestSucceededAll(Batches(chunks, 0), |chunks| > HugeDataSetThreshold, vectorDB, embedder);
    BatchesCoverChunks(chunks, 0);
    assert chunks[0..] == chunks;
  }

  /** 150 chunks that all go through make exactly two upserts, of 100 and 50 chunks. */
  lemma IngestOf150Chunks(chunks: seq<DocChunk>, vectorDB: DataProcessor, embedder: Embedder)
    requires |chunks| == 150
    requires BatchError(chunks[..100], false, vectorDB, embedder).None?
    requires BatchError(chunks[100..], false, vectorDB, embedder).None?
    ensures var t := Ingested(chunks, vectorDB, embedder);
      t.err.None? && t.upserted == [chunks[..100], chunks[100..]]
  {
    var bs := Batches(chunks, 0);
    NextBatch(chunks, 0);
    NextBatch(chunks, 100);
    assert Batches(chunks, 200) == [];
    assert chunks[100..150] == chunks[100..];
    assert bs == [chunks[..100], chunks[100..]];
    IngestStep(bs, false, vectorDB, embedder);
    IngestStep(bs[1..], false, vectorDB, embedder);
  }
}

=== FILE: ingest_seam.dfy ===
/**
 * Where the batch loop of internal/rag/ingest/impl.go meets the Qdrant client of
 * internal/rag/vectorDB/qdrantDB/qdrant.go: the loop sends the embedder only the non-empty
 * texts of a batch but upserts the whole batch, and the client refuses a batch whose chunk
 * and vector counts differ. So, with an embedder that answers every text and a server that
 * accepts every upsert, ingestion succeeds exactly when no chunk is empty, and a document
 * with an empty page always fails.
 */
module IngestSeam {
  import opened Wrappers
  import opened CommonModels
  import opened Deps
  import opened IngestImpl
  import Qdrant

  /** An embedder that returns one vector per text, for every batch. */
  ghost predicate Faithful(embedder: Embedder)
  {
    forall texts, huge ::
      embedder.batchEmbedding(texts, huge).Success? && |embedder.batchEmbedding(texts, huge).value| == |texts|
  }

  /** db with its upsert answered by the Qdrant client, against a server that accepts every upsert. */
  function QdrantBacked(db: DataProcessor): (r: DataProcessor)
    ensures forall name, cs, vs :: r.upsertBatch(name, cs, vs) == Qdrant.UpsertError(cs, vs, None)
  {
    db.(upsertBatch := (name: string, cs: seq<DocChunk>, vs: seq<Vector>) => Qdrant.UpsertError(cs, vs, None))
  }

  /** The first n chunks of a batch all have text exactly when none of their texts is dropped. */
  lemma {:induction false} NonEmptyTextsComplete(batch: seq<DocChunk>, n: nat)
    requires n <= |batch|
    ensures |NonEmptyTexts(batch, n)| == n <==> forall i :: 0 <= i < n ==> batch[i].chunk != ""
  {
    if n > 0 {
      NonEmptyTextsComplete(batch, n - 1);
    }
  }

  /** Under a faithful embedder and an accepting server, a batch succeeds iff none of its chunks is empty. */
  lemma BatchSucceedsIffNoEmpty(batch: seq<DocChunk>, huge: bool, db: DataProcessor, embedder: Embedder)
    requires Faithful(embedder)
    ensures BatchError(batch, huge, QdrantBacked(db), embedder).None? <==>
      forall i :: 0 <= i < |batch| ==> batch[i].chunk != ""
  {
    NonEmptyTextsComplete(batch, |batch|);
    var reply := embedder.batchEmbedding(BatchTexts(batch), huge);
    assert reply.Success? && |reply.value| == |BatchTexts(batch)|;
  }

  /** A chunk is laid out by Flatten exactly when it is in one of the batches. */
  lemma {:induction false} FlattenMember(batches: seq<seq<DocChunk>>, c: DocChunk)
    ensures c in Flatten(batches) <==> exists j :: 0 <= j < |batches| && c in batches[j]
    decreases |batches|
  {
    if batches != [] {
      FlattenMember(batches[1..], c);
      if c in Flatten(batches[1..]) {
        var j :| 0 <= j < |batches[1..]| && c in batches[1..][j];
        assert c in batches[j + 1];
      }
      if exists j :: 1 <= j < |batches| && c in batches[j] {
        var j :| 1 <= j < |batches| && c in batches[j];
        assert c in batches[1..][j - 1];
      }
    }
  }

  /** The chunks have text exactly when the chunks of every batch have text. */
  lemma NoEmptyChunkInBatches(chunks: seq<DocChunk>)
    ensures (forall i :: 0 <= i < |chunks| ==> chunks[i].chunk != "") <==>
      (forall j, c: DocChunk :: 0 <= j < |Batches(chunks, 0)| && c in Batches(chunks, 0)[j] ==> c.chunk != "")
  {
    var bs := Batches(chunks, 0);
    BatchesCoverChunks(chunks, 0);
    assert Flatten(bs) == chunks by {
      assert chunks[0..] == chunks;
    }
    if forall i :: 0 <= i < |chunks| ==> chunks[i].chunk != "" {
      forall j, c: DocChunk | 0 <= j < |bs| && c in bs[j]
        ensures c.chunk != ""
      {
        FlattenMember(bs, c);
        var i :| 0 <= i < |chunks| && chunks[i] == c;
      }
    }
    if forall j, c: DocChunk :: 0 <= j < |bs| && c in bs[j] ==> c.chunk != "" {
      forall i | 0 <= i < |chunks|
        ensures chunks[i].chunk != ""
      {
        FlattenMember(bs, chunks[i]);
      }
    }
  }

  /**
   * Under a faithful embedder and an accepting server, BatchIngest's work succeeds iff
   * no chunk has empty text.
   */
  lemma IngestSucceedsIffNoEmptyChunk(chunks: seq<DocChunk>, db: DataProcessor, embedder: Embedder)
    requires Faithful(embedder)
    ensures Ingested(chunks, QdrantBacked(db), embedder).err.None? <==>
      forall i :: 0 <= i < |chunks| ==> chunks[i].chunk != ""
  {
    var huge := |chunks| > HugeDataSetThreshold;
    var bs := Batches(chunks, 0);
    IngestFirstError(bs, huge, QdrantBacked(db), embedder);
    NoEmptyChunkInBatches(chunks);
    forall j | 0 <= j < |bs|
      ensures BatchError(bs[j], huge, QdrantBacked(db), embedder).None? <==> forall c: DocChunk :: c in bs[j] ==> c.chunk != ""
    {
      BatchSucceedsIffNoEmpty(bs[j], huge, db, embedder);
    }
  }

  /** A document with an empty page fails to ingest, even when the embedder and the server never fail. */
  lemma EmptyPageFailsIngestion(pages: seq<RawPage>, p: nat, doc: Document, model: string, newId: nat -> string,
                                db: DataProcessor, embedder: Embedder)
    requires Faithful(embedder)
    requires p < |pages| && pages[p].content == ""
    ensures Ingested(Prepared(pages, doc, model, newId), QdrantBacked(db), embedder).err.Some?
  {
    EmptyPageGivesEmptyChunk(pages, p, doc, model, newId);
    IngestSucceedsIffNoEmptyChunk(Prepared(pages, doc, model, newId), db, embedder);
  }
}

=== FILE: job_model.dfy ===
/** The job record of internal/domain/jobModel/jobModels.go. */
module JobModel {

  /** Go's JobStatus string type; StatusUnset is the zero value "". */
  datatype JobStatus = StatusUnset | Queued | Running | Complete | StatusError

  /** string(status), as written into API responses. */
  function StatusText(s: JobStatus): string
  {
    match s
    case StatusUnset => ""
    case Queued => "QUEUED"
    case Running => "RUNNING"
    case Complete => "COMPLETE"
    case StatusError => "Error"
  }

  /** Go's InternalStatus string type: the pipeline stage a job is in; StepUnset is "". */
  datatype InternalStatus =
    | StepUnset
    | UserQueryInit
    | CacheCall
    | RAGCall
    | LLMCall
    | VectorDBCall
    | EmbeddingAPICall
    | RedisCall
    | IngestInit
    | IngestProcessing
    | StepError
    | StepComplete

  /** Go's JobType string type; TypeUnset is "". */
  datatype JobType = TypeUnset | Query | Ingest

  datatype JobError = JobError(code: int, message: string, retry: bool)

  /** The zero JobError{}. */
  const NoError := JobError(0, "", false)

  datatype JobPayload = JobPayload(
    question: string,
    answer: string,
    sources: seq<string>,
    ingestFileName: string,
    ingestURL: string)

  /** The zero JobPayload{}. */
  const EmptyPayload := JobPayload("", "", [], "", "")

  /** An instant of time.Time; 0 stands for the zero time.Time{}. */
  type Time = int

  datatype Job = Job(
    id: string,
    chatId: string,
    traceId: string,
    jobType: JobType,
    payload: JobPayload,
    error: JobError,
    createdTime: Time,
    endTime: Time,
    status: JobStatus,
    currentStep: InternalStatus)

  /** The zero jobModel.Job{}. */
  const ZeroJob := Job("", "", "", TypeUnset, EmptyPayload, NoError, 0, 0, StatusUnset, StepUnset)
}

=== FILE: job_service.dfy ===
/**
 * The shared service record of internal/job/jobService.go: the job queue, the request
 * counter, the dispatcher's signal queue and the two stores. Channels are modelled as the
 * sequences of values sent on them. The stores are the in-memory ones.
 */
module JobService {
  import opened JobModel
  import Stores

  class Service {
    /** Every job sent on JobChannel, in order. */
    var jobChannel: seq<Job>
    var requestCount: int
    /** Every signal sent on DispatcherChannel, in order. */
    var dispatcherChannel: seq<bool>
    const jobStore: Stores.InMemoryJobStore
    const messageStore: Stores.InMemoryMessageStore

    /** InitJobService: the configured counter and stores, nothing sent yet. */
    constructor (requestCount: int, jobStore: Stores.InMemoryJobStore, messageStore: Stores.InMemoryMessageStore)
      ensures this.jobChannel == [] && this.dispatcherChannel == []
      ensures this.requestCount == requestCount
      ensures this.jobStore == jobStore && this.messageStore == messageStore
    {
      this.jobChannel := [];
      this.requestCount := requestCount;
      this.dispatcherChannel := [];
      this.jobStore := jobStore;
      this.messageStore := messageStore;
    }
  }
}

=== FILE: k6_scenario.dfy ===
/**
 * One iteration of the k6 load test in k6/script.js: submit a chat job, classify the reply,
 * poll the job's status URL with a budget of ten polls, and record named checks. The replies
 * the server gives are parameters: the submission's reply, and the reply to the k-th poll.
 * JSON bodies are records whose fields may be missing (undefined); reading a property of a
 * missing field throws a TypeError, which ends the iteration and is recorded as a fault at
 * its line. Sleeps and logging are left out.
 */
module K6Scenario {
  import opened Wrappers

  const BaseURL: string := "http://localhost:3000"
  const InitialRetries: int := 10
  const CompleteText: string := "COMPLETE"

  const RateLimitHit: string := "rate limit hit"
  const JobAccepted: string := "job accepted"
  const HasJobId: string := "has job_id"
  const HasStatusURL: string := "has status url"
  const StatusRateLimit: string := "status - rate limit"
  const StatusFetch200: string := "status fetch 200"
  const HasChatId: string := "has chat_id returned"
  const HasAnswerText: string := "has answer text"
  const HasError: string := "has error"

  /** The reply to the submission: its status and the JSON fields id and status_url. */
  datatype SubmitReply = SubmitReply(status: int, id: Option<string>, statusUrl: Option<string>)

  /** The JSON of a status reply, every field possibly missing. */
  datatype RagBody = RagBody(answer: Option<string>)
  datatype ResultBody = ResultBody(status: Option<string>, ragResponse: Option<RagBody>)
  datatype ErrorBody = ErrorBody(code: Option<int>)
  datatype PollBody = PollBody(chatId: Option<string>, result: Option<ResultBody>, error: Option<ErrorBody>)
  datatype PollReply = PollReply(status: int, body: PollBody)

  /** How the iteration ended: normally, or by a TypeError at a line of the script. */
  datatype Ending = Finished | Faulted(line: nat)

  /** The iteration's observable state: the loop variables, the checks recorded, the URLs polled and the ending. */
  datatype State = State(retries: int, jobCompleted: bool, checks: seq<(string, bool)>, requested: seq<string>, ending: Ending)

  /** The URL a poll requests: the status URL taken verbatim after the base. */
  function PollURL(statusUrl: string): string
  {
    BaseURL + "/" + statusUrl
  }

  /** JavaScript truthiness of error.code: present and not 0. */
  predicate CodeTruthy(code: Option<int>)
  {
    code.Some? && code.value != 0
  }

  /**
   * One pass of the polling loop on a reply: the checks it records, whether the loop goes on,
   * and the budget after it. The pass goes on only when it neither returns, breaks nor faults,
   * and then it spends one unit of the budget.
   */
  function PollOnce(st: State, reply: PollReply, url: string): (r: (State, bool))
    ensures r.0.requested == st.requested + [url]
    ensures |r.0.checks| > |st.checks| && r.0.checks[..|st.checks|] == st.checks
    ensures r.0.checks[|st.checks|] == (StatusRateLimit, reply.status == 429)
    ensures r.1 ==> r.0.retries == st.retries - 1 && r.0.ending == st.ending
    ensures !r.1 ==> r.0.retries == st.retries
  {
    var st1 := st.(requested := st.requested + [url], checks := st.checks + [(StatusRateLimit, reply.status == 429)]);
    if reply.status == 429 then (st1, false)
    else
      var st2 := st1.(checks := st1.checks + [(StatusFetch200, reply.status == 200)]);
      var body := reply.body;
      if body.result.None? then (st2.(ending := Faulted(63)), false)
      else if body.result.value.status == Some(CompleteText) then
        var st3 := st2.(jobCompleted := true);
        if body.chatId.None? then (st3.(ending := Faulted(70)), false)
        else
          var st4 := st3.(checks := st3.checks + [(HasChatId, |body.chatId.value| > 0)]);
          if body.error.None? then
            var rag := body.result.value.ragResponse;
            if rag.Some? && rag.value.answer.None? then (st4.(ending := Faulted(74)), false)
            else
              var st5 := st4.(checks := st4.checks + [(HasAnswerText, rag.Some? && |rag.value.answer.value| > 0)]);
              if rag.None? then (st5.(ending := Faulted(76)), false)
              else (st5.(retries := st5.retries - 1), true)
          else
            var st5 := st4.(checks := st4.checks + [(HasError, CodeTruthy(body.error.value.code))]);
            (st5.(retries := st5.retries - 1), true)
      else if body.error.Some? then (st2, false)
      else (st2.(retries := st2.retries - 1), true)
  }

  /** The polling loop from st, the k-th poll answered by replies(k). */
  function Loop(st: State, replies: nat -> PollReply, url: string): State
    decreases if st.retries < 0 then 0 else st.retries
  {
    if st.jobCompleted || st.retries <= 0 then st
    else
      var (next, go) := PollOnce(st, replies(|st.requested|), url);
      if !go then next else Loop(next, replies, url)
  }

  /** Whether the three acceptance checks all pass. */
  predicate Accepted(submit: SubmitReply)
  {
    submit.status == 202 && submit.id.Some? && submit.statusUrl.Some?
  }

  /** A whole iteration: the submission's checks, then the polling loop when the job was accepted. */
  function Scenario(submit: SubmitReply, replies: nat -> PollReply): State
  {
    var rateChecks := [(RateLimitHit, submit.status == 429)];
    if submit.status == 429 then State(0, false, rateChecks, [], Finished)
    else
      var acceptChecks := rateChecks + [(JobAccepted, submit.status == 202), (HasJobId, submit.id.Some?),
                                        (HasStatusURL, submit.statusUrl.Some?)];
      if !Accepted(submit) then State(0, false, acceptChecks, [], Finished)
      else Loop(State(InitialRetries, false, acceptChecks, [], Finished), replies, PollURL(submit.statusUrl.value))
  }

  /** The state of one k6 iteration: the loop variables, the check log and the polled URLs. */
  class Iteration {
    var retries: int
    var jobCompleted: bool
    var checks: seq<(string, bool)>
    var requested: seq<string>
    var ending: Ending

    constructor ()
      ensures retries == 0 && !jobCompleted && checks == [] && requested == [] && ending == Finished
    {
      retries := 0;
      jobCompleted := false;
      checks := [];
      requested := [];
      ending := Finished;
    }

    function Snapshot(): State
      reads this
    {
      State(retries, jobCompleted, checks, requested, ending)
    }

    /** The default function of the script: one iteration, ending in the state Scenario describes. */
    method Run(submit: SubmitReply, replies: nat -> PollReply)
      modifies this
      ensures Snapshot() == Scenario(submit, replies)
    {
      retries, jobCompleted, checks, requested, ending := 0, false, [], [], Finished;
      var isRateLimited := submit.status == 429;
      checks := checks + [(RateLimitHit, isRateLimited)];
      if isRateLimited {
        return;
      }
      checks := checks + [(JobAccepted, submit.status == 202), (HasJobId, submit.id.Some?), (HasStatusURL, submit.statusUrl.Some?)];
      var isAccepted := submit.status == 202 && submit.id.Some? && submit.statusUrl.Some?;
      if isAccepted {
        var statusUrl := submit.statusUrl.value;
        jobCompleted := false;
        retries := InitialRetries;
        ghost var start := Snapshot();
        assert checks == [(RateLimitHit, submit.status == 429)] + [(JobAccepted, submit.status == 202), (HasJobId, submit.id.Some?),
                                                                  (HasStatusURL, submit.statusUrl.Some?)];
        assert Loop(start, replies, PollURL(statusUrl)) == Scenario(submit, replies);
        while !jobCompleted && retries > 0
          invariant Loop(Snapshot(), replies, PollURL(statusUrl)) == Loop(start, replies, PollURL(statusUrl))
          decreases retries
        {
          var goOn := Poll(statusUrl, replies);
          if !goOn {
            return;
          }
        }
      }
    }

    /**
     * One pass of the polling loop: poll the status URL, record the checks, and say whether
     * the loop goes on (false when the pass returns, breaks or faults).
     */
    method Poll(statusUrl: string, replies: nat -> PollReply) returns (goOn: bool)
      modifies this
      ensures (Snapshot(), goOn) == PollOnce(old(Snapshot()), replies(|old(requested)|), PollURL(statusUrl))
    {
      var tempurl := BaseURL + "/" + statusUrl;
      var pollRes := replies(|requested|);
      requested := requested + [tempurl];
      checks := checks + [(StatusRateLimit, pollRes.status == 429)];
      if pollRes.status == 429 {
        return false;
      }
      checks := checks + [(StatusFetch200, pollRes.status == 200)];
      var body := pollRes.body;
      if body.result.None? {
        ending := Faulted(63);
        return false;
      }
      var currentStatus := body.result.value.status;
      if currentStatus == Some(CompleteText) {
        jobCompleted := true;
        if body.chatId.None? {
          ending := Faulted(70);
          return false;
        }
        checks := checks + [(HasChatId, |body.chatId.value| > 0)];
        if body.error.None? {
          var rag := body.result.value.ragResponse;
          if rag.Some? && rag.value.answer.None? {
            ending := Faulted(74);
            return false;
          }
          checks := checks + [(HasAnswerText, rag.Some? && |rag.value.answer.value| > 0)];
          if rag.None? {
            ending := Faulted(76);
            return false;
          }
        } else {
          checks := checks + [(HasError, CodeTruthy(body.error.value.code))];
        }
      } else if body.error.Some? {
        return false;
      }
      retries := retries - 1;
      return true;
    }
  }

  // ---------------------------------------------------------------------------
  // Properties of an iteration

  /** The loop never polls more than its remaining budget, never shortens the check log, and polls only its URL. */
  lemma {:induction false} LoopBounds(st: State, replies: nat -> PollReply, url: string)
    requires forall i :: 0 <= i < |st.requested| ==> st.requested[i] == url
    ensures var r := Loop(st, replies, url);
      |r.requested| <= |st.requested| + (if st.retries < 0 then 0 else st.retries) &&
      |st.checks| <= |r.checks| && r.checks[..|st.checks|] == st.checks &&
      |st.requested| <= |r.requested| &&
      (forall i :: 0 <= i < |r.requested| ==> r.requested[i] == url)
    decreases if st.retries < 0 then 0 else st.retries
  {
    if !(st.jobCompleted || st.retries <= 0) {
      var (next, go) := PollOnce(st, replies(|st.requested|), url);
      if go {
        LoopBounds(next, replies, url);
        var r := Loop(next, replies, url);
        assert r.checks[..|st.checks|] == r.checks[..|next.checks|][..|st.checks|];
      }
    }
  }

  /** At most ten polls happen in an iteration, each to BASE_URL + "/" + status_url. */
  lemma AtMostTenPolls(submit: SubmitReply, replies: nat -> PollReply)
    ensures |Scenario(submit, replies).requested| <= InitialRetries
    ensures forall i :: 0 <= i < |Scenario(submit, replies).requested| ==>
      Scenario(submit, replies).requested[i] == PollURL(submit.statusUrl.value)
  {
    if submit.status != 429 && Accepted(submit) {
      var acceptChecks := [(RateLimitHit, submit.status == 429)] + [(JobAccepted, submit.status == 202), (HasJobId, submit.id.Some?),
                                                                   (HasStatusURL, submit.statusUrl.Some?)];
      var st := State(InitialRetries, false, acceptChecks, [], Finished);
      assert Scenario(submit, replies) == Loop(st, replies, PollURL(submit.statusUrl.value));
      LoopBounds(st, replies, PollURL(submit.statusUrl.value));
    }
  }

  /** A rate-limited submission records only "rate limit hit", as passed, and polls nothing. */
  lemma RateLimitedSubmission(submit: SubmitReply, replies: nat -> PollReply)
    requires submit.status == 429
    ensures Scenario(submit, replies).checks == [(RateLimitHit, true)]
    ensures Scenario(submit, replies).requested == []
  {
  }

  /**
   * Polling happens exactly when the submission is accepted with an id and a status URL: the
   * four submission checks come first, and the first poll follows.
   */
  lemma PollsIffAccepted(submit: SubmitReply, replies: nat -> PollReply)
    ensures |Scenario(submit, replies).requested| > 0 <==> submit.status != 429 && Accepted(submit)
    ensures submit.status != 429 ==>
      |Scenario(submit, replies).checks| >= 4 &&
      Scenario(submit, replies).checks[..4] ==
        [(RateLimitHit, false), (JobAccepted, submit.status == 202), (HasJobId, submit.id.Some?), (HasStatusURL, submit.statusUrl.Some?)]
  {
    if submit.status != 429 && Accepted(submit) {
      var acceptChecks := [(RateLimitHit, submit.status == 429)] + [(JobAccepted, submit.status == 202), (HasJobId, submit.id.Some?),
                                                                   (HasStatusURL, submit.statusUrl.Some?)];
      var st := State(InitialRetries, false, acceptChecks, [], Finished);
      var url := PollURL(submit.statusUrl.value);
      assert Scenario(submit, replies) == Loop(st, replies, url);
      var (next, go) := PollOnce(st, replies(0), url);
      assert next.checks[..4] == acceptChecks;
      if go {
        assert Loop(st, replies, url) == Loop(next, replies, url);
        LoopBounds(next, replies, url);
        var r := Loop(next, replies, url);
        assert r.checks[..4] == r.checks[..|next.checks|][..4];
      } else {
        assert Loop(st, replies, url) == next;
      }
    }
  }

  /** A rate-limited poll ends the loop at once, with its budget unspent. */
  lemma RateLimitedPollStops(st: State, reply: PollReply, url: string)
    requires reply.status == 429
    ensures !PollOnce(st, reply, url).1
    ensures PollOnce(st, reply, url).0 == st.(requested := st.requested + [url], checks := st.checks + [(StatusRateLimit, true)])
  {
  }

  /** A body that is not COMPLETE but carries an error breaks out of the loop without spending the budget. */
  lemma ErrorBodyBreaks(st: State, reply: PollReply, url: string)
    requires reply.status != 429 && reply.body.result.Some?
    requires reply.body.result.value.status != Some(CompleteText) && reply.body.error.Some?
    ensures !PollOnce(st, reply, url).1
    ensures PollOnce(st, reply, url).0.retries == st.retries
    ensures PollOnce(st, reply, url).0.ending == st.ending
  {
  }

  /**
   * COMPLETE is tested before the error: a COMPLETE body ends the polling (no further poll),
   * and records "has answer text" when it has no error and "has error" (the truthiness of the
   * code) when it has one.
   */
  lemma CompleteEndsPolling(st: State, reply: PollReply, url: string, replies: nat -> PollReply)
    requires reply.status != 429 && reply.body.result.Some? && reply.body.result.value.status == Some(CompleteText)
    requires reply.body.chatId.Some?
    ensures var (next, go) := PollOnce(st, reply, url);
      next.jobCompleted && Loop(next, replies, url) == next &&
      (reply.body.error.Some? ==> go && next.checks[|next.checks| - 1] == (HasError, CodeTruthy(reply.body.error.value.code))) &&
      (reply.body.error.None? && reply.body.result.value.ragResponse.Some? && reply.body.result.value.ragResponse.value.answer.Some? ==>
        go && next.checks[|next.checks| - 1] == (HasAnswerText, |reply.body.result.value.ragResponse.value.answer.value| > 0))
  {
  }

  /** A COMPLETE body with neither an error nor a RAG response fails "has answer text" and then faults at line 76. */
  lemma CompleteWithoutAnswerFaults(st: State, reply: PollReply, url: string)
    requires reply.status != 429 && reply.body.result.Some? && reply.body.result.value.status == Some(CompleteText)
    requires reply.body.chatId.Some? && reply.body.error.None? && reply.body.result.value.ragResponse.None?
    ensures var (next, go) := PollOnce(st, reply, url);
      !go && next.ending == Faulted(76) && next.checks[|next.checks| - 1] == (HasAnswerText, false)
  {
  }

  /** A body without a result faults at line 63 after the two status checks. */
  lemma MissingResultFaults(st: State, reply: PollReply, url: string)
    requires reply.status != 429 && reply.body.result.None?
    ensures var (next, go) := PollOnce(st, reply, url);
      !go && next.ending == Faulted(63) && next.checks == st.checks + [(StatusRateLimit, false), (StatusFetch200, reply.status == 200)]
  {
  }
}

=== FILE: middleware.dfy ===
/**
 * The request middleware of internal/middleware/implementation.go and
 * internal/middleware/rateLimiter.go: tracing, bearer-token authentication, per-IP rate
 * limiting and the rejection of a request marked bad. The request record travels by value
 * (requestResponseStruct); error replies go to a response writer that records what was
 * written. The token bucket's decision, the fresh trace id and the configured bypass flag and
 * token are parameters.
 */
module Middleware {
  import opened Wrappers
  import opened GoStrings
  import opened Api
  import Adapter
  import Config

  const TraceHeader: string := "X-Trace-Id"
  const AuthorizationHeader: string := "Authorization"
  const BearerPrefix: string := "Bearer "

  const StatusBadRequest: int := 400
  const StatusUnauthorized: int := 401
  const StatusTooManyRequests: int := 429

  const EmptyRequestMessage: string := "request is empty"
  const UnauthorizedMessage: string := "Unauthorized"
  const InvalidTokenMessage: string := "invalid token - you sus bruh"
  const RateLimitMessage: string := "Rate limit exceeded. Slow down bruh"
  const IPPrefix: string := "Your IP: "

  /** The parts of an *http.Request the middleware reads: headers (one value each), peer address, trace in the context. */
  datatype Request = Request(header: map<string, string>, remoteAddr: string, traceId: Option<string>)

  /** failureStruct. */
  datatype FailureRecord = FailureRecord(isBadRequest: bool, httpCode: int, errorMessage: string, id: string)

  /** One JSON reply written to the client. */
  datatype Reply = Reply(code: int, body: JobResponse)

  /** An http.ResponseWriter: the replies written so far. */
  class ResponseWriter {
    var written: seq<Reply>

    constructor ()
      ensures written == []
    {
      written := [];
    }

    /** WriteErrorResponse: a BadRequest body with the given code. */
    method WriteErrorResponse(httpCode: int, id: string, error: string)
      modifies this
      ensures written == old(written) + [Reply(httpCode, Adapter.BadRequest(id, error, httpCode))]
    {
      written := written + [Reply(httpCode, Adapter.BadRequest(id, error, httpCode))];
    }
  }

  /** requestResponseStruct (the logger is left out); a nil request is None. */
  datatype RequestResponse = RequestResponse(writer: ResponseWriter, req: Option<Request>, badRequest: FailureRecord)

  /** Header.Get: the header's value, or "" when it is absent. */
  function HeaderGet(header: map<string, string>, key: string): string
  {
    if key in header then header[key] else ""
  }

  // ---------------------------------------------------------------------------
  // Tracing

  /**
   * injectTrace: a nil request is marked bad (400, "request is empty"); otherwise the trace is
   * the X-Trace-Id header or, when that is empty, a fresh id, and it is written back to the
   * header and into the request's context.
   */
  function InjectTrace(re: RequestResponse, freshId: string): (r: RequestResponse)
    ensures r.writer == re.writer
    ensures re.req.None? ==>
      r.req.None? && r.badRequest == re.badRequest.(httpCode := StatusBadRequest, errorMessage := EmptyRequestMessage, isBadRequest := true)
    ensures re.req.Some? ==>
      var given := HeaderGet(re.req.value.header, TraceHeader);
      var trace := if given == "" then freshId else given;
      r.badRequest == re.badRequest && r.req.Some? &&
      r.req.value.remoteAddr == re.req.value.remoteAddr &&
      r.req.value.traceId == Some(trace) && HeaderGet(r.req.value.header, TraceHeader) == trace &&
      (forall k :: k != TraceHeader ==> HeaderGet(r.req.value.header, k) == HeaderGet(re.req.value.header, k))
  {
    match re.req
    case None =>
      re.(badRequest := re.badRequest.(httpCode := StatusBadRequest, errorMessage := EmptyRequestMessage, isBadRequest := true))
    case Some(req) =>
      var trace := if HeaderGet(req.header, TraceHeader) == "" then freshId else HeaderGet(req.header, TraceHeader);
      re.(req := Some(req.(header := req.header[TraceHeader := trace], traceId := Some(trace))))
  }

  /** A request that already carries a trace keeps it; tracing twice changes nothing more. */
  lemma TraceIsKept(re: RequestResponse, freshId: string, otherId: string)
    requires re.req.Some? && HeaderGet(re.req.value.header, TraceHeader) != ""
    ensures InjectTrace(re, freshId).req.value.traceId == Some(HeaderGet(re.req.value.header, TraceHeader))
    ensures InjectTrace(InjectTrace(re, freshId), otherId) == InjectTrace(re, freshId)
  {
    var once := InjectTrace(re, freshId);
    assert once.req.value.header == re.req.value.header;
  }

  // ---------------------------------------------------------------------------
  // Authentication

  /**
   * IsValidBearerToken: with the bypass flag set every header passes; otherwise exactly the
   * header "Bearer " followed by the configured token passes.
   */
  function IsValidBearerToken(authHeader: string, noAuthBypass: bool, authToken: string): (ok: bool)
    ensures ok <==> noAuthBypass || authHeader == BearerPrefix + authToken
    ensures !noAuthBypass && authHeader == "" ==> !ok
  {
    if noAuthBypass then true
    else if authHeader == "" then false
    else if !HasPrefix(authHeader, BearerPrefix) then false
    else TrimPrefix(authHeader, BearerPrefix) == authToken
  }

  /**
   * authenticate: an invalid token writes a 401 "Unauthorized" reply and marks the request
   * bad with code 401; a valid one changes nothing. The request must be present.
   */
  method Authenticate(re: RequestResponse, noAuthBypass: bool, authToken: string) returns (r: RequestResponse)
    requires re.req.Some?
    modifies re.writer
    ensures var ok := IsValidBearerToken(HeaderGet(re.req.value.header, AuthorizationHeader), noAuthBypass, authToken);
      (ok ==> r == re && re.writer.written == old(re.writer.written)) &&
      (!ok ==>
        r == re.(badRequest := re.badRequest.(isBadRequest := true, errorMessage := InvalidTokenMessage, httpCode := StatusUnauthorized)) &&
        re.writer.written == old(re.writer.written) + [Reply(StatusUnauthorized, Adapter.BadRequest("", UnauthorizedMessage, StatusUnauthorized))])
  {
    r := re;
    if !IsValidBearerToken(HeaderGet(re.req.value.header, AuthorizationHeader), noAuthBypass, authToken) {
      re.writer.WriteErrorResponse(StatusUnauthorized, "", UnauthorizedMessage);
      r := r.(badRequest := r.badRequest.(isBadRequest := true));
      r := r.(badRequest := r.badRequest.(errorMessage := InvalidTokenMessage));
      r := r.(badRequest := r.badRequest.(httpCode := StatusUnauthorized));
      return;
    }
  }

  // ---------------------------------------------------------------------------
  // Rate limiting

  const MissingPort: string := "missing port in address"
  const TooManyColons: string := "too many colons in address"

  /**
   * net.SplitHostPort: host and port of "host:port" or "[host]:port"; the address error
   * otherwise (no colon, a colon inside an unbracketed host, a stray bracket).
   */
  function SplitHostPort(hostport: string): (r: Result<(string, string)>)
    ensures r.Success? ==> ':' in hostport && ':' !in r.value.1
    ensures ':' !in hostport ==> r == Failure(MissingPort)
  {
    var i := LastIndexByte(hostport, ':');
    if i < 0 then Failure(MissingPort)
    else
      var bracketed := hostport[0] == '[';
      var end := IndexByte(hostport, ']');
      if bracketed && end < 0 then Failure("missing ']' in address")
      else if bracketed && end + 1 == |hostport| then Failure(MissingPort)
      else if bracketed && end + 1 != i then
        (if hostport[end + 1] == ':' then Failure(TooManyColons) else Failure(MissingPort))
      else
        var host := if bracketed then hostport[1..end] else hostport[..i];
        var j := if bracketed then 1 else 0;
        var k := if bracketed then end + 1 else 0;
        if !bracketed && IndexByte(host, ':') >= 0 then Failure(TooManyColons)
        else if IndexByte(hostport[j..], '[') >= 0 then Failure("unexpected '[' in address")
        else if IndexByte(hostport[k..], ']') >= 0 then Failure("unexpected ']' in address")
        else Success((host, hostport[i + 1..]))
  }

  /** The key rateLimiter limits on: the host of the address, or the whole address when it does not split. */
  function LimiterKey(remoteAddr: string): string
  {
    var split := SplitHostPort(remoteAddr);
    if split.Success? then split.value.0 else remoteAddr
  }

  /** An address "host:port" with a plain host and port splits into exactly those, so the limiter keys on the host. */
  lemma PlainAddressKeysOnHost(host: string, port: string)
    requires ':' !in host && '[' !in host && ']' !in host
    requires ':' !in port && '[' !in port && ']' !in port
    requires host != [] && host[0] != '['
    ensures SplitHostPort(host + ":" + port) == Success((host, port))
    ensures LimiterKey(host + ":" + port) == host
  {
    var a := host + ":" + port;
    var i := LastIndexByte(a, ':');
    assert a[|host|] == ':';
    assert a[|host| + 1..] == port;
    assert forall j :: |host| < j < |a| ==> a[j] == port[j - |host| - 1];
    assert i >= |host| ==> i == |host|;
    assert a[..i] == host;
    assert a[0] == host[0];
    assert forall c :: c in a && c != ':' ==> c in host || c in port;
  }

  /** An address without a colon does not split, so the limiter keys on all of it. */
  lemma NoPortKeysOnAddress(remoteAddr: string)
    requires ':' !in remoteAddr
    ensures LimiterKey(remoteAddr) == remoteAddr
  {
  }

  /** A token-bucket limiter (rate.Limiter): its configuration; its bucket state is left out. */
  class Limiter {
    const rateLimit: real
    const burst: int

    constructor (rateLimit: real, burst: int)
      ensures this.rateLimit == rateLimit && this.burst == burst
    {
      this.rateLimit := rateLimit;
      this.burst := burst;
    }
  }

  /** IPRateLimiter: one limiter per client address, all with the same rate and burst. */
  class IPRateLimiter {
    var ips: map<string, Limiter>
    const rateLimit: real
    const burstRate: int

    /** NewIPRateLimiter: no addresses yet. */
    constructor (r: real, b: int)
      ensures ips == map[] && rateLimit == r && burstRate == b
    {
      ips := map[];
      rateLimit := r;
      burstRate := b;
    }

    /**
     * GetLimiter: the address's limiter, created with the configured rate and burst on first
     * use. Afterwards the address maps to the returned limiter, so a second call returns the
     * same one, and no other address's entry changes.
     */
    method GetLimiter(ip: string) returns (limiter: Limiter)
      modifies this
      ensures ip in ips && ips[ip] == limiter
      ensures ip in old(ips) ==> limiter == old(ips)[ip] && ips == old(ips)
      ensures ip !in old(ips) ==>
        fresh(limiter) && limiter.rateLimit == rateLimit && limiter.burst == burstRate && ips == old(ips)[ip := limiter]
      ensures forall other :: other != ip ==> (other in ips <==> other in old(ips)) && (other in ips ==> ips[other] == old(ips)[other])
    {
      if ip in ips {
        limiter := ips[ip];
      } else {
        limiter := new Limiter(rateLimit, burstRate);
        ips := ips[ip := limiter];
      }
    }
  }

  /** The process-wide limiter (limiterInstance): 2 requests per second, bursts of 5. */
  method NewLimiterInstance() returns (l: IPRateLimiter)
    ensures fresh(l) && l.ips == map[]
    ensures l.rateLimit == Config.RateLimitPerSecond && l.burstRate == Config.BurstRateLimitPerSecond
  {
    l := new IPRateLimiter(Config.RateLimitPerSecond, Config.BurstRateLimitPerSecond);
  }

  /**
   * rateLimiter: the limiter of the request's key is looked up (or created); when it denies
   * the request, the failure becomes 429 with the rate-limit message and no id.
   */
  method RateLimiter(re: RequestResponse, limiterInstance: IPRateLimiter, allow: bool) returns (r: RequestResponse)
    requires re.req.Some?
    modifies limiterInstance
    ensures var ip := LimiterKey(re.req.value.remoteAddr);
      ip in limiterInstance.ips &&
      (ip in old(limiterInstance.ips) ==> limiterInstance.ips == old(limiterInstance.ips)) &&
      (ip !in old(limiterInstance.ips) ==>
        fresh(limiterInstance.ips[ip]) && limiterInstance.ips[ip].rateLimit == limiterInstance.rateLimit &&
        limiterInstance.ips[ip].burst == limiterInstance.burstRate &&
        limiterInstance.ips == old(limiterInstance.ips)[ip := limiterInstance.ips[ip]])
    ensures allow ==> r == re
    ensures !allow ==> r == re.(badRequest := FailureRecord(true, StatusTooManyRequests, RateLimitMessage, ""))
  {
    var ip := LimiterKey(re.req.value.remoteAddr);
    var limiter := limiterInstance.GetLimiter(ip);
    if !allow {
      return re.(badRequest := FailureRecord(true, StatusTooManyRequests, RateLimitMessage, ""));
    }
    return re;
  }

  // ---------------------------------------------------------------------------
  // Rejection

  /**
   * handleBadRequest: a request marked bad gets an error reply with its code and message, its
   * id naming the client's address, and the answer is false; any other request passes untouched.
   */
  method HandleBadRequest(re: RequestResponse) returns (ok: bool)
    requires re.badRequest.isBadRequest ==> re.req.Some?
    modifies re.writer
    ensures ok <==> !re.badRequest.isBadRequest
    ensures ok ==> re.writer.written == old(re.writer.written)
    ensures !ok ==>
      var f := re.badRequest;
      re.writer.written == old(re.writer.written) +
        [Reply(f.httpCode, Adapter.BadRequest(IPPrefix + re.req.value.remoteAddr, f.errorMessage, f.httpCode))]
  {
    if re.badRequest.isBadRequest {
      re.writer.WriteErrorResponse(re.badRequest.httpCode, IPPrefix + re.req.value.remoteAddr, re.badRequest.errorMessage);
      return false;
    }
    return true;
  }
}

=== FILE: qdrant.dfy ===
/**
 * The Qdrant vector store client of internal/rag/vectorDB/qdrantDB/qdrant.go: how chunks
 * become points, how query hits become matches and metadata, and the guards around
 * creating a collection and upserting a batch. The server is a map from collection name
 * to its stored points; the outcome of each call to the server (an error or not) is a
 * parameter, and the ranking of a query is left to the server (its hits are a parameter).
 */
module Qdrant {
  import opened Wrappers
  import opened GoStrings
  import opened CommonModels
  import opened Deps
  import Config

  /** A payload value as the Qdrant client carries it: a string or an integer. */
  datatype Value = Str(s: string) | Int(n: int)

  type Payload = map<string, Value>

  /** A point: its id (the chunk id), its vector and its payload. */
  datatype Point = Point(id: string, vector: Vector, payload: Payload)

  /** A collection on the server: the vector size it was created with and its points by id. */
  datatype Collection = Collection(dimension: nat, points: map<string, Point>)

  const PayloadKeys: set<string> :=
    {"content", "page_num", "source_doc_id", "doc_name", "chunk_order", "chunk_id", "ingested_at"}

  const EmptyNameError: string := "empty collection name"
  const UpsertFailedPrefix: string := "qdrant upsert failed: "

  // ---------------------------------------------------------------------------
  // Points

  /** The payload a chunk is stored with: text fields as strings, numbers as integers. */
  function PayloadOf(c: DocChunk): (p: Payload)
    ensures p.Keys == PayloadKeys
  {
    map["content" := Str(c.chunk),
        "page_num" := Int(c.pageNum),
        "source_doc_id" := Str(c.doc.id),
        "doc_name" := Str(c.doc.name),
        "chunk_order" := Int(c.chunkPageOrder),
        "chunk_id" := Str(c.chunkId),
        "ingested_at" := Int(c.doc.lastIngestTimestamp)]
  }

  /** Point for chunk c with vector v. */
  function PointOf(c: DocChunk, v: Vector): Point
  {
    Point(c.chunkId, v, PayloadOf(c))
  }

  /** The string under key, or "" when the key is missing or holds an integer. */
  function StringField(p: Payload, key: string): (s: string)
    ensures key in p && p[key].Str? ==> s == p[key].s
    ensures !(key in p && p[key].Str?) ==> s == ""
  {
    if key in p then (match p[key] case Str(s) => s case Int(_) => "") else ""
  }

  /** The integer under key, or 0 when the key is missing or holds a string. */
  function IntField(p: Payload, key: string): (n: int)
    ensures key in p && p[key].Int? ==> n == p[key].n
    ensures !(key in p && p[key].Int?) ==> n == 0
  {
    if key in p then (match p[key] case Int(n) => n case Str(_) => 0) else 0
  }

  /**
   * The chunk a stored point describes. The document's content type and the embedding
   * dimension label are not stored, so they are supplied.
   */
  function ReadChunk(pt: Point, contentType: DocType, dimension: string): DocChunk
  {
    var p := pt.payload;
    DocChunk(
      Document(StringField(p, "source_doc_id"), StringField(p, "doc_name"), IntField(p, "ingested_at"), contentType),
      StringField(p, "chunk_id"), StringField(p, "content"), IntField(p, "page_num"), IntField(p, "chunk_order"),
      dimension)
  }

  /** A point keeps its chunk's vector and everything about the chunk but the content type and dimension label. */
  lemma PointRoundTrip(c: DocChunk, v: Vector)
    ensures PointOf(c, v).id == c.chunkId && PointOf(c, v).vector == v
    ensures ReadChunk(PointOf(c, v), c.doc.contentType, c.embeddingDimension) == c
  {
  }

  /** The loop of UpsertBatch that fills the preallocated point array by index. */
  method MakePoints(chunks: seq<DocChunk>, vectors: seq<Vector>) returns (points: seq<Point>)
    requires |chunks| == |vectors|
    ensures |points| == |chunks|
    ensures forall i :: 0 <= i < |chunks| ==> points[i] == PointOf(chunks[i], vectors[i])
  {
    var qdrantPoints := new Point[|chunks|];
    for i := 0 to |chunks|
      invariant forall j :: 0 <= j < i ==> qdrantPoints[j] == PointOf(chunks[j], vectors[j])
    {
      qdrantPoints[i] := PointOf(chunks[i], vectors[i]);
    }
    points := qdrantPoints[..];
  }

  /** A collection's points after an upsert of pts: each point replaces the one with its id. */
  function Upserted(stored: map<string, Point>, pts: seq<Point>): map<string, Point>
    decreases |pts|
  {
    if pts == [] then stored else Upserted(stored[pts[0].id := pts[0]], pts[1..])
  }

  /** After an upsert every point of pts with an id no later point shares is stored as given, and ids not in pts are untouched. */
  lemma {:induction false} UpsertedContents(stored: map<string, Point>, pts: seq<Point>)
    ensures forall i :: 0 <= i < |pts| && (forall j :: i < j < |pts| ==> pts[j].id != pts[i].id) ==>
      pts[i].id in Upserted(stored, pts) && Upserted(stored, pts)[pts[i].id] == pts[i]
    ensures forall id :: (forall i :: 0 <= i < |pts| ==> pts[i].id != id) ==>
      (id in Upserted(stored, pts) <==> id in stored) &&
      (id in stored ==> Upserted(stored, pts)[id] == stored[id])
    decreases |pts|
  {
    if pts != [] {
      var next := stored[pts[0].id := pts[0]];
      UpsertedContents(next, pts[1..]);
      forall i | 0 <= i < |pts| && (forall j :: i < j < |pts| ==> pts[j].id != pts[i].id)
        ensures pts[i].id in Upserted(stored, pts) && Upserted(stored, pts)[pts[i].id] == pts[i]
      {
        if i > 0 {
          assert pts[1..][i - 1] == pts[i];
          assert forall j :: i - 1 < j < |pts| - 1 ==> pts[1..][j].id != pts[1..][i - 1].id by {
            forall j | i - 1 < j < |pts| - 1
              ensures pts[1..][j].id != pts[1..][i - 1].id
            {
              assert pts[1..][j] == pts[j + 1];
            }
          }
        } else {
          forall i' | 0 <= i' < |pts| - 1
            ensures pts[1..][i'].id != pts[0].id
          {
            assert pts[1..][i'] == pts[i' + 1];
          }
        }
      }
      forall id | (forall i :: 0 <= i < |pts| ==> pts[i].id != id)
        ensures (id in Upserted(stored, pts) <==> id in stored) &&
          (id in stored ==> Upserted(stored, pts)[id] == stored[id])
      {
        assert pts[0].id != id;
        forall i | 0 <= i < |pts| - 1
          ensures pts[1..][i].id != id
        {
          assert pts[1..][i] == pts[i + 1];
        }
      }
    }
  }

  /** What UpsertBatch reports for a batch, given the server's answer to the upsert. */
  function UpsertError(chunks: seq<DocChunk>, vectors: seq<Vector>, serverErr: Option<string>): (err: Option<string>)
    ensures err.None? <==> |chunks| == |vectors| && serverErr.None?
    ensures |chunks| != |vectors| ==>
      err == Some("mismatch: got " + Decimal(|chunks|) + " chunks but " + Decimal(|vectors|) + " vectors")
    ensures |chunks| == |vectors| && serverErr.Some? ==> err == Some(UpsertFailedPrefix + serverErr.value)
  {
    if |chunks| != |vectors| then
      Some("mismatch: got " + Decimal(|chunks|) + " chunks but " + Decimal(|vectors|) + " vectors")
    else if serverErr.Some? then Some(UpsertFailedPrefix + serverErr.value)
    else None
  }

  /** A batch whose chunk and vector counts differ always fails, whatever the server would say. */
  lemma MismatchAlwaysFails(chunks: seq<DocChunk>, vectors: seq<Vector>, serverErr: Option<string>)
    requires |chunks| != |vectors|
    ensures UpsertError(chunks, vectors, serverErr).Some?
    ensures HasPrefix(UpsertError(chunks, vectors, serverErr).value, "mismatch: got ")
  {
  }

  // ---------------------------------------------------------------------------
  // Search

  /** The match text of a hit. */
  function MatchOf(p: Payload): string
  {
    "Content: " + StringField(p, "content") + ", DocumentName: " + StringField(p, "doc_name")
  }

  /** The five metadata strings of a hit, in the order the service reports them. */
  function MetadataOf(p: Payload): (m: seq<string>)
    ensures |m| == 5
  {
    ["page_num:" + StringField(p, "page_num"),
     "chunk_order:" + StringField(p, "chunk_order"),
     "chunk_id:" + StringField(p, "chunk_id"),
     "ingested_at:" + StringField(p, "ingested_at"),
     "source_doc_id:" + StringField(p, "source_doc_id")]
  }

  /** The metadata strings of hits, five per hit, in hit order. */
  function MetadataAll(hits: seq<Payload>): (m: seq<string>)
    ensures |m| == 5 * |hits|
  {
    if hits == [] then [] else MetadataAll(hits[..|hits| - 1]) + MetadataOf(hits[|hits| - 1])
  }

  /** One step of MetadataAllSlices: the slices of a prefix survive appending one more hit's metadata. */
  lemma MetadataSlicesStep(hits: seq<Payload>)
    requires hits != []
    requires var init := hits[..|hits| - 1];
      forall i :: 0 <= i < |init| ==> MetadataAll(init)[5 * i..5 * i + 5] == MetadataOf(init[i])
    ensures forall i :: 0 <= i < |hits| ==> MetadataAll(hits)[5 * i..5 * i + 5] == MetadataOf(hits[i])
  {
    var init := hits[..|hits| - 1];
    var before := MetadataAll(init);
    var all := MetadataAll(hits);
    assert all == before + MetadataOf(hits[|hits| - 1]);
    forall i | 0 <= i < |hits|
      ensures all[5 * i..5 * i + 5] == MetadataOf(hits[i])
    {
      if i < |init| {
        assert all[5 * i..5 * i + 5] == before[5 * i..5 * i + 5];
        assert init[i] == hits[i];
      } else {
        assert all[5 * i..5 * i + 5] == MetadataOf(hits[i]);
      }
    }
  }

  /** Hit i's five metadata strings sit at positions 5 * i to 5 * i + 4. */
  lemma {:induction false} MetadataAllSlices(hits: seq<Payload>)
    ensures forall i :: 0 <= i < |hits| ==> MetadataAll(hits)[5 * i..5 * i + 5] == MetadataOf(hits[i])
    decreases |hits|
  {
    if hits != [] {
      MetadataAllSlices(hits[..|hits| - 1]);
      MetadataSlicesStep(hits);
    }
  }

  /** The Limit of Search's query: at most three hits come back. */
  const SearchLimit: nat := 3

  /**
   * Search: the query, limited to SearchLimit hits, answers with the best of the points the
   * server ranks (their payloads, best first) or with its error; each hit kept becomes one
   * match and five metadata strings.
   */
  method Search(query: Result<seq<Payload>>) returns (r: SearchReply)
    ensures query.Failure? ==> r == SearchReply([], [], Some(query.error))
    ensures query.Success? ==>
      var ranked := query.value;
      var n := if |ranked| < SearchLimit then |ranked| else SearchLimit;
      r.err.None? && |r.matches| == n && |r.metadata| == 5 * n &&
      (forall i :: 0 <= i < n ==> r.matches[i] == MatchOf(ranked[i])) &&
      (forall i :: 0 <= i < n ==> r.metadata[5 * i..5 * i + 5] == MetadataOf(ranked[i]))
    ensures |r.matches| <= SearchLimit && |r.metadata| <= 5 * SearchLimit
  {
    if query.Failure? {
      return SearchReply([], [], Some(query.error));
    }
    var hits := query.value;
    if |hits| > SearchLimit {
      hits := hits[..SearchLimit];
    }
    var matches, metadata := CollectHits(hits);
    return SearchReply(matches, metadata, None);
  }

  /** The loop over Search's hits: one match and five metadata strings per hit, in order. */
  method CollectHits(hits: seq<Payload>) returns (matches: seq<string>, metadata: seq<string>)
    ensures |matches| == |hits| && |metadata| == 5 * |hits|
    ensures forall i :: 0 <= i < |hits| ==> matches[i] == MatchOf(hits[i])
    ensures forall i :: 0 <= i < |hits| ==> metadata[5 * i..5 * i + 5] == MetadataOf(hits[i])
  {
    matches := [];
    metadata := [];
    for i := 0 to |hits|
      invariant |matches| == i
      invariant forall j :: 0 <= j < i ==> matches[j] == MatchOf(hits[j])
      invariant metadata == MetadataAll(hits[..i])
    {
      assert hits[..i + 1][..i] == hits[..i];
      metadata := metadata + MetadataOf(hits[i]);
      matches := matches + [MatchOf(hits[i])];
    }
    assert hits[..|hits|] == hits;
    MetadataAllSlices(hits);
  }

  /**
   * A hit on a point UpsertBatch stored for chunk c reports c's content, document name,
   * chunk id and document id, but the integer fields (page number, chunk order and
   * ingestion time) come back empty, because they are read as strings.
   */
  lemma SearchOfStoredChunk(c: DocChunk, v: Vector)
    ensures MatchOf(PointOf(c, v).payload) == "Content: " + c.chunk + ", DocumentName: " + c.doc.name
    ensures MetadataOf(PointOf(c, v).payload) ==
      ["page_num:", "chunk_order:", "chunk_id:" + c.chunkId, "ingested_at:", "source_doc_id:" + c.doc.id]
  {
    var p := PointOf(c, v).payload;
    assert StringField(p, "page_num") == "" && StringField(p, "chunk_order") == "";
    assert StringField(p, "ingested_at") == "";
    var m := MetadataOf(p);
    assert m[0] == "page_num:" && m[1] == "chunk_order:" && m[3] == "ingested_at:";
  }

  // ---------------------------------------------------------------------------
  // The client

  /** The client's view of the server: the collections and their points. */
  class ClientHolder {
    var collections: map<string, Collection>

    constructor (collections: map<string, Collection>)
      ensures this.collections == collections
    {
      this.collections := collections;
    }

    /**
     * createCollection: an empty name is rejected before the server is asked; an error
     * from the existence check is returned; an existing collection is left alone;
     * otherwise the collection is created with the embedding dimension, and the
     * server's answer (createErr) is returned.
     */
    method CreateCollection(name: string, existsErr: Option<string>, createErr: Option<string>) returns (err: Option<string>)
      modifies this
      ensures name == "" ==> err == Some(EmptyNameError) && collections == old(collections)
      ensures name != "" && existsErr.Some? ==> err == existsErr && collections == old(collections)
      ensures name != "" && existsErr.None? && name in old(collections) ==>
        err.None? && collections == old(collections)
      ensures name != "" && existsErr.None? && name !in old(collections) ==>
        err == createErr &&
        collections == (if createErr.None?
                        then old(collections)[name := Collection(Config.EmbeddingOutputDimensionality, map[])]
                        else old(collections))
    {
      if name == "" {
        return Some(EmptyNameError);
      }
      if existsErr.Some? {
        return existsErr;
      }
      var found := name in collections;
      if found {
        return None;
      }
      if createErr.None? {
        collections := collections[name := Collection(Config.EmbeddingOutputDimensionality, map[])];
      }
      return createErr;
    }

    /**
     * UpsertBatch: a batch whose chunk and vector counts differ is refused before anything
     * is sent; otherwise chunk i becomes point i with vector i, and the points are stored
     * when the server accepts them (serverErr is None).
     */
    method UpsertBatch(collectionName: string, chunks: seq<DocChunk>, vectors: seq<Vector>, serverErr: Option<string>)
      returns (err: Option<string>)
      modifies this
      ensures err == UpsertError(chunks, vectors, serverErr)
      ensures err.Some? ==> collections == old(collections)
      ensures err.None? ==>
        var before := if collectionName in old(collections) then old(collections)[collectionName]
                      else Collection(Config.EmbeddingOutputDimensionality, map[]);
        collections == old(collections)[collectionName :=
          before.(points := Upserted(before.points, seq(|chunks|, i requires 0 <= i < |chunks| => PointOf(chunks[i], vectors[i]))))]
    {
      if |chunks| != |vectors| {
        return Some("mismatch: got " + Decimal(|chunks|) + " chunks but " + Decimal(|vectors|) + " vectors");
      }
      var qdrantPoints := MakePoints(chunks, vectors);
      if serverErr.Some? {
        return Some(UpsertFailedPrefix + serverErr.value);
      }
      var before := if collectionName in collections then collections[collectionName]
                    else Collection(Config.EmbeddingOutputDimensionality, map[]);
      assert qdrantPoints == seq(|chunks|, i requires 0 <= i < |chunks| => PointOf(chunks[i], vectors[i]));
      collections := collections[collectionName := before.(points := Upserted(before.points, qdrantPoints))];
      return None;
    }
  }
}

=== FILE: rag.dfy ===
/**
 * The RAG service of internal/rag/ragService.go and internal/rag/helpers.go: a chat job goes
 * through embedding, a semantic-cache lookup, a vector search and generation, each step
 * recorded in the job's CurrentStep; a failing step turns the job into an internal error.
 * Each dependency's answer is a function of its inputs (see Deps).
 */
module Rag {
  import opened Wrappers
  import opened Deps
  import opened JobModel
  import opened IngestImpl
  import opened CommonModels
  import Ingest
  import Config

  /** http.StatusInternalServerError. */
  const InternalServerErrorCode: int := 500
  const InternalServerErrorMessage: string := "Internal Server Error"

  /** The service's dependencies; its constructor is NewService (the logger is left out). */
  datatype Service = Service(vectorDB: DataProcessor, llmProvider: Provider, embedder: Embedder)

  /** The error record a failed step leaves in a job. */
  function InternalError(canRetry: bool): (e: JobError)
    ensures e.code == InternalServerErrorCode && e.message == InternalServerErrorMessage && e.retry == canRetry
  {
    JobError(InternalServerErrorCode, InternalServerErrorMessage, canRetry)
  }

  // ---------------------------------------------------------------------------
  // helpers.go

  /** returnOutput: the job answered with ans, its step Complete; nothing else changes. */
  function ReturnOutput(job: Job, ans: string): (r: Job)
    ensures r.payload.answer == ans && r.currentStep == StepComplete
    ensures r.(payload := job.payload, currentStep := job.currentStep) == job
    ensures r.payload.(answer := job.payload.answer) == job.payload
  {
    job.(payload := job.payload.(answer := ans), currentStep := StepComplete)
  }

  /** logOutput: the job at step status; nothing else changes. */
  function LogOutput(job: Job, status: InternalStatus): (r: Job)
    ensures r.currentStep == status
    ensures r.(currentStep := job.currentStep) == job
  {
    job.(currentStep := status)
  }

  /** jobError: the job failed with an internal error; its step and payload are kept. */
  function FailedJob(job: Job, canRetry: bool): (r: Job)
    ensures r.status == StatusError && r.error == InternalError(canRetry)
    ensures r.(status := job.status, error := job.error) == job
  {
    job.(error := InternalError(canRetry), status := StatusError)
  }

  /** Fields a pipeline run never touches: who asked, what was asked, and when. */
  predicate SameRequest(a: Job, b: Job)
  {
    a.id == b.id && a.chatId == b.chatId && a.traceId == b.traceId && a.jobType == b.jobType &&
    a.createdTime == b.createdTime && a.endTime == b.endTime &&
    a.payload.question == b.payload.question &&
    a.payload.ingestFileName == b.payload.ingestFileName && a.payload.ingestURL == b.payload.ingestURL
  }

  /** executeEmbeddingStep: step EmbeddingAPI, then the embedding of the question. */
  method ExecuteEmbeddingStep(s: Service, job: Job) returns (job': Job, emb: Result<Vector>)
    ensures job' == LogOutput(job, EmbeddingAPICall)
    ensures emb == s.embedder.getEmbedding(job.payload.question)
  {
    job' := LogOutput(job, EmbeddingAPICall);
    emb := s.embedder.getEmbedding(job'.payload.question);
  }

  /** executeCacheCheckStep: step CacheCall, then the cached answer and whether there was one; the lookup's error is dropped. */
  method ExecuteCacheCheckStep(s: Service, job: Job, emb: Vector) returns (job': Job, ans: string, found: bool)
    ensures job' == LogOutput(job, CacheCall)
    ensures ans == s.vectorDB.getCachedAnswer(emb).answer && found == s.vectorDB.getCachedAnswer(emb).found
  {
    job' := LogOutput(job, CacheCall);
    var reply := s.vectorDB.getCachedAnswer(emb);
    ans, found := reply.answer, reply.found;
  }

  /** executeVectorSearchStep: step VectorDB, then the matches; the metadata become the sources even when the search fails. */
  method ExecuteVectorSearchStep(s: Service, job: Job, emb: Vector) returns (job': Job, matches: seq<string>, err: Option<string>)
    ensures var reply := s.vectorDB.search(emb);
      job' == LogOutput(job, VectorDBCall).(payload := job.payload.(sources := reply.metadata)) &&
      matches == reply.matches && err == reply.err
  {
    job' := LogOutput(job, VectorDBCall);
    var reply := s.vectorDB.search(emb);
    job' := job'.(payload := job'.payload.(sources := reply.metadata));
    matches, err := reply.matches, reply.err;
  }

  /** executeLLMStep: step LLM, then the provider's answer to the question given the matches and the history. */
  method ExecuteLLMStep(s: Service, job: Job, matches: seq<string>, history: seq<string>) returns (job': Job, answer: Result<string>)
    ensures job' == LogOutput(job, LLMCall)
    ensures answer == s.llmProvider.generate(job.payload.question, matches, history)
  {
    job' := LogOutput(job, LLMCall);
    answer := s.llmProvider.generate(job'.payload.question, matches, history);
  }

  // ---------------------------------------------------------------------------
  // ragService.go

  /**
   * The job a RAG run leaves. Embedding, cache, search and generation run in that order; the
   * job ends at the step that failed (with an internal, retryable error) or answered (with
   * step Complete and its status untouched). The request fields never change.
   */
  function Answered(s: Service, jobt: Job, messageHistory: seq<string>): (out: Job)
    ensures SameRequest(out, jobt)
    ensures out.status == jobt.status || (out.status == StatusError && out.error == InternalError(true))
    ensures out.currentStep in {EmbeddingAPICall, VectorDBCall, LLMCall, StepComplete}
    ensures out.status != jobt.status ==> out.currentStep != StepComplete
  {
    var q := jobt.payload.question;
    var emb := s.embedder.getEmbedding(q);
    if emb.Failure? then
      FailedJob(jobt.(currentStep := EmbeddingAPICall), true)
    else
      var cached := s.vectorDB.getCachedAnswer(emb.value);
      if cached.found then
        ReturnOutput(jobt, cached.answer)
      else
        var found := s.vectorDB.search(emb.value);
        var searched := jobt.(payload := jobt.payload.(sources := found.metadata));
        if found.err.Some? then
          FailedJob(searched.(currentStep := VectorDBCall), true)
        else
          var answer := s.llmProvider.generate(q, found.matches, messageHistory);
          if answer.Failure? then
            FailedJob(searched.(currentStep := LLMCall), true)
          else
            ReturnOutput(searched, answer.value)
  }

  /** ProcessRequest: the steps run in order, leaving the job Answered describes. */
  method ProcessRequest(s: Service, jobt: Job, messageHistory: seq<string>) returns (out: Job)
    ensures out == Answered(s, jobt, messageHistory)
  {
    var job := jobt.(currentStep := RAGCall);
    var embeddingStep;
    job, embeddingStep := ExecuteEmbeddingStep(s, job);
    if embeddingStep.Failure? {
      return FailedJob(job, true);
    }
    var cachedAnswer, found;
    job, cachedAnswer, found := ExecuteCacheCheckStep(s, job, embeddingStep.value);
    if found {
      return ReturnOutput(job, cachedAnswer);
    }
    var matches, err;
    job, matches, err := ExecuteVectorSearchStep(s, job, embeddingStep.value);
    if err.Some? {
      return FailedJob(job, true);
    }
    var answer;
    job, answer := ExecuteLLMStep(s, job, matches, messageHistory);
    if answer.Failure? {
      return FailedJob(job, true);
    }
    return ReturnOutput(job, answer.value);
  }

  /** Whether every step of document ingestion goes through for job. */
  predicate IngestSucceeds(s: Service, job: Job, now: Time, extractText: (string, DocType) -> Result<seq<RawPage>>,
                           newId: nat -> string)
  {
    var doc := Ingest.DocumentOf(job, now);
    var extracted := extractText(job.payload.ingestURL, doc.contentType);
    s.vectorDB.createCollection(Config.EmbeddingDBName).None? && doc.contentType != ERR && extracted.Success? &&
    Ingested(Prepared(extracted.value, doc, Ingest.ChunkModelName, newId), s.vectorDB, s.embedder).err.None?
  }

  /**
   * IngestDocument: the ingestion's job when it completed, and otherwise that job failed with
   * an internal, retryable error (which replaces any message the ingestion left).
   */
  method IngestDocument(s: Service, job: Job, now: Time, extractText: (string, DocType) -> Result<seq<RawPage>>,
                        newId: nat -> string)
    returns (out: Job)
    ensures out == job.(currentStep := IngestProcessing, status := out.status, error := out.error)
    ensures IngestSucceeds(s, job, now, extractText, newId) ==> out.status == Complete && out.error == job.error
    ensures !IngestSucceeds(s, job, now, extractText, newId) ==> out.status == StatusError && out.error == InternalError(true)
  {
    var j := Ingest.ProcessDocumentIngestion(job, s.embedder, s.vectorDB, now, extractText, newId);
    if j.status != Complete {
      return FailedJob(j, true);
    }
    return j;
  }

  // ---------------------------------------------------------------------------
  // Properties

  /** A failed job keeps the step it failed at, so the step tells which dependency failed. */
  lemma FailedJobKeepsStep(job: Job, canRetry: bool)
    ensures FailedJob(job, canRetry).currentStep == job.currentStep
    ensures FailedJob(job, canRetry).payload == job.payload
  {
  }

  /** A failure is recorded the same way whatever happened before it. */
  lemma FailedJobIdempotent(job: Job, canRetry: bool)
    ensures FailedJob(FailedJob(job, canRetry), canRetry) == FailedJob(job, canRetry)
  {
  }

  /** A failed embedding is an internal error at the embedding step; no later step touches the payload. */
  lemma EmbeddingFailureStops(s: Service, jobt: Job, messageHistory: seq<string>)
    requires s.embedder.getEmbedding(jobt.payload.question).Failure?
    ensures var out := Answered(s, jobt, messageHistory);
      out.status == StatusError && out.error.code == InternalServerErrorCode && out.error.retry &&
      out.currentStep == EmbeddingAPICall && out.payload == jobt.payload
  {
  }

  /** A cache hit answers with the cached text, skipping search and generation: the sources stay as they were. */
  lemma CacheHitAnswers(s: Service, jobt: Job, messageHistory: seq<string>)
    requires s.embedder.getEmbedding(jobt.payload.question).Success?
    requires s.vectorDB.getCachedAnswer(s.embedder.getEmbedding(jobt.payload.question).value).found
    ensures var out := Answered(s, jobt, messageHistory);
      out.payload.answer == s.vectorDB.getCachedAnswer(s.embedder.getEmbedding(jobt.payload.question).value).answer &&
      out.currentStep == StepComplete && out.status == jobt.status && out.error == jobt.error &&
      out.payload.sources == jobt.payload.sources
  {
  }

  /**
   * Without a cache hit, the job answers with the generated text exactly when the search and the
   * generation both succeed; otherwise it fails with a 500 at the step that failed.
   */
  lemma SearchThenGenerate(s: Service, jobt: Job, messageHistory: seq<string>)
    requires s.embedder.getEmbedding(jobt.payload.question).Success?
    requires !s.vectorDB.getCachedAnswer(s.embedder.getEmbedding(jobt.payload.question).value).found
    ensures var emb := s.embedder.getEmbedding(jobt.payload.question).value;
      var found := s.vectorDB.search(emb);
      var answer := s.llmProvider.generate(jobt.payload.question, found.matches, messageHistory);
      var out := Answered(s, jobt, messageHistory);
      out.payload.sources == found.metadata &&
      (found.err.Some? ==> out.status == StatusError && out.error.code == InternalServerErrorCode && out.currentStep == VectorDBCall) &&
      (found.err.None? && answer.Failure? ==> out.status == StatusError && out.error.code == InternalServerErrorCode && out.currentStep == LLMCall) &&
      (found.err.None? && answer.Success? ==>
        out.payload.answer == answer.value && out.currentStep == StepComplete && out.status == jobt.status && out.error == jobt.error)
  {
  }

  /** Answering twice keeps only the last answer. */
  lemma ReturnOutputLastWins(job: Job, a: string, b: string)
    ensures ReturnOutput(ReturnOutput(job, a), b) == ReturnOutput(job, b)
  {
  }
}

=== FILE: redis_message_store.dfy ===
/**
 * The chat-history store of internal/data/store/RedisMessageStore.go, built on the Redis
 * lists of RedisStore: one list per chat id, holding the chat's payloads as JSON. The
 * JSON marshalling is a parameter of the store; the outcome of each Redis command is a
 * parameter of the operation that issues it.
 */
module RedisMessages {
  import opened Wrappers
  import opened JobModel
  import opened RedisStore
  import AdapterUtils

  const InvalidChatIdError: string := "invalid chat id"

  /** The text of a go-redis error. */
  function ErrText(e: RedisErr): string
  {
    match e
    case RedisNil => "redis: nil"
    case RedisFail(m) => m
  }

  /** An optional go-redis error as an optional error text. */
  function ErrOf(e: Option<RedisErr>): (r: Option<string>)
    ensures r.Some? <==> e.Some?
  {
    match e
    case None => None
    case Some(x) => Some(ErrText(x))
  }

  /** RedisMessageStore. */
  class RedisMessageStore {
    const store: Store
    /** json.Marshal of a payload. */
    const marshal: JobPayload -> string

    constructor (store: Store, marshal: JobPayload -> string)
      ensures this.store == store && this.marshal == marshal
    {
      this.store := store;
      this.marshal := marshal;
    }

    /** ValidateChatId: false on redis.Nil or any other error; otherwise whether the chat's key exists. */
    method ValidateChatId(chatId: string, existsErr: Option<RedisErr>) returns (ok: bool)
      ensures ok <==> existsErr.None? && chatId in store.lists
    {
      var isFound, err := store.Exists(chatId, existsErr);
      if err == Some(RedisNil) {
        return false;
      } else if err.Some? {
        return false;
      }
      return isFound;
    }

    /** saveChatId: pushes the marshalled conversation onto the chat's list. */
    method SaveChatId(id: string, conversation: JobPayload, pushErr: Option<RedisErr>) returns (err: Option<string>)
      requires store.Valid()
      modifies store
      ensures store.Valid()
      ensures err == ErrOf(pushErr)
      ensures pushErr.Some? ==> store.lists == old(store.lists)
      ensures pushErr.None? ==>
        store.lists == old(store.lists)[id := (if id in old(store.lists) then old(store.lists)[id] else []) + [marshal(conversation)]]
    {
      var e := store.ListPush(id, marshal(conversation), pushErr);
      return ErrOf(e);
    }

    /**
     * TrySaveChat: a chat id that fails validation gets "invalid chat id" and nothing is
     * pushed; otherwise the marshalled conversation is appended to the chat's list.
     */
    method TrySaveChat(id: string, conversation: JobPayload, existsErr: Option<RedisErr>, pushErr: Option<RedisErr>)
      returns (err: Option<string>)
      requires store.Valid()
      modifies store
      ensures store.Valid()
      ensures !(existsErr.None? && id in old(store.lists)) ==>
        err == Some(InvalidChatIdError) && store.lists == old(store.lists)
      ensures existsErr.None? && id in old(store.lists) ==>
        err == ErrOf(pushErr) &&
        store.lists == (if pushErr.Some? then old(store.lists)
                        else old(store.lists)[id := old(store.lists)[id] + [marshal(conversation)]])
    {
      var ok := ValidateChatId(id, existsErr);
      if !ok {
        return Some(InvalidChatIdError);
      }
      err := SaveChatId(id, conversation, pushErr);
    }

    /**
     * InitNewChat: deletes the chat's list (a failed delete is only logged) and pushes one
     * marshalled empty payload, so a fresh chat's list holds exactly that one entry.
     */
    method InitNewChat(id: string, delErr: Option<RedisErr>, pushErr: Option<RedisErr>) returns (err: Option<string>)
      requires store.Valid()
      modifies store
      ensures store.Valid()
      ensures err == ErrOf(pushErr)
      ensures delErr.None? && pushErr.None? ==> store.lists == old(store.lists)[id := [marshal(EmptyPayload)]]
      ensures delErr.Some? && pushErr.None? ==>
        store.lists == old(store.lists)[id := (if id in old(store.lists) then old(store.lists)[id] else []) + [marshal(EmptyPayload)]]
      ensures delErr.None? && pushErr.Some? ==> store.lists == old(store.lists) - {id}
      ensures delErr.Some? && pushErr.Some? ==> store.lists == old(store.lists)
    {
      ghost var before := store.lists;
      var e := store.Del(id, delErr);
      ghost var deleted := store.lists;
      err := SaveChatId(id, EmptyPayload, pushErr);
      if delErr.None? && pushErr.None? {
        assert deleted == before - {id};
        var entry: seq<string> := [] + [marshal(EmptyPayload)];
        assert entry == [marshal(EmptyPayload)];
        assert store.lists == deleted[id := entry];
        assert (before - {id})[id := entry] == before[id := entry];
      }
    }

    /**
     * GetMessageHistory: the store's error and no history when the lookup fails; otherwise
     * the chat's list, newest first.
     */
    method GetMessageHistory(chatId: string, countErr: Option<RedisErr>, rangeErr: Option<RedisErr>)
      returns (err: Option<string>, history: seq<string>)
      ensures countErr.Some? ==> err == ErrOf(countErr) && history == []
      ensures countErr.None? && chatId !in store.lists ==> err.None? && history == []
      ensures countErr.None? && chatId in store.lists ==>
        err == ErrOf(rangeErr) && history == (if rangeErr.Some? then [] else AdapterUtils.Reversed(store.lists[chatId]))
    {
      var res, e := store.ListGet5PastMessage(chatId, countErr, rangeErr);
      if e.Some? {
        return ErrOf(e), [];
      }
      var arr := new string[|res|](i requires 0 <= i < |res| => res[i]);
      assert arr[..] == res;
      var reversed := AdapterUtils.ReverseStringArray(arr);
      return None, reversed[..];
    }
  }
}

=== FILE: redis_store.dfy ===
/**
 * The list operations of internal/data/redisStore/methods.go over a Redis server seen as a
 * map from key to list. Redis keeps no empty list: a key is present exactly when its list
 * has an element (Valid). Whether a command reaches the server is a parameter: an error
 * leaves the server unchanged.
 */
module RedisStore {
  import opened Wrappers

  /** An error from go-redis: redis.Nil (no such value) or any other failure. */
  datatype RedisErr = RedisNil | RedisFail(message: string)

  /** LRANGE key start -1 on list l: from start (counted from the end when negative) to the last element. */
  function LRangeToEnd(l: seq<string>, start: int): (r: seq<string>)
    ensures |r| <= |l|
    ensures start >= 0 ==> r == (if start >= |l| then [] else l[start..])
    ensures start < 0 ==> r == l[(if |l| + start < 0 then 0 else |l| + start)..]
  {
    if start >= 0 then (if start >= |l| then [] else l[start..])
    else
      var from := |l| + start;
      if from < 0 then l else l[from..]
  }

  /** LRANGE from 0 returns the whole list, and from -5 the last five (all of a shorter list). */
  lemma LRangeWindows(l: seq<string>)
    ensures LRangeToEnd(l, 0) == l
    ensures |l| >= 5 ==> LRangeToEnd(l, -5) == l[|l| - 5..] && |LRangeToEnd(l, -5)| == 5
    ensures |l| < 5 ==> LRangeToEnd(l, -5) == l
  {
  }

  /** redisStore.Store: the lists on the server. */
  class Store {
    var lists: map<string, seq<string>>

    /** Redis holds no empty list. */
    predicate Valid()
      reads this
    {
      forall k :: k in lists ==> lists[k] != []
    }

    constructor ()
      ensures lists == map[] && Valid()
    {
      lists := map[];
    }

    /** ListPush: RPUSH, appending value at the tail of key's list (creating it). */
    method ListPush(key: string, value: string, netErr: Option<RedisErr>) returns (err: Option<RedisErr>)
      requires Valid()
      modifies this
      ensures Valid()
      ensures err == netErr
      ensures netErr.Some? ==> lists == old(lists)
      ensures netErr.None? ==> lists == old(lists)[key := (if key in old(lists) then old(lists)[key] else []) + [value]]
    {
      if netErr.Some? {
        return netErr;
      }
      var l := if key in lists then lists[key] else [];
      lists := lists[key := l + [value]];
      return None;
    }

    /** Del: removes key and its list. */
    method Del(key: string, netErr: Option<RedisErr>) returns (err: Option<RedisErr>)
      requires Valid()
      modifies this
      ensures Valid()
      ensures err == netErr
      ensures netErr.Some? ==> lists == old(lists)
      ensures netErr.None? ==> lists == old(lists) - {key}
    {
      if netErr.Some? {
        return netErr;
      }
      lists := lists - {key};
      return None;
    }

    /** getCount: EXISTS key, the number of the given keys that exist; with one key, 0 or 1. */
    method GetCount(key: string, netErr: Option<RedisErr>) returns (count: int, err: Option<RedisErr>)
      ensures err == netErr
      ensures netErr.Some? ==> count == 0
      ensures netErr.None? ==> (count == 1 <==> key in lists) && (count == 0 <==> key !in lists)
    {
      if netErr.Some? {
        return 0, netErr;
      }
      count := if key in lists then 1 else 0;
      return count, None;
    }

    /** Exists: whether the count is positive, with the lookup's error. */
    method Exists(key: string, netErr: Option<RedisErr>) returns (found: bool, err: Option<RedisErr>)
      ensures err == netErr
      ensures found <==> netErr.None? && key in lists
    {
      var count;
      count, err := GetCount(key, netErr);
      found := count > 0;
    }

    /** listGetPreviousXMessages: LRANGE key start -1; an error gives no elements. */
    method ListGetPreviousXMessages(key: string, start: int, netErr: Option<RedisErr>) returns (result: seq<string>, err: Option<RedisErr>)
      ensures err == netErr
      ensures netErr.Some? ==> result == []
      ensures netErr.None? ==> result == LRangeToEnd(if key in lists then lists[key] else [], start)
    {
      if netErr.Some? {
        return [], netErr;
      }
      var l := if key in lists then lists[key] else [];
      return LRangeToEnd(l, start), None;
    }

    /** ListGetAll: the whole list. */
    method ListGetAll(key: string, netErr: Option<RedisErr>) returns (result: seq<string>, err: Option<RedisErr>)
      ensures err == netErr
      ensures netErr.Some? ==> result == []
      ensures netErr.None? ==> result == (if key in lists then lists[key] else [])
    {
      result, err := ListGetPreviousXMessages(key, 0, netErr);
    }

    /**
     * ListGet5PastMessage: nothing (with the error) when the count lookup fails or the key is
     * absent; the whole list when the count is below 5; otherwise the last five. The count
     * is EXISTS of one key, never above 1, so a present key always yields its whole list.
     */
    method ListGet5PastMessage(key: string, countErr: Option<RedisErr>, rangeErr: Option<RedisErr>)
      returns (result: seq<string>, err: Option<RedisErr>)
      ensures countErr.Some? ==> result == [] && err == countErr
      ensures countErr.None? && key !in lists ==> result == [] && err.None?
      ensures countErr.None? && key in lists ==>
        err == rangeErr && result == (if rangeErr.Some? then [] else lists[key])
    {
      var count;
      count, err := GetCount(key, countErr);
      if count < 1 || err.Some? {
        return [], err;
      }
      if count < 5 {
        result, err := ListGetAll(key, rangeErr);
        return;
      }
      result, err := ListGetPreviousXMessages(key, -5, rangeErr);
    }
  }
}

=== FILE: stores.dfy ===
/**
 * The in-memory stores of internal/data/store/InMemoryJobStore.go and
 * internal/data/store/InMemoryMessageStore.go: a map of jobs by id and a map of chat
 * histories by chat id. Their locks are left out; each operation is atomic.
 */
module Stores {
  import opened Wrappers
  import opened JobModel

  // ---------------------------------------------------------------------------
  // Jobs

  /** A lookup in a job map: the job and true, or the zero job and false. */
  function JobLookup(jobs: map<string, Job>, id: string): (r: (Job, bool))
    ensures r.1 <==> id in jobs
    ensures r.1 ==> r.0 == jobs[id]
    ensures !r.1 ==> r.0 == ZeroJob
  {
    if id in jobs then (jobs[id], true) else (ZeroJob, false)
  }

  /** A saved job is found under its id, as saved. */
  lemma LookupAfterSave(jobs: map<string, Job>, job: Job)
    ensures JobLookup(jobs[job.id := job], job.id) == (job, true)
  {
  }

  /** Saving a job changes no lookup of another id. */
  lemma SaveKeepsOthers(jobs: map<string, Job>, job: Job, id: string)
    requires id != job.id
    ensures JobLookup(jobs[job.id := job], id) == JobLookup(jobs, id)
  {
  }

  /** After a delete the id is not found, and other ids are found as before. */
  lemma LookupAfterDelete(jobs: map<string, Job>, deleted: string, id: string)
    ensures JobLookup(jobs - {deleted}, deleted) == (ZeroJob, false)
    ensures id != deleted ==> JobLookup(jobs - {deleted}, id) == JobLookup(jobs, id)
  {
  }

  /** Deleting an id that is not there changes nothing. */
  lemma DeleteAbsent(jobs: map<string, Job>, id: string)
    requires id !in jobs
    ensures jobs - {id} == jobs
  {
  }

  /** Saving the same job twice is the same as saving it once. */
  lemma SaveIdempotent(jobs: map<string, Job>, job: Job)
    ensures jobs[job.id := job][job.id := job] == jobs[job.id := job]
  {
  }

  /** InMemoryJobStore. The ghost field saves records every job written, in order. */
  class InMemoryJobStore {
    var jobMap: map<string, Job>
    ghost var saves: seq<Job>

    /** InitInMemoryJobStore: an empty store. */
    constructor ()
      ensures jobMap == map[] && saves == []
    {
      jobMap := map[];
      saves := [];
    }

    /** SaveJob: the job replaces whatever was stored under its id; never fails. */
    method SaveJob(jobToStored: Job) returns (err: Option<string>)
      modifies this
      ensures err.None?
      ensures jobMap == old(jobMap)[jobToStored.id := jobToStored]
      ensures saves == old(saves) + [jobToStored]
    {
      jobMap := jobMap[jobToStored.id := jobToStored];
      saves := saves + [jobToStored];
      return None;
    }

    /** GetJob: the stored job and true, or the zero job and false. */
    method GetJob(jobId: string) returns (result: Job, found: bool)
      ensures (result, found) == JobLookup(jobMap, jobId)
    {
      found := jobId in jobMap;
      result := if found then jobMap[jobId] else ZeroJob;
    }

    /** DeleteJob: removes that id only. */
    method DeleteJob(jobID: string)
      modifies this
      ensures jobMap == old(jobMap) - {jobID} && saves == old(saves)
    {
      jobMap := jobMap - {jobID};
    }
  }

  // ---------------------------------------------------------------------------
  // Chat histories

  /** A history after TrySaveChat: the conversation appended to a known chat; nothing for an unknown one. */
  function ChatSaved(chats: map<string, seq<JobPayload>>, id: string, conversation: JobPayload): map<string, seq<JobPayload>>
  {
    if id in chats then chats[id := chats[id] + [conversation]] else chats
  }

  /** Saving appends at the end of a known chat and leaves every other chat, and every unknown id, alone. */
  lemma ChatSavedAppends(chats: map<string, seq<JobPayload>>, id: string, conversation: JobPayload, other: string)
    ensures chats.Keys == ChatSaved(chats, id, conversation).Keys
    ensures id in chats ==>
      |ChatSaved(chats, id, conversation)[id]| == |chats[id]| + 1 &&
      ChatSaved(chats, id, conversation)[id][..|chats[id]|] == chats[id] &&
      ChatSaved(chats, id, conversation)[id][|chats[id]|] == conversation
    ensures other != id && other in chats ==> ChatSaved(chats, id, conversation)[other] == chats[other]
    ensures id !in chats ==> ChatSaved(chats, id, conversation) == chats
  {
    if id in chats {
      assert (chats[id] + [conversation])[..|chats[id]|] == chats[id];
    }
  }

  /** Saving conversations in turn to a known chat appends them, in order, to its history. */
  lemma {:induction false} SavedAllAppends(chats: map<string, seq<JobPayload>>, id: string, conversations: seq<JobPayload>)
    requires id in chats
    ensures id in SavedAll(chats, id, conversations)
    ensures SavedAll(chats, id, conversations)[id] == chats[id] + conversations
    decreases |conversations|
  {
    if conversations != [] {
      var init := conversations[..|conversations| - 1];
      var last := conversations[|conversations| - 1];
      SavedAllAppends(chats, id, init);
      var before := SavedAll(chats, id, init);
      assert SavedAll(chats, id, conversations) == ChatSaved(before, id, last);
      assert ChatSaved(before, id, last)[id] == (chats[id] + init) + [last];
      assert init + [last] == conversations;
    }
  }

  /** A chat initialised and then saved to n times holds exactly those n conversations, in order. */
  lemma InitThenSaves(chats: map<string, seq<JobPayload>>, id: string, conversations: seq<JobPayload>)
    ensures SavedAll(chats[id := []], id, conversations)[id] == conversations
  {
    SavedAllAppends(chats[id := []], id, conversations);
  }

  /** The history after saving each of conversations to id in turn. */
  function SavedAll(chats: map<string, seq<JobPayload>>, id: string, conversations: seq<JobPayload>): (r: map<string, seq<JobPayload>>)
    ensures id in chats ==> id in r
    decreases |conversations|
  {
    if conversations == [] then chats
    else ChatSaved(SavedAll(chats, id, conversations[..|conversations| - 1]), id, conversations[|conversations| - 1])
  }

  /** InMemoryMessageStore. */
  class InMemoryMessageStore {
    var chatMap: map<string, seq<JobPayload>>

    /** InitMessageStore: no chats. */
    constructor ()
      ensures chatMap == map[]
    {
      chatMap := map[];
    }

    /** ValidateChatId: whether the chat exists. */
    method ValidateChatId(chatId: string) returns (ok: bool)
      ensures ok <==> chatId in chatMap
    {
      ok := chatId in chatMap;
    }

    /** saveChatId: the conversation appended to the chat's history (a missing history counts as empty). */
    method SaveChatId(id: string, conversation: JobPayload)
      modifies this
      ensures chatMap == old(chatMap)[id := (if id in old(chatMap) then old(chatMap)[id] else []) + [conversation]]
    {
      var history := if id in chatMap then chatMap[id] else [];
      chatMap := chatMap[id := history + [conversation]];
    }

    /** TrySaveChat: appends to a known chat, ignores an unknown one, and never fails. */
    method TrySaveChat(id: string, conversation: JobPayload) returns (err: Option<string>)
      modifies this
      ensures err.None?
      ensures chatMap == ChatSaved(old(chatMap), id, conversation)
    {
      var ok := ValidateChatId(id);
      if !ok {
        return None;
      }
      SaveChatId(id, conversation);
      return None;
    }

    /** InitNewChat: the chat's history becomes empty, whatever it held; never fails. */
    method InitNewChat(id: string) returns (err: Option<string>)
      modifies this
      ensures err.None?
      ensures chatMap == old(chatMap)[id := []]
    {
      chatMap := chatMap[id := []];
      return None;
    }

    /** GetMessageHistory: no error and no history, whatever is stored. */
    method GetMessageHistory(chatId: string) returns (err: Option<string>, history: seq<string>)
      ensures err.None? && history == []
    {
      return None, [];
    }
  }
}

=== FILE: worker.dfy ===
/**
 * The job lifecycle of internal/worker/workerMethods.go: a worker saves the job as RUNNING,
 * runs it (ingestion through the RAG service, or a chat query with its history), saves the
 * chat when the query did not fail, stamps the end time and saves the job as COMPLETE. The
 * stores are the in-memory ones of the service; the clock is a parameter.
 */
module Worker {
  import opened Wrappers
  import opened JobModel
  import opened IngestImpl
  import opened CommonModels
  import Rag
  import Stores
  import JobService

  /** The record a chat query leaves before the final save: the RAG run on the job at step RedisCall. */
  function QueryOutcome(rag: Rag.Service, job: Job, history: seq<string>): (r: Job)
    ensures Rag.SameRequest(r, job)
    ensures r.status == job.status || r.status == StatusError
  {
    Rag.Answered(rag, job.(currentStep := RedisCall), history)
  }

  /**
   * The record executeJob leaves in the job store: always COMPLETE with the end time set. An
   * ingest job keeps only its step (IngestProcessing); a query job carries the RAG outcome.
   */
  function FinalRecord(rag: Rag.Service, job: Job, now: Time): (r: Job)
    ensures r.status == Complete && r.endTime == now && r.id == job.id
    ensures job.jobType == Ingest ==> r == job.(currentStep := IngestProcessing, endTime := now, status := Complete)
  {
    if job.jobType == Ingest then
      job.(currentStep := IngestProcessing, endTime := now, status := Complete)
    else
      QueryOutcome(rag, job, []).(endTime := now, status := Complete)
  }

  /** saveJobState: the job saved under its id with the given status. */
  method SaveJobState(svc: JobService.Service, job: Job, jobStatus: JobStatus)
    modifies svc.jobStore
    ensures svc.jobStore.jobMap == old(svc.jobStore.jobMap)[job.id := job.(status := jobStatus)]
    ensures svc.jobStore.saves == old(svc.jobStore.saves) + [job.(status := jobStatus)]
  {
    var j := job.(status := jobStatus);
    var err := svc.jobStore.SaveJob(j);
  }

  /** ingestDocument: runs the ingestion and returns the job it was given, the result dropped. */
  method IngestDocument(rag: Rag.Service, job: Job, now: Time,
                        extractText: (string, DocType) -> Result<seq<RawPage>>, newId: nat -> string)
    returns (out: Job)
    ensures out == job
  {
    var t := Rag.IngestDocument(rag, job, now, extractText, newId);
    return job;
  }

  /** processQuery: the history (empty on a lookup error), then the RAG run. */
  method ProcessQuery(svc: JobService.Service, rag: Rag.Service, job: Job) returns (out: Job)
    ensures out == Rag.Answered(rag, job, [])
  {
    var err, messageHistory := svc.messageStore.GetMessageHistory(job.chatId);
    out := Rag.ProcessRequest(rag, job, messageHistory);
  }

  /**
   * executeJob. The job is saved twice: first as it came, marked RUNNING, before any work;
   * then as its FinalRecord, COMPLETE whatever happened, which is what the store ends with
   * under its id. The chat history of a query job gains its payload when the query did not fail.
   */
  method ExecuteJob(svc: JobService.Service, rag: Rag.Service, job: Job, startTime: Time, now: Time,
                    extractText: (string, DocType) -> Result<seq<RawPage>>, newId: nat -> string)
    modifies svc.jobStore, svc.messageStore
    ensures svc.jobStore.saves == old(svc.jobStore.saves) + [job.(status := Running), FinalRecord(rag, job, now)]
    ensures svc.jobStore.jobMap == old(svc.jobStore.jobMap)[job.id := FinalRecord(rag, job, now)]
    ensures job.jobType == Ingest ==> svc.messageStore.chatMap == old(svc.messageStore.chatMap)
    ensures job.jobType != Ingest ==>
      var q := QueryOutcome(rag, job, []);
      svc.messageStore.chatMap ==
        (if q.status != StatusError then Stores.ChatSaved(old(svc.messageStore.chatMap), q.chatId, q.payload)
         else old(svc.messageStore.chatMap))
  {
    SaveJobState(svc, job, Running);
    ghost var running := svc.jobStore.jobMap;
    var j := job;
    if j.jobType == Ingest {
      j := j.(currentStep := IngestProcessing);
      j := IngestDocument(rag, j, startTime, extractText, newId);
    } else {
      j := j.(currentStep := RedisCall);
      j := ProcessQuery(svc, rag, j);
      if j.status != StatusError {
        var err := svc.messageStore.TrySaveChat(j.chatId, j.payload);
      }
    }
    j := j.(endTime := now);
    SaveJobState(svc, j, Complete);
    assert running[job.id := FinalRecord(rag, job, now)] == old(svc.jobStore.jobMap)[job.id := FinalRecord(rag, job, now)];
  }

  // ---------------------------------------------------------------------------
  // Properties

  /** A failed query is saved as COMPLETE, carrying its internal error. */
  lemma FailedQuerySavedComplete(rag: Rag.Service, job: Job, now: Time)
    requires job.jobType != Ingest && job.status != StatusError
    requires QueryOutcome(rag, job, []).status == StatusError
    ensures FinalRecord(rag, job, now).status == Complete
    ensures FinalRecord(rag, job, now).error == Rag.InternalError(true)
  {
  }

  /**
   * The record of an ingest job does not depend on the ingestion's outcome: a failed ingestion
   * is saved as COMPLETE with the job's own error, exactly like a successful one.
   */
  lemma IngestFailureInvisible(rag: Rag.Service, job: Job, now: Time,
                               extractText: (string, DocType) -> Result<seq<RawPage>>, newId: nat -> string)
    requires job.jobType == Ingest
    requires !Rag.IngestSucceeds(rag, job, now, extractText, newId)
    ensures FinalRecord(rag, job, now).status == Complete
    ensures FinalRecord(rag, job, now).error == job.error
  {
  }
}

=== FILE: wrappers.dfy ===
/** Failure-carrying wrappers used for Go's optional values and (value, error) pairs. */
module Wrappers {

  /** A value that may be absent: Go's nil pointer / nil slice, JavaScript's undefined. */
  datatype Option<+T> = None | Some(value: T)

  /** Go's (value, error) pair in which exactly one side is meaningful. */
  datatype Result<+T> = Success(value: T) | Failure(error: string)
}
